=== FILE: README.md ===
# EnviroAI trip planner: a Dafny model of its rules

EnviroAI is a travel-planning web app. It has a local trip store, pages for the
dashboard, analytics, budget, route planner, weather, deals, places, visa,
travel journal and emergency help, and three serverless functions. The weather
function wraps Open-Meteo. The places function wraps Geoapify. The deals
function wraps an LLM gateway.

This project models the logic of those parts as pure Dafny functions over
immutable datatypes and proves the rules each part promises. The modules are:

- `TripTypes` and `TripStore`: the entities of the local store and its actions.
  Each action is a state transition with frame conditions. The store's
  `deleteTrip` cascades to budget items and journal entries.
- `Rows`: the nullable database rows the pages read.
- `Metrics`, `Dashboard`, `Analytics`, `Budget`: the counts, sums, CO₂
  estimate, transport-mode tally and budget figures the pages show.
- `RoutePlanner`: the route estimate formulas and the saved trip record.
- `WeatherFunction` and `WeatherPage`: the weather-code table, geocoding
  preconditions, the seven-day reshaping, and the page's icon, gradient and
  alert classifiers.
- `DealsFunction` and `DealsPage`: the prompt's deal type, upstream status
  mapping, code-fence cleanup, deal filtering, discount and booking link.
- `PlacesFunction` and `PlacesPage`: request validation, the Geoapify query,
  field fallbacks, placeholder images, price indicator and map links.
- `Visa`, `JournalPage`, `EmergencySos`: the visa table and its fallback, and
  the guards, defaults and form resets of the journal and contact forms.
- Shared modules:
  - `Wrappers`: `Option` and `Result`.
  - `Folds`: filter, count and sum with permutation lemmas.
  - `JsText`: the JavaScript string operations the code relies on, i.e.
    `trim`, `includes`, `toLowerCase`, `split`, UTF-16 `slice`, number to
    string, and `Math.round`.
  - `Json` and `Http`: JSON values with JavaScript truthiness, and HTTP
    responses.

The clock, the hour of day, `Math.random`, parsed numbers, number
formatting, database replies and every call to an external service are
parameters of the functions that use them.

Money, distances and factors are Dafny `real`s, which are exact.
`Math.round(x)` is `Floor(x + 1/2)`.

## Model

| member | source | states |
|---|---|---|
| TripTypes.ModeName | enviroai-main/src/types/trip.ts:1 | The transport modes' literals: only a flight is "flight" and only a car is "car". |
| TripTypes.ApplyTripPatchLaws | src/store/tripStore.ts:51 | Spreading `{}` over a trip leaves it as it was. Spreading the same partial trip twice is the same as once. |
| TripStore.InitialState | src/store/tripStore.ts:38-43 | A fresh store has four empty collections, no current trip and the user name "Traveler". |
| TripStore.AddTrip | src/store/tripStore.ts:45-46 | `addTrip` appends the trip at the end without checking its id. Nothing else changes. |
| TripStore.UpdateTrip | src/store/tripStore.ts:48-53 | `updateTrip` keeps the count and order of trips. Each trip with the id becomes the merge of old and patch, stamped with the given time. Every other trip and field is unchanged. |
| TripStore.DeleteTrip | src/store/tripStore.ts:55-60 | `deleteTrip` keeps each trip, budget item and journal entry as often as before unless it carries or names the id, in which case it occurs zero times. All other rows survive in their order. Contacts, selection and user name are untouched. |
| TripStore.TripsWithout | src/store/tripStore.ts:55-60 | The trips `deleteTrip` keeps include none with the id. Every other trip is kept as often as before and in its order. |
| TripStore.ItemsWithout | src/store/tripStore.ts:55-60 | The budget items `deleteTrip` keeps include none naming the trip. Every other item is kept as often as before and in its order. |
| TripStore.EntriesWithout | src/store/tripStore.ts:55-60 | The journal entries `deleteTrip` keeps include none naming the trip. Every other entry is kept as often as before and in its order. |
| TripStore.SetCurrentTrip | src/store/tripStore.ts:62 | `setCurrentTrip` changes only the selection. |
| TripStore.AddEmergencyContact | src/store/tripStore.ts:64-65 | `addEmergencyContact` appends, and nothing else changes. |
| TripStore.RemoveEmergencyContact | src/store/tripStore.ts:67-70 | `removeEmergencyContact` keeps every contact without the id exactly as often as before and no contact with it. The rest stay in order. No other collection changes. |
| TripStore.AddBudgetItem | src/store/tripStore.ts:72-73 | `addBudgetItem` appends, and nothing else changes. |
| TripStore.RemoveBudgetItem | src/store/tripStore.ts:75-78 | `removeBudgetItem` keeps every item without the id exactly as often as before and no item with it. The rest stay in order. No other collection changes. |
| TripStore.AddJournalEntry | src/store/tripStore.ts:80-81 | `addJournalEntry` appends, and nothing else changes. |
| TripStore.UpdateJournalEntry | src/store/tripStore.ts:83-88 | `updateJournalEntry` merges the patch only into entries with the id. Unlike `updateTrip` it stamps no time. |
| TripStore.SetUserName | src/store/tripStore.ts:90 | `setUserName` changes only the user name. |
| TripStore.UpdateTripAbsent | src/store/tripStore.ts:48-53 | An update whose id no trip carries changes nothing. |
| TripStore.UpdateTripEmptyPatch | src/store/tripStore.ts:48-53 | An empty patch still refreshes `updatedAt` of the matching trips and nothing else. |
| TripStore.UpdateTripIdempotent | src/store/tripStore.ts:48-53 | Repeating an update with the same patch and time changes nothing more, even when the patch renames the trip. |
| TripStore.UpdateJournalEmptyPatch | src/store/tripStore.ts:83-88 | An empty journal patch changes nothing at all, because no timestamp is set. |
| TripStore.DeleteTripIdempotent | src/store/tripStore.ts:55-60 | Deleting the same trip twice is deleting it once. |
| TripStore.DeleteAbsentTrip | src/store/tripStore.ts:55-60 | In a store where every item and entry names an existing trip, deleting a missing trip changes nothing. |
| TripStore.DeleteAbsentTripStillCascades | src/store/tripStore.ts:55-60 | The cascade runs even when no trip has the id: an orphaned budget item with that trip id is removed. |
| TripStore.DeleteSelectedTripKeepsSelection | src/store/tripStore.ts:55-62 | Deleting the selected trip does not clear `currentTripId`, which then names a trip that is gone. |
| TripStore.InitialClosed | src/store/tripStore.ts:38-43 | In a fresh store every item and entry names an existing trip. |
| TripStore.DeleteTripPreservesClosed | src/store/tripStore.ts:55-60 | The cascade keeps every item and entry naming an existing trip. |
| TripStore.DeleteKeepsOtherTrips | src/store/tripStore.ts:55-60 | Deleting one trip leaves every other trip id still carried by a trip. |
| TripStore.AddTripPreservesClosed | src/store/tripStore.ts:45-46 | Adding a trip keeps every item and entry naming an existing trip. |
| TripStore.AddBudgetItemClosedIff | src/store/tripStore.ts:72-73 | Adding a budget item keeps that property exactly when the item names an existing trip. |
| TripStore.UpdateTripPreservesClosed | src/store/tripStore.ts:48-53 | An update that does not rename the trip keeps that property. |
| TripStore.RemovalsPreserveClosed | src/store/tripStore.ts:67-78 | Removing a budget item or a contact keeps that property. |
| TripStore.RemovalsIdempotent | src/store/tripStore.ts:67-78 | Removing the same budget item or contact twice is removing it once. |
| Metrics.EmissionFactor | src/pages/Dashboard.tsx:87 | The CO₂ factor is 0.255 exactly for "flight", 0.21 exactly for "car", and 0.05 for every other mode string. |
| Metrics.TotalsAreSums | src/pages/Dashboard.tsx:82-89 | The running totals of distance, spend and CO₂ are sums over the rows, one share each. |
| Metrics.AppendTrip | src/pages/Dashboard.tsx:80-89 | One more trip raises each total by that trip's own share and each count by at most one. |
| Metrics.CountsBounded | src/pages/Dashboard.tsx:80-81 | The upcoming and completed counts together never exceed the number of trips. |
| Metrics.OrderIndependent | src/pages/Dashboard.tsx:80-89 | The statistics do not depend on the order of the rows. |
| Metrics.Co2Bounds | src/pages/Dashboard.tsx:82-89 | With non-negative distances, CO₂ lies between 0.05 and 0.255 times the total distance. |
| Metrics.Co2BoundsIfNonNegative | src/pages/Dashboard.tsx:85-89 | For any rows, non-negative distances imply a non-negative total and CO₂ between 0.05 and 0.255 times it. |
| Metrics.Co2Examples | src/pages/Dashboard.tsx:85-89 | A 1000 km trip emits 255 by flight, 210 by car and 50 by bus. |
| Dashboard.GreetingFor | src/pages/Dashboard.tsx:40-46 | Before 12 it is morning, 12-16 afternoon, 17-20 evening, and 21 on night. |
| Dashboard.GreetingMonotone | src/pages/Dashboard.tsx:40-46 | A later hour never gets an earlier greeting, and each greeting is used at some hour. |
| Dashboard.DisplayName | src/pages/Dashboard.tsx:53 | A missing or empty profile name shows as "Traveler". Any other name shows as itself. |
| Dashboard.DashboardStats | src/pages/Dashboard.tsx:79-92 | Upcoming and completed are the numbers of trips with those statuses, and their sum is at most the number of trips. Distance, spend and CO₂ are the sums of the per-row values. With non-negative distances, CO₂ lies between 0.05 and 0.255 times the total distance. |
| Dashboard.RecentTrips | src/pages/Dashboard.tsx:241 | At most three trips are listed: the first three in fetched order. |
| Dashboard.StatusBadge | src/pages/Dashboard.tsx:269-274 | The badge is success exactly for "completed", info exactly for "upcoming", and warning otherwise. |
| Dashboard.PlanningBadge | src/pages/Dashboard.tsx:259-274 | A "planning" trip counts as upcoming but gets the warning badge and the button. |
| Dashboard.ButtonIffNotCounted | src/pages/Dashboard.tsx:259-274 | "Mark as Completed" is offered exactly on trips the completed card does not count, i.e. those without the success badge. |
| Dashboard.StatusLabel | src/pages/Dashboard.tsx:275 | The label has the status's length. A lower-case first letter becomes its upper-case form, 32 code points lower, and the rest of the status is unchanged. A status that already starts with no lower-case letter is its own label. |
| Dashboard.StatusLabels | src/pages/Dashboard.tsx:275 | The three statuses show as "Completed", "Upcoming" and "Planning", and labelling a label changes nothing. |
| Dashboard.MarkedRows | src/pages/Dashboard.tsx:97-100 | The update keeps the number of trip rows and their order. Each row with the id equals the old row with status "completed" and every other column kept; every other row is untouched. |
| Dashboard.MarkAsCompleted | src/pages/Dashboard.tsx:94-108 | A failed update, or a refetch without data, leaves the shown rows as they were. Otherwise the refetched rows are shown. When they are the table as the update left it, the marked trip is the old row with status "completed" and offers no button, and every other row is as before. |
| Dashboard.MarkAsCompletedEffect | src/pages/Dashboard.tsx:94-108 | In the updated table the marked trip is the old row with status "completed" and offers no button. Every other row is untouched, and no trip's distance or CO₂ changes. |
| Dashboard.MarkAsCompletedStats | src/pages/Dashboard.tsx:79-108 | Marking a trip completed never lowers the completed count or raises the upcoming count. Distance and CO₂ totals stay the same. |
| Analytics.DestinationsBound | src/pages/Analytics.tsx:61 | There are never more distinct destinations than trips, and zero only when there are no trips. |
| Analytics.DestinationsPermutation | src/pages/Analytics.tsx:61 | The destination set does not depend on the row order. |
| Analytics.AvgTripCost | src/pages/Analytics.tsx:58-60 | The average is 0 without trips, else the total spend per trip rounded to the nearest integer. |
| Analytics.AvgTripCostNonNegative | src/pages/Analytics.tsx:58-60 | With non-negative amounts the average is non-negative. |
| Analytics.AnalyticsStats | src/pages/Analytics.tsx:52-67 | Total trips is the row count. Completed and upcoming count the trips with those statuses, and their sum is at most the total. Distance, spend and CO₂ are the per-row sums, the average is the average trip cost, and unique destinations is the number of distinct destinations: at most the total and zero exactly without trips. |
| Analytics.AnalyticsStatsPermutation | src/pages/Analytics.tsx:52-67 | Reordering the rows changes no figure of the statistics. |
| Analytics.IndexOfMode | src/pages/Analytics.tsx:70 | Looking up a key in the tally finds that key, or reports that no entry has it. |
| Analytics.Bump | src/pages/Analytics.tsx:70 | Counting one trip grows the tally by at most one key. |
| Analytics.ModeHistogram | src/pages/Analytics.tsx:69-72 | The tally has at most one key per trip, and none exactly when there are no trips. |
| Analytics.CountModeSnoc | src/pages/Analytics.tsx:69-72 | One more trip adds one to its own mode's count only. |
| Analytics.CountModeAbsent | src/pages/Analytics.tsx:69-72 | A mode no trip uses has count zero. |
| Analytics.BumpShape | src/pages/Analytics.tsx:70 | Counting a trip keeps existing keys in place. Its mode is then a key, and a new key goes last with count 1: the tally keeps first-use order. |
| Analytics.ModeHistogramCovers | src/pages/Analytics.tsx:69-72 | Every mode used by a trip is a key of the tally. |
| Analytics.ModeHistogramDistinct | src/pages/Analytics.tsx:69-72 | No mode appears twice among the keys. |
| Analytics.ModeUsesIsCount | src/pages/Analytics.tsx:69-72 | The recursive count of a mode equals the number of trips filtered by it. |
| Analytics.BumpEntry | src/pages/Analytics.tsx:70 | Counting a trip increments its own mode's entry, or appends it with 1. Every other entry is unchanged. |
| Analytics.ModeHistogramUses | src/pages/Analytics.tsx:69-72 | Each key's count is the number of trips using it, and a mode that is not a key is used by no trip. |
| Analytics.BumpedEntryUses | src/pages/Analytics.tsx:69-72 | If the tally of the earlier trips is exact, counting one more trip keeps every entry exact. |
| Analytics.ModeHistogramCounts | src/pages/Analytics.tsx:69-72 | Each key's count is the number of its trips and at least 1. |
| Analytics.ModeHistogramPositive | src/pages/Analytics.tsx:69-72 | Every count in the tally is at least 1. |
| Analytics.ModeHistogramTotal | src/pages/Analytics.tsx:69-72 | The counts add up to the number of trips. |
| Analytics.ShareBounds | src/pages/Analytics.tsx:178 | A count between 1 and the total is a percentage in (0, 100]. |
| Analytics.ModeBreakdown | src/pages/Analytics.tsx:173-178 | The "No trips recorded yet." message shows exactly when there are no trips. Otherwise row i carries the mode and count of the tally's i-th key, and the percentage count / trips × 100. |
| Analytics.ModeBreakdownSum | src/pages/Analytics.tsx:177-178 | The exact percentages add up to 100. |
| Analytics.ModeBreakdownBounds | src/pages/Analytics.tsx:177-178 | Each percentage lies in (0, 100]. |
| Analytics.ModeLabel | src/pages/Analytics.tsx:74-76 | Flight, train, bus, car and bike get the labels "Flights", "Trains", "Buses", "Car/Cab" and "Bike". Any other mode string shows as itself. |
| Budget.ValuesOf | src/pages/Budget.tsx:55-62 | The values of the category list, one per category, in order. |
| Budget.CategoryValues | src/pages/Budget.tsx:55-62 | There are six category values and no two are equal. |
| Budget.CategoryOf | src/pages/Budget.tsx:298 | An expense shows its own category when the page knows it, and "Other" (the sixth) for any other value. |
| Budget.FindCategory | src/pages/Budget.tsx:298 | The search finds a category with the value, and fails exactly when no category has it. |
| Budget.ItemTitle | src/pages/Budget.tsx:311 | An expense is titled by its description when that is non-empty, and by its category's caption when it is empty. |
| Budget.FindTrip | src/pages/Budget.tsx:101 | The lookup finds the first trip with the id, and fails exactly when none has it. |
| Budget.EstimatedBudget | src/pages/Budget.tsx:99-101 | For "all" the estimate is the sum of trip costs (missing as 0), or 25000 when that is 0. For a selected trip found by id it is that trip's cost, or 25000 when the cost is missing or 0. An absent trip gives 25000. It is never 0. |
| Budget.TripBudgetItems | src/pages/Budget.tsx:103-105 | "All" counts every expense. For a trip, each expense recorded against it occurs as often as in the input and every other expense zero times, in their order. |
| Budget.UnassignedOnlyInAll | src/pages/Budget.tsx:103-105 | An expense with no trip is counted only under "all". |
| Budget.TripSpendAtMostAll | src/pages/Budget.tsx:103-107 | With non-negative amounts, one trip's spending is at most the spending under "all". |
| Budget.Percentage | src/pages/Budget.tsx:108 | The bar is the spent share of the budget in percent, capped at 100. It is 100 exactly when the share reaches 100. |
| Budget.Abs | src/pages/Budget.tsx:246 | The absolute value is non-negative and equals the value or its negation. |
| Budget.BudgetOverview | src/pages/Budget.tsx:99-109 | Remaining plus spent is the estimate. "Over budget" shows exactly when spending exceeds the estimate, with a non-negative amount. The bar is the capped percentage of spent over estimate, at most 100, and the expense count is the selection's size. |
| Budget.OverviewBar | src/pages/Budget.tsx:108-109 | With a positive estimate the bar is full exactly when nothing remains. An overspent budget shows a full bar, and non-negative spending a non-negative one. |
| Budget.RatioReaches | src/pages/Budget.tsx:108-109 | Against a positive estimate, spent/estimate·100 reaches 100 exactly when the spending reaches the estimate. It is non-negative for non-negative spending. |
| Budget.CategoryTotalsOf | src/pages/Budget.tsx:111-116 | One card per category, in the list's order, and each card's total is the sum of the amounts of the expenses in that category. |
| Budget.CategoryTotals | src/pages/Budget.tsx:111-116 | There are six category cards, in the category list's order, each holding the sum of the amounts of its category's expenses. |
| Budget.AmountIfInSplit | src/pages/Budget.tsx:111-116 | An expense's share over a list of distinct categories splits into the first category's share and the rest's. |
| Budget.CategoryTotalIsMaskedSum | src/pages/Budget.tsx:113-115 | A card holds the amounts of exactly the expenses whose category equals its value. |
| Budget.CategoryTotalsOfSum | src/pages/Budget.tsx:111-116 | Over distinct categories, the cards add up to the spending on those categories. |
| Budget.CategoryTotalsSum | src/pages/Budget.tsx:111-116 | The six cards add up to the spending on known categories. An unknown category is in no card, so the cards add up to the total only when every category is known. |
| Budget.KnownCategoriesSum | src/pages/Budget.tsx:107-116 | When every expense has a listed category, the cards' masked sum is the whole spending. |
| Budget.ExpenseToInsert | src/pages/Budget.tsx:118-132 | An empty amount or no user is refused with "Please enter an amount". Otherwise the row has trip null exactly for "all", the form's category, amount and description, currency "INR", and as date the part of the timestamp before its first "T". |
| Budget.FormAfterInsert | src/pages/Budget.tsx:134-142 | A successful insert clears amount and description, closes the dialog and keeps the category. A failure keeps the form. |
| Budget.NoDoubleSubmit | src/pages/Budget.tsx:118-142 | After a successful add the cleared form is refused until an amount is entered again. |
| Budget.WithoutExpense | src/pages/Budget.tsx:146 | After the delete no expense has the id, and every other expense stays as often as before, in order. |
| Budget.RemoveExpense | src/pages/Budget.tsx:145-154 | An error, or a refetch without data, leaves the shown expenses as they were. Otherwise the refetched rows are shown. When they are the table as the delete left it, they keep every expense without the id as often as before and none with it, in order. |
| Budget.RemoveExpenseSpend | src/pages/Budget.tsx:145-154 | With non-negative amounts, removing an expense never raises the spending. |
| RoutePlanner.Speed | src/pages/RoutePlanner.tsx:27-33 | Every mode's speed is positive, so the duration's division is defined. |
| RoutePlanner.CostPerKm | src/pages/RoutePlanner.tsx:27-33 | Every mode's fare per km is positive. |
| RoutePlanner.MockDistance | src/pages/RoutePlanner.tsx:63 | For a random draw in [0, 1) the mock distance lies in [200, 2199]. |
| RoutePlanner.RouteFor | src/pages/RoutePlanner.tsx:64-70 | Duration, cost and CO₂ are distance over speed, distance times fare, and distance times the 0.255/0.21/0.05 factor, each rounded to the nearest integer. |
| RoutePlanner.CalculateRoute | src/pages/RoutePlanner.tsx:51-72 | An empty origin, destination or departure date is refused with a fixed message. Otherwise the result is the selected mode's figures for a distance in [200, 2199]. |
| RoutePlanner.AfterCalculate | src/pages/RoutePlanner.tsx:51-72 | Only the shown route can change: every input field, the dates included, is kept. A refused calculation leaves the form unchanged, and a successful one stores its result. |
| RoutePlanner.DurationComparison | src/pages/RoutePlanner.tsx:27-33 | For the same distance, flying is never slower and cycling never faster than any mode. |
| RoutePlanner.CostComparison | src/pages/RoutePlanner.tsx:27-33 | For the same distance no mode costs more or emits more than flying. |
| RoutePlanner.ModeRates | src/pages/RoutePlanner.tsx:27-33 | Each mode's unrounded hours, fare and CO₂ lie between those of the extreme modes. |
| RoutePlanner.SaveTrip | src/pages/RoutePlanner.tsx:74-96 | Without a route nothing happens. Without a user the save is refused. Otherwise the row is a "planning" trip with the route's figures, the form's departure date, the duration "<n> hours", and the form's return date, or null exactly when that is empty. |
| RoutePlanner.AfterSave | src/pages/RoutePlanner.tsx:100-117 | A successful save clears the fields and the route and keeps the mode. A failed save keeps the form. |
| RoutePlanner.NoDoubleSave | src/pages/RoutePlanner.tsx:74-117 | After a successful save, saving again does nothing and a new calculation is refused. |
| RoutePlanner.SavedTripAgreesWithDashboard | src/pages/RoutePlanner.tsx:63-96 | A saved route counts as upcoming on the dashboard. Its stored CO₂ is the dashboard's estimate rounded, and its distance is in [200, 2199]. |
| WeatherFunction.GetCondition | enviroai-main/supabase/functions/weather/index.ts:9-90 | A listed code gets its table entry. Any other code gets the condition "Unknown", "unknown", "01d", and only those codes are reported as "Unknown". |
| WeatherFunction.ConditionByDecade | enviroai-main/supabase/functions/weather/index.ts:9-31 | The table follows the decades of WMO code table 4677: 0-1 clear, 2-3 clouds, 4x fog, 5x drizzle, 6x and 80-82 rain, 7x snow, 95-99 thunderstorm. |
| WeatherFunction.IconCodes | enviroai-main/supabase/functions/weather/index.ts:9-90 | The icon of each code, in both directions: which codes give "01d", "02d", "03d", "50d", "09d", "10d", "13d" and "11d". |
| WeatherFunction.MainsReported | enviroai-main/supabase/functions/weather/index.ts:9-90 | Every code is reported as one of eight conditions. |
| WeatherFunction.UnlistedOpenMeteoCodes | enviroai-main/supabase/functions/weather/index.ts:9-90 | Codes Open-Meteo serves but the table lacks (freezing drizzle and rain, snow grains, snow showers) are reported as "Unknown". |
| WeatherFunction.ParsedNumber | enviroai-main/supabase/functions/weather/index.ts:58-59 | A parsed coordinate is truthy exactly when it is a number other than 0. `NaN` counts as falsy. |
| WeatherFunction.GeocodedName | enviroai-main/supabase/functions/weather/index.ts:60 | The place is named by the text of its display name before the first comma. When that is missing or empty, the input location is used. |
| WeatherFunction.Locate | enviroai-main/supabase/functions/weather/index.ts:41-65 | Without geocoding, the place is the request's coordinates, named by its location or "Unknown". With geocoding, the first hit is used, an empty answer is "Location not found", and a failed call passes its error on. |
| WeatherFunction.ToCurrent | enviroai-main/supabase/functions/weather/index.ts:92-104 | Current temperature, feels-like and wind are rounded to the nearest integer. Humidity is kept, and the condition is looked up from the code. |
| WeatherFunction.ToDay | enviroai-main/supabase/functions/weather/index.ts:106-118 | A day's temperature is the rounded mean of its extremes, and each extreme is rounded separately. The wind speed is the day's maximum wind rounded. Humidity is the day's maximum, and the condition is looked up. |
| WeatherFunction.DayTempBetween | enviroai-main/supabase/functions/weather/index.ts:110-112 | The rounded mean temperature lies between the rounded minimum and maximum. |
| WeatherFunction.Daily | enviroai-main/supabase/functions/weather/index.ts:105 | The forecast has the first seven days, or fewer when fewer are given, in order. |
| WeatherFunction.Transform | enviroai-main/supabase/functions/weather/index.ts:95-126 | The reshaped data has an empty alerts list, the located place, and the reshaped current and daily blocks. |
| WeatherFunction.Handle | enviroai-main/supabase/functions/weather/index.ts:33-140 | A response is 200 with data or 500 with an error. A location failure is reported with its message, and a location without truthy coordinates as "Coordinates required. Please provide a location." Data exists only after a successful forecast call and is that forecast transformed for the location; conversely a located request with coordinates and a successful forecast gets exactly that 200. Data has no alerts, at most seven days and truthy coordinates. |
| WeatherFunction.CoordinatesSkipGeocoding | enviroai-main/supabase/functions/weather/index.ts:46 | With both coordinates truthy the geocoder is not consulted, and the data carries the request's coordinates. |
| WeatherFunction.EmptyGeocodeNotFound | enviroai-main/supabase/functions/weather/index.ts:57-64 | An empty geocoder answer gives a 500 with "Location not found". |
| WeatherFunction.FalsyCoordinatesRefused | enviroai-main/supabase/functions/weather/index.ts:67-69 | Without a location, a falsy coordinate, zero included, gives a 500 with "Coordinates required". |
| WeatherFunction.UpstreamStatusReported | enviroai-main/supabase/functions/weather/index.ts:78-82 | A failed forecast call gives a 500 whose error names the upstream status. |
| WeatherFunction.GeocodedNameExample | enviroai-main/supabase/functions/weather/index.ts:60 | "Goa, India" is named "Goa". A display name with an empty first segment, or none at all, falls back to the input. |
| WeatherPage.WeatherIconSpec | enviroai-main/src/pages/Weather.tsx:50-56 | First match wins: a sun exactly for "01"/"02", rain exactly when no earlier group matched and "09"/"10"/"11" occurs, snow exactly when only "13" matches. |
| WeatherPage.GradientOfLower | enviroai-main/src/pages/Weather.tsx:59-63 | On lower-cased text: warm exactly for clear or sun, cool exactly for rain, drizzle or thunder without those, info exactly for snow without any earlier word. |
| WeatherPage.AlertOfLower | enviroai-main/src/pages/Weather.tsx:99-106 | On lower-cased text: caution exactly for rain, storm or thunder. High risk exactly for snow, extreme or hurricane without any of those. |
| WeatherPage.ClassifiersIgnoreCase | enviroai-main/src/pages/Weather.tsx:58-64 | The background and the alert level do not depend on the case of the condition. |
| WeatherPage.RainBeforeSnow | enviroai-main/src/pages/Weather.tsx:98-107 | "Rain and Snow" is a caution, not a high risk, because rain is checked first. |
| WeatherPage.SunIcons | enviroai-main/src/pages/Weather.tsx:50-56 | The icon codes "01d" and "02d" are drawn as Sun. |
| WeatherPage.Icon03d | enviroai-main/src/pages/Weather.tsx:50-56 | The icon code "03d" is drawn as Cloud. |
| WeatherPage.Icon50d | enviroai-main/src/pages/Weather.tsx:50-56 | The icon code "50d" is drawn as Cloud. |
| WeatherPage.Icon09d | enviroai-main/src/pages/Weather.tsx:50-56 | The icon code "09d" is drawn as CloudRain. |
| WeatherPage.Icon10d | enviroai-main/src/pages/Weather.tsx:50-56 | The icon code "10d" is drawn as CloudRain. |
| WeatherPage.Icon11d | enviroai-main/src/pages/Weather.tsx:50-56 | The icon code "11d" is drawn as CloudRain. |
| WeatherPage.Icon13d | enviroai-main/src/pages/Weather.tsx:50-56 | The icon code "13d" is drawn as CloudSnow. |
| WeatherPage.IconOfCode | enviroai-main/src/pages/Weather.tsx:50-56 | Over the weather function's table: a sun exactly for codes 0-2 and unknown codes, a plain cloud exactly for overcast and fog, rain clouds exactly for drizzle, rain and thunderstorms, snow clouds exactly for snow. |
| WeatherPage.LowerConditions | enviroai-main/src/pages/Weather.tsx:59 | Lower-casing the function's condition names gives the words the classifiers look for. |
| WeatherPage.ClearGradient | enviroai-main/src/pages/Weather.tsx:58-64 | The condition "clear" gets the warm background. |
| WeatherPage.ClearAlert | enviroai-main/src/pages/Weather.tsx:98-107 | The condition "clear" gets the safe alert level. |
| WeatherPage.CloudsGradient | enviroai-main/src/pages/Weather.tsx:58-64 | The condition "clouds" gets the muted background. |
| WeatherPage.CloudsAlert | enviroai-main/src/pages/Weather.tsx:98-107 | The condition "clouds" gets the safe alert level. |
| WeatherPage.MutedGradients | enviroai-main/src/pages/Weather.tsx:58-64 | The conditions "fog" and "unknown" match no keyword and get the muted background. |
| WeatherPage.FogAlert | enviroai-main/src/pages/Weather.tsx:98-107 | The condition "fog" gets the safe alert level. |
| WeatherPage.DrizzleGradient | enviroai-main/src/pages/Weather.tsx:58-64 | The condition "drizzle" gets the cool background. |
| WeatherPage.DrizzleAlert | enviroai-main/src/pages/Weather.tsx:98-107 | The condition "drizzle" gets the safe alert level. |
| WeatherPage.RainGradient | enviroai-main/src/pages/Weather.tsx:58-64 | The condition "rain" gets the cool background. |
| WeatherPage.RainAlert | enviroai-main/src/pages/Weather.tsx:98-107 | The condition "rain" gets the caution alert level. |
| WeatherPage.SnowGradient | enviroai-main/src/pages/Weather.tsx:58-64 | The condition "snow" gets the info background. |
| WeatherPage.SnowAlert | enviroai-main/src/pages/Weather.tsx:98-107 | The condition "snow" gets the high-risk alert level. |
| WeatherPage.ThunderstormGradient | enviroai-main/src/pages/Weather.tsx:58-64 | The condition "thunderstorm" gets the cool background. |
| WeatherPage.ThunderstormAlert | enviroai-main/src/pages/Weather.tsx:98-107 | The condition "thunderstorm" gets the caution alert level. |
| WeatherPage.UnknownAlert | enviroai-main/src/pages/Weather.tsx:98-107 | The condition "unknown" gets the safe alert level. |
| WeatherPage.ThunderstormHasNoSun | enviroai-main/src/pages/Weather.tsx:60 | "thunderstorm" does not contain "sun", so it is not given the warm background. |
| WeatherPage.AlertOfMain | enviroai-main/src/pages/Weather.tsx:98-107 | Of the reported conditions, Rain and Thunderstorm are a caution, Snow is high risk, and the rest, Drizzle included, are safe. |
| WeatherPage.GradientOfMain | enviroai-main/src/pages/Weather.tsx:58-64 | Of the reported conditions, only Clear is warm. Drizzle, Rain and Thunderstorm are cool, Snow is info, and the rest are muted. |
| WeatherPage.ClassifiersOfCode | enviroai-main/src/pages/Weather.tsx:58-107 | By weather code: caution exactly for rain, showers and thunderstorms. High risk exactly for snow, warm exactly for codes 0-1, cool exactly for drizzle, rain and thunderstorms. |
| WeatherPage.RequestFor | enviroai-main/src/pages/Weather.tsx:80-82 | The page sends only the location, so a non-empty location makes the function geocode. |
| WeatherPage.Invoke | enviroai-main/src/pages/Weather.tsx:80-84 | A non-2xx response is an error. Otherwise the body is the data. |
| WeatherPage.FetchWeather | enviroai-main/src/pages/Weather.tsx:72-96 | A blank location is refused before any request. An invocation error or an error field keeps the old data. Data replaces it, selects the first day and reports success. |
| WeatherPage.BlankLocationRefused | enviroai-main/src/pages/Weather.tsx:73-76 | A whitespace-only location is refused. |
| WeatherPage.SelectDay | enviroai-main/src/pages/Weather.tsx:272 | Clicking a day card selects that day and changes nothing else. |
| WeatherPage.DailyForecast | enviroai-main/src/pages/Weather.tsx:110 | Without data the forecast list is empty. With data it is the data's daily list. |
| WeatherPage.SelectedAlert | enviroai-main/src/pages/Weather.tsx:109-112 | The alert is the selected day's level, or "safe" when no such day exists. |
| WeatherPage.HeaderGradient | enviroai-main/src/pages/Weather.tsx:118-121 | The header uses the current condition's background, or warm before any data. |
| WeatherPage.FetchThroughFunction | enviroai-main/src/pages/Weather.tsx:72-96 | Through the weather function, a 200 stores its data and selects day 0, and any other status keeps the page. The alerts panel is never shown, because the function sends no alerts. |
| WeatherPage.SelectKeepsAlertsHidden | enviroai-main/src/pages/Weather.tsx:330 | Selecting a day keeps the alerts panel hidden. |
| DealsFunction.DealType | supabase/functions/deals/index.ts:21 | A missing or empty type defaults to "all". Any other type is kept. |
| DealsFunction.PromptFor | supabase/functions/deals/index.ts:23-24 | The prompt names the destination, or "popular destinations". It asks for all kinds exactly when the type is "all", and otherwise focuses on the given type. |
| DealsFunction.StripFence | supabase/functions/deals/index.ts:91 | Removing fences, each with an optional following newline, never lengthens the text. |
| DealsFunction.ContainsInTail | supabase/functions/deals/index.ts:91 | An occurrence in the text after the first character is an occurrence in the text. |
| DealsFunction.StripFenceAbsent | supabase/functions/deals/index.ts:91 | Text without the fence passes through the removal unchanged. |
| DealsFunction.StripFencePrefix | supabase/functions/deals/index.ts:91 | A prefix without the fence's first character passes through the removal unchanged. |
| DealsFunction.StrippedTick | supabase/functions/deals/index.ts:91 | A text that starts with a backtick after the removal started with one before. |
| DealsFunction.StrippedTwoTicks | supabase/functions/deals/index.ts:91 | A text that starts with two backticks after the removal started with two before. |
| DealsFunction.NoFenceLeft | supabase/functions/deals/index.ts:91 | After the global removal of "```" no "```" is left in the text, even where removals bring backticks together. |
| DealsFunction.CleanHasNoFence | supabase/functions/deals/index.ts:91 | The cleaned answer contains no code fence. |
| DealsFunction.CleanIdempotent | supabase/functions/deals/index.ts:91 | Cleaning a cleaned answer changes nothing. |
| DealsFunction.StripOpeningFence | supabase/functions/deals/index.ts:91 | The first pass removes the opening "```json" and its newline from a fenced block. |
| DealsFunction.StripClosingFence | supabase/functions/deals/index.ts:91 | The second pass removes the closing "```" of a fenced block. |
| DealsFunction.CleanFencedBlock | supabase/functions/deals/index.ts:91 | An answer wrapped in a JSON code block cleans to its trimmed body. |
| DealsFunction.CleanPlainAnswer | supabase/functions/deals/index.ts:91 | An answer without backticks is only trimmed. |
| DealsFunction.Handle | supabase/functions/deals/index.ts:13-105 | A response is 200 with deals or 402, 429 or 500 with an error. A missing key gives a 500. A failed gateway call gives a 500 with its message. A successful call gives 200 with the parse of the cleaned answer, or 500 with the parse error; deals exist only in that case. |
| DealsFunction.GatewayStatusMapping | supabase/functions/deals/index.ts:67-85 | A gateway 429 is a 429 and a 402 is a 402, each with its fixed message. Any other failure status is a 500 with "Failed to generate deals". |
| DealsFunction.FencedAnswerParsed | supabase/functions/deals/index.ts:87-97 | An answer wrapped in a JSON code block reaches the parser unwrapped, and its result is returned as `{ deals }`. |
| DealsPage.StyleOf | enviroai-main/src/pages/Deals.tsx:35-40 | The flash-sale, early-bird and last-minute types get their own badge (the code's lookup is at line 192). Every other type, an unknown one included, gets the exclusive badge. |
| DealsPage.StylesDistinct | enviroai-main/src/pages/Deals.tsx:35-40 | Two deal types share a badge exactly when they are equal or neither is one of the three named types. |
| DealsPage.Discount | enviroai-main/src/pages/Deals.tsx:193 | The discount is the saving as a percentage of the original price, rounded to the nearest integer. An original price of 0 gives no number. |
| DealsPage.PercentBetween | enviroai-main/src/pages/Deals.tsx:193 | A discounted price between (1-hi) and (1-lo) of the original gives a saving between lo and hi per cent. |
| DealsPage.DiscountPercentRange | enviroai-main/src/pages/Deals.tsx:193 | A discounted price between 0 and a positive original shows a discount of 0 to 100 per cent. |
| DealsPage.DiscountAsRequested | enviroai-main/src/pages/Deals.tsx:193 | Deals with the 15-50% discounts the prompt asks for show a discount of 15 to 50 per cent. |
| DealsPage.BookingUrl | enviroai-main/src/pages/Deals.tsx:195-199 | Flights book on Skyscanner and hotels on Booking.com, each exactly for that kind. Every other kind books on Viator. |
| DealsPage.RequestType | enviroai-main/src/pages/Deals.tsx:56-58 | The "all" tab requests all kinds, "flights" requests flight and "hotels" hotel, each exactly. Any other tab requests activity. |
| DealsPage.FilteredDealsSpec | enviroai-main/src/pages/Deals.tsx:84-90 | The shown deals keep their order. A kind tab shows exactly the held deals of its kind. "All" or an unknown tab shows every deal. |
| DealsPage.KindTabsPartition | enviroai-main/src/pages/Deals.tsx:84-90 | The flights and hotels tabs together show no more deals than "all", and neither does the activities tab. |
| DealsPage.RequestOf | enviroai-main/src/pages/Deals.tsx:60-62 | The page sends its destination and the active tab's request type. |
| DealsPage.FetchDeals | enviroai-main/src/pages/Deals.tsx:48-75 | A blank destination is refused before any request. An invocation error or an error field keeps the old list with a failure message. Otherwise the list becomes the reply's deals, or empty when there are none, and their count is reported. |
| DealsPage.TabChange | enviroai-main/src/pages/Deals.tsx:77-82 | Changing tabs changes only the active tab, and nothing is fetched. |
| DealsPage.TabChangeRefilters | enviroai-main/src/pages/Deals.tsx:77-90 | After a tab change the shown deals are the held deals filtered by the new tab. Switching back restores the page. |
| DealsPage.Invoke | enviroai-main/src/pages/Deals.tsx:60-65 | A non-2xx response is an error. A deals body becomes the reply's decoded deals. |
| DealsPage.PageRequestPrompt | enviroai-main/src/pages/Deals.tsx:56-62 | The prompt for the page's request names the entered destination. It widens to every kind exactly on the "all" tab. |
| DealsPage.FunctionFailureKeepsDeals | enviroai-main/src/pages/Deals.tsx:60-71 | Every failure of the deals function keeps the list and shows the generic failure message. |
| PlacesPage.TypeName | src/pages/Places.tsx:140-142 | Each place type is written as its own lower-case name, and each name belongs to only one type. |
| PlacesPage.CategoriesDisjoint | src/pages/Places.tsx:39-43 | Every type searches at least one Geoapify category, and no category is searched by two types. |
| PlacesPage.Images | src/pages/Places.tsx:47-66 | Each type has four placeholder images. |
| PlacesPage.PlaceholderImage | src/pages/Places.tsx:46-68 | A card's placeholder is always one of its type's images. |
| PlacesPage.PlaceholderCycle | src/pages/Places.tsx:67 | The placeholders repeat every four cards. Any four cards in a row get four different images. |
| PlacesPage.ImagesDistinct | src/pages/Places.tsx:47-66 | The four images of a type are pairwise different. |
| PlacesPage.PriceIndicator | src/pages/Places.tsx:166-169 | A missing or zero level shows nothing. Otherwise the text is exactly `level` rupee signs. |
| PlacesPage.MockPriceLevel | src/pages/Places.tsx:132 | For a random draw in [0, 1), the invented price level is 1, 2 or 3. |
| PlacesPage.MockPriceShown | src/pages/Places.tsx:132-169 | An invented level shows one to three rupee signs. Two levels show the same signs only when they are equal. |
| PlacesPage.MapsTargetOf | src/pages/Places.tsx:159-164 | The map opens at the coordinates exactly when both are present and non-zero. Otherwise it searches for the name, a space and the location. |
| PlacesPage.MapsUrl | src/pages/Places.tsx:160-162 | Every map link is a Google Maps search URL. Its query is either "lat,lng" or the encoded search text. |
| PlacesPage.ZeroCoordinateSearchesByName | src/pages/Places.tsx:160-162 | A place at latitude 0 or longitude 0 is searched for by name, because 0 is falsy. |
| PlacesPage.Description | src/pages/Places.tsx:131 | The description is never empty and contains no '.'. It is the type's name when there is no category; otherwise it is the category with each '.' turned into " › ". |
| PlacesPage.ToCard | src/pages/Places.tsx:123-136 | A card keeps the item's id and coordinates and the searched type. Its name defaults to "Unknown Place", its location defaults to the search text, and its image follows the card's position. |
| PlacesPage.Cards | src/pages/Places.tsx:123 | An answer that is not a list gives no cards. A list gives one card per element, in order. |
| PlacesPage.RequestFor | src/pages/Places.tsx:110-117 | The request carries the geocoded coordinates, a 5000 m radius and the type's categories, in order. |
| PlacesPage.PageRequestAccepted | src/pages/Places.tsx:110-117 | The page's request always passes the function's checks. Geoapify is asked for the comma-joined categories within 5 km of the location. |
| PlacesPage.FetchPlaces | src/pages/Places.tsx:93-150 | A blank query is refused, and an unknown location stops the search. Any failure keeps the old cards and shows an error. A successful call replaces the cards and shows no error. It shows an info toast naming the type and query exactly when there are none, and otherwise a success toast with the count. |
| PlacesPage.TabChange | src/pages/Places.tsx:152-157 | A tab change always switches the tab. It fetches the new type exactly when the query is not blank. |
| PlacesPage.FunctionPlacesShown | src/pages/Places.tsx:123-136 | The function's places become cards in the same order. Each card keeps its place's name, is located at its address or else the query, and is described by its category. |
| PlacesFunction.SearchRadius | enviroai-main/supabase/functions/places/index.ts:55 | The radius is always positive. It is the request's radius when that is a positive number, otherwise 3000 m. |
| PlacesFunction.Validate | enviroai-main/supabase/functions/places/index.ts:41-53 | A request is accepted exactly when both coordinates are numbers and the categories are a non-empty array. The coordinate check comes first. |
| PlacesFunction.QueryFor | enviroai-main/supabase/functions/places/index.ts:67-68 | The query joins the categories with commas and gives the circle as longitude, then latitude, then radius. It asks for at most 50 results. |
| PlacesFunction.FirstCategory | enviroai-main/supabase/functions/places/index.ts:95 | The category is never empty. It is the first category when that is non-empty, and "unknown" otherwise. |
| PlacesFunction.ToPlace | enviroai-main/supabase/functions/places/index.ts:88-96 | A place keeps the feature's coordinates. Its name, address and id each fall back in the stated order, ending in "Unknown Place", the empty string and an invented "place-" id. |
| PlacesFunction.ToPlaces | enviroai-main/supabase/functions/places/index.ts:87-97 | A missing feature list gives no places. Otherwise there is one place per feature, in order. |
| PlacesFunction.Handle | enviroai-main/supabase/functions/places/index.ts:36-111 | Invalid requests get a 400 with the validation message. A missing key gets a 500. For a valid request with a key, a failed Geoapify call gets a 500 with its message and a successful one a 200 with exactly its reshaped features; a 200 arises no other way. |
| PlacesFunction.UpstreamStatusReported | enviroai-main/supabase/functions/places/index.ts:74-81 | A failure status from Geoapify becomes a 500 whose message carries that status. |
| PlacesFunction.UpstreamErrorsDistinct | enviroai-main/supabase/functions/places/index.ts:78 | Different upstream statuses give different messages. |
| PlacesFunction.MissingFeaturesGiveNoPlaces | enviroai-main/supabase/functions/places/index.ts:87 | A successful answer without features is an empty list, not an error. |
| PlacesFunction.NamedFeatureKept | enviroai-main/supabase/functions/places/index.ts:91-95 | A feature with a name, formatted address and first category keeps all three. |
| Visa.RegionalIndicator | enviroai-main/src/pages/Visa.tsx:26-45 | A flag letter is an astral character, two UTF-16 code units wide. |
| Visa.Flag | enviroai-main/src/pages/Visa.tsx:26-45 | A country's flag is two regional indicators, four UTF-16 code units in all. |
| Visa.Find | enviroai-main/src/pages/Visa.tsx:132-133 | A found option is in the list and has the code. Nothing is found exactly when no option has the code. |
| Visa.NameOfSpec | enviroai-main/src/pages/Visa.tsx:132-133 | Cutting four code units off a listed country's label leaves a space and the name. An unlisted code names itself. |
| Visa.OptionsValid | enviroai-main/src/pages/Visa.tsx:26-45 | Every selector option has a two-letter upper-case code. |
| Visa.FindFirst | enviroai-main/src/pages/Visa.tsx:132-133 | The lookup returns the first option with the code. |
| Visa.ThailandName | enviroai-main/src/pages/Visa.tsx:35-132 | Thailand is named " Thailand", with the leading space, when it is named from its label. |
| Visa.MockVisaData | enviroai-main/src/pages/Visa.tsx:47-109 | The table answers exactly the keys IN-TH, IN-SG, IN-AE and IN-NP. |
| Visa.Lookup | enviroai-main/src/pages/Visa.tsx:130-147 | A known pair gets the table's entry. Every other pair gets the generic "visa required" answer: seven requirements, 7-15 business days, fee "Varies", no health requirements, and both countries named from their labels. |
| Visa.KeyOfPair | enviroai-main/src/pages/Visa.tsx:130 | A pair's key equals IN-XX for a table destination XX exactly when the pair is India and XX. |
| Visa.KeyInTable | enviroai-main/src/pages/Visa.tsx:130-131 | A pair's key is in the table exactly when the nationality is India and the destination is Thailand, Singapore, the UAE or Nepal. |
| Visa.TableEntries | enviroai-main/src/pages/Visa.tsx:47-109 | No table entry says "visa required", and each links to an official source. Nepal is visa-free, Thailand is visa on arrival, and Singapore and the UAE are e-visas. Only Thailand lists health requirements. |
| Visa.TableAnswers | enviroai-main/src/pages/Visa.tsx:130-147 | A pair gets an answer other than "visa required" exactly when it is India with one of the four table destinations, each with its table type. |
| Visa.OtherTravellersToThailand | enviroai-main/src/pages/Visa.tsx:130-147 | A traveller from outside India to Thailand is told a visa is required, and Thailand is named " Thailand". |
| Visa.StylesDistinct | enviroai-main/src/pages/Visa.tsx:111-116 | The four visa types have four different styles and four different captions. |
| Visa.HealthCardOnlyForThailand | enviroai-main/src/pages/Visa.tsx:302 | The health card shows exactly for Indian travellers to Thailand. Every answer has an official link. |
| Visa.CheckVisa | enviroai-main/src/pages/Visa.tsx:124-151 | Without a destination nothing changes. Otherwise the page shows the lookup for the selected pair. |
| Visa.CheckVisaIdempotent | enviroai-main/src/pages/Visa.tsx:124-151 | Checking twice shows the same answer as checking once. |
| JournalPage.FindMood | src/pages/Journal.tsx:121 | A found mood has the stored value. Nothing is found exactly when no mood has it. |
| JournalPage.GetMoodInfo | src/pages/Journal.tsx:120-122 | The badge is always one of the six moods. It is the stored mood when that is known, and "neutral" for a missing or unknown mood. |
| JournalPage.MoodShownIffKnown | src/pages/Journal.tsx:44-122 | The badge shows the stored mood exactly when it is one of the six. |
| JournalPage.InsertDate | src/pages/Journal.tsx:91 | The stored date contains no 'T'. |
| JournalPage.InsertDateOfTimestamp | src/pages/Journal.tsx:91 | The stored date is the date part of an ISO timestamp. |
| JournalPage.AddEntry | src/pages/Journal.tsx:78-92 | An entry is refused exactly when the title, the content or the user is missing. Otherwise the form's entry is inserted for the user, with an empty location stored as null and today's date. |
| JournalPage.AfterAdd | src/pages/Journal.tsx:94-106 | A failed insert keeps the form and reports the failure. A success clears the form, resets the mood to "happy" and closes the dialog. |
| JournalPage.NoDoubleAdd | src/pages/Journal.tsx:78-106 | After a successful add, the cleared form is refused. |
| JournalPage.ChosenMoodShown | src/pages/Journal.tsx:85-122 | A mood chosen in the selector is shown with its own badge. |
| EmergencySos.NumbersDistinct | src/pages/EmergencySOS.tsx:37-49 | The four emergency numbers are different. The nearby police and fire stations answer on the police and fire numbers. |
| EmergencySos.CallUrl | src/pages/EmergencySOS.tsx:94-96 | A call goes to the "tel:" URL followed by the number. |
| EmergencySos.CallUrlInjective | src/pages/EmergencySOS.tsx:94-96 | Different numbers are called through different URLs. |
| EmergencySos.SosCallsEmergency | src/pages/EmergencySOS.tsx:159 | The SOS button calls the general emergency number and no other service. |
| EmergencySos.AddContact | src/pages/EmergencySOS.tsx:98-109 | A contact is refused exactly when the name, the phone or the user is missing. Otherwise it is inserted for the user, with the relationship defaulting to "Other". |
| EmergencySos.AfterAddContact | src/pages/EmergencySOS.tsx:111-120 | A failed insert keeps the form. A success clears the inputs and closes the dialog. |
| EmergencySos.NoDoubleContact | src/pages/EmergencySOS.tsx:98-120 | After a successful add, the cleared form is refused. |

## Left out

- Rendering: the JSX markup, CSS classes, icons and animations. Only the branches that choose a shown value are modelled.
- Layout, routing and navigation: `App`, `AppLayout`, `TopNav`, `BottomNav`, `MoreMenu`, `StatCard` and `QuickActionCard` hold no logic.
- The AI analyst page: its itinerary call is a network call and has no rule of its own to model.
- Database calls: every Supabase select, insert, update and delete, and the order of fetched rows. Each insert is modelled as the record it builds, and each reply as a parameter. A refetch after a write is a parameter too; the lemmas about the write's effect take the reply to be the table as the write left it, in the same order. Fetching and deleting journal entries and emergency contacts are plain database calls and are not modelled.
- Persistence of the store: the `persist` middleware and localStorage behave as library code, so no serialisation round-trip is claimed.
- The serverless wrapper: `serve`, the CORS preflight, the CORS headers, `req.json()`, and logging, including the redacted API-key log line. Request bodies that are not objects are not modelled.
- External services: Nominatim, Open-Meteo, Geoapify and the LLM gateway. Their answers are parameters.
- The deals prompt's fixed wording, model name and system message. The gateway's reply is a parameter that does not depend on the prompt.
- The extraction of `data.choices[0].message.content` from the gateway's reply. The reply is taken to be that text.
- `JSON.parse` and the decoding of the parsed value into deal records. Both are parameters.
- Randomness: `Math.random` supplies the mock route distance, the place ratings, review counts, price levels, opening flags and random place ids. It is a parameter: a draw in [0, 1), or a suffix function for ids.
- The clock (`new Date()`, the hour of day) and the `setTimeout` delays: one second on the visa page and one and a half seconds on the route planner. The clock is a parameter; the delays change nothing.
- Loading flags and spinners.
- `navigator.geolocation` and the address line of the emergency page.
- Number formatting: `toFixed`, `toLocaleString` and `toLocaleDateString`, including the weekday name. Each is a parameter, or the number is kept as a number.
- IEEE-754 arithmetic: amounts are exact reals, so only exact-real equalities are claimed.
- `parseFloat` and `NaN`: a parsed coordinate is a parameter, and an unparsable one is `None`.
- `encodeURIComponent`: a parameter.
- Unicode case mapping: `toLowerCase` and the upper-casing of a status's first letter map ASCII letters only.
- Object-key collisions: a transport mode or lookup key named like an `Object.prototype` member is not modelled.
- Weather daily arrays of different lengths: the arrays are read as one record per day.
- Geocoding on the places page: the geocoder's answer is a parameter.
- JsText.SliceUtf16: a cut that falls inside a surrogate pair drops the whole character, where JavaScript would keep a lone low surrogate. Strings are sequences of code points, so a lone surrogate cannot be represented. The visa labels are always cut on a character boundary.
- RoutePlanner.Speed: states only that every speed is positive. The per-mode values are the table itself, and the route lemmas use them.
- RoutePlanner.CostPerKm: states only that every fare is positive, for the same reason.
- WeatherFunction.Handle: a thrown error is modelled as a `Failure` body carrying the message. JavaScript's `instanceof Error` test is not modelled.
- Analytics.ModeHistogram: keys are kept in first-use order. JavaScript lists integer-like keys such as "2" first, in ascending order; this is not reproduced, as the transport modes are words.
- Visa fallback names: `label.slice(4)` cuts the four UTF-16 code units of the flag, so a fallback name keeps the space after the flag, as in " Thailand". This is modelled as written.

=== FILE: analytics.dfy ===
/** The analytics page: the statistics block, the average trip cost, the
    number of distinct destinations, and the "Transport Modes Used"
    breakdown with its share per mode. The rows fetched from the database
    are parameters. */
module Analytics {
  import opened Wrappers
  import opened Rows
  import JsText
  import Metrics
  import Folds

  // ---------------------------------------------------------------------------
  // Statistics

  /** The set of destinations: `new Set(trips.map(t => t.destination))`. */
  function Destinations(trips: seq<TripRow>): set<string> {
    set i | 0 <= i < |trips| :: trips[i].destination
  }

  /** There are never more distinct destinations than trips, and none only when there are no trips. */
  lemma {:induction false} DestinationsBound(trips: seq<TripRow>)
    ensures |Destinations(trips)| <= |trips|
    ensures |Destinations(trips)| == 0 <==> |trips| == 0
    decreases |trips|
  {
    if |trips| > 0 {
      var init := trips[..|trips| - 1];
      var last := trips[|trips| - 1];
      DestinationsBound(init);
      assert Destinations(trips) == Destinations(init) + {last.destination} by {
        forall d | d in Destinations(trips) ensures d in Destinations(init) + {last.destination} {
          var i :| 0 <= i < |trips| && trips[i].destination == d;
          if i < |trips| - 1 {
            assert init[i] == trips[i];
          }
        }
        forall d | d in Destinations(init) ensures d in Destinations(trips) {
          var i :| 0 <= i < |init| && init[i].destination == d;
          assert trips[i] == init[i];
        }
      }
      assert last.destination in Destinations(trips);
    }
  }

  /** The number of destinations does not depend on the order of the rows. */
  lemma DestinationsPermutation(a: seq<TripRow>, b: seq<TripRow>)
    requires multiset(a) == multiset(b)
    ensures Destinations(a) == Destinations(b)
  {
    forall d | d in Destinations(a) ensures d in Destinations(b) {
      var i :| 0 <= i < |a| && a[i].destination == d;
      assert a[i] in multiset(b);
      var j :| 0 <= j < |b| && b[j] == a[i];
    }
    forall d | d in Destinations(b) ensures d in Destinations(a) {
      var j :| 0 <= j < |b| && b[j].destination == d;
      assert b[j] in multiset(a);
      var i :| 0 <= i < |a| && a[i] == b[j];
    }
  }

  /** `Math.round(totalSpent / Math.max(trips.length, 1))`, or 0 without trips:
      the spend per trip, rounded to the nearest whole amount. */
  function AvgTripCost(trips: seq<TripRow>, items: seq<BudgetRow>): (r: int)
    ensures |trips| == 0 ==> r == 0
    ensures |trips| > 0 ==>
              r as real - 0.5 <= Metrics.TotalSpend(items) / |trips| as real < r as real + 0.5
  {
    if |trips| > 0 then
      JsText.Round(Metrics.TotalSpend(items) / (if |trips| > 1 then |trips| else 1) as real)
    else 0
  }

  /** With no negative amounts the average is never negative. */
  lemma AvgTripCostNonNegative(trips: seq<TripRow>, items: seq<BudgetRow>)
    requires forall i :: 0 <= i < |items| ==> items[i].amount >= 0.0
    ensures AvgTripCost(trips, items) >= 0
  {
    Metrics.TotalsAreSums(trips, items);
    Folds.SumOfNonNegative(items, Metrics.Amount);
    if |trips| > 0 {
      assert Metrics.TotalSpend(items) / |trips| as real >= 0.0;
      JsText.RoundMonotone(0.0, Metrics.TotalSpend(items) / |trips| as real);
      JsText.RoundInt(0);
    }
  }

  datatype Stats = Stats(
    totalTrips: nat,
    completedTrips: nat,
    upcomingTrips: nat,
    totalDistance: real,
    totalSpent: real,
    avgTripCost: int,
    uniqueDestinations: nat,
    co2Footprint: real)

  /** The statistics block. The shared figures use the same formulas as the dashboard. */
  function AnalyticsStats(trips: seq<TripRow>, items: seq<BudgetRow>): (r: Stats)
    ensures r.totalTrips == |trips|
    ensures r.completedTrips == |Folds.Filter(trips, Metrics.IsCompleted)|
    ensures r.upcomingTrips == |Folds.Filter(trips, Metrics.IsUpcoming)|
    ensures r.totalDistance == Folds.SumOf(trips, Metrics.Distance)
    ensures r.totalSpent == Folds.SumOf(items, Metrics.Amount)
    ensures r.co2Footprint == Folds.SumOf(trips, Metrics.TripCo2)
    ensures r.avgTripCost == AvgTripCost(trips, items)
    ensures r.uniqueDestinations == |Destinations(trips)|
    ensures r.completedTrips + r.upcomingTrips <= r.totalTrips
    ensures r.uniqueDestinations <= r.totalTrips
    ensures r.uniqueDestinations == 0 <==> r.totalTrips == 0
  {
    Metrics.CountsBounded(trips);
    Metrics.TotalsAreSums(trips, items);
    DestinationsBound(trips);
    Stats(|trips|, Metrics.CompletedCount(trips), Metrics.UpcomingCount(trips),
          Metrics.TotalDistance(trips), Metrics.TotalSpend(items), AvgTripCost(trips, items),
          |Destinations(trips)|, Metrics.Co2Footprint(trips))
  }

  /** Reordering the rows changes no figure of the statistics block. */
  lemma AnalyticsStatsPermutation(a: seq<TripRow>, b: seq<TripRow>, x: seq<BudgetRow>, y: seq<BudgetRow>)
    requires multiset(a) == multiset(b)
    requires multiset(x) == multiset(y)
    ensures AnalyticsStats(a, x) == AnalyticsStats(b, y)
  {
    Metrics.OrderIndependent(a, b, x, y);
    DestinationsPermutation(a, b);
    assert |a| == |multiset(a)| == |multiset(b)| == |b|;
  }

  // ---------------------------------------------------------------------------
  // Transport modes used

  /** One entry of the mode tally: a mode and how many trips used it. */
  datatype ModeCount = ModeCount(mode: string, count: nat)

  function CountOf(c: ModeCount): real {
    c.count as real
  }

  /** The trips whose mode is `k`. */
  function HasMode(k: string): TripRow -> bool {
    (t: TripRow) => t.transportMode == k
  }

  predicate DistinctModes(h: seq<ModeCount>) {
    forall i, j :: 0 <= i < j < |h| ==> h[i].mode != h[j].mode
  }

  /** Where `m` sits in the tally, or -1. */
  function IndexOfMode(h: seq<ModeCount>, m: string): (r: int)
    ensures -1 <= r < |h|
    ensures r >= 0 ==> h[r].mode == m
    ensures r == -1 ==> forall i :: 0 <= i < |h| ==> h[i].mode != m
  {
    if |h| == 0 then -1
    else if h[|h| - 1].mode == m then |h| - 1
    else IndexOfMode(h[..|h| - 1], m)
  }

  /** `acc[m] = (acc[m] || 0) + 1`: an existing key is incremented where it
      stands, a new key is appended with 1, as an object keeps its keys in
      insertion order. */
  function Bump(h: seq<ModeCount>, m: string): (r: seq<ModeCount>)
    ensures |h| <= |r| <= |h| + 1
    ensures |r| > 0
  {
    var i := IndexOfMode(h, m);
    if i >= 0 then h[i := ModeCount(m, h[i].count + 1)] else h + [ModeCount(m, 1)]
  }

  /** `trips.reduce(.., {})`: the tally of transport modes. */
  function ModeHistogram(trips: seq<TripRow>): (r: seq<ModeCount>)
    ensures |r| <= |trips|
    ensures |r| == 0 <==> |trips| == 0
    decreases |trips|
  {
    if |trips| == 0 then []
    else Bump(ModeHistogram(trips[..|trips| - 1]), trips[|trips| - 1].transportMode)
  }

  /** Counting one more trip adds one for its own mode and nothing for the others. */
  lemma CountModeSnoc(init: seq<TripRow>, last: TripRow, k: string)
    ensures Folds.Count(init + [last], HasMode(k))
            == Folds.Count(init, HasMode(k)) + (if last.transportMode == k then 1 else 0)
  {
    Folds.FilterConcat(init, [last], HasMode(k));
  }

  /** No trip with mode `k` means a count of zero. */
  lemma {:induction false} CountModeAbsent(trips: seq<TripRow>, k: string)
    requires forall i :: 0 <= i < |trips| ==> trips[i].transportMode != k
    ensures Folds.Count(trips, HasMode(k)) == 0
    decreases |trips|
  {
    if |trips| > 0 {
      CountModeAbsent(trips[1..], k);
    }
  }

  /** What one bump does to the tally: the existing keys stay where they are,
      `m` is among the keys afterwards, and a new key goes at the end with 1.
      The tally is kept in first-use order. */
  lemma BumpShape(h: seq<ModeCount>, m: string)
    ensures var r := Bump(h, m);
            (forall i :: 0 <= i < |h| ==> r[i].mode == h[i].mode) &&
            IndexOfMode(r, m) >= 0 &&
            (IndexOfMode(h, m) >= 0 ==> |r| == |h|) &&
            (IndexOfMode(h, m) < 0 ==> |r| == |h| + 1 && r[|h|] == ModeCount(m, 1))
  {
    var r := Bump(h, m);
    var idx := IndexOfMode(h, m);
    if idx >= 0 {
      assert r[idx].mode == m;
    } else {
      assert r[|h|].mode == m;
    }
    var j := IndexOfMode(r, m);
  }

  /** Every mode used by some trip is a key of the tally. */
  lemma {:induction false} ModeHistogramCovers(trips: seq<TripRow>)
    ensures forall i :: 0 <= i < |trips| ==> IndexOfMode(ModeHistogram(trips), trips[i].transportMode) >= 0
    decreases |trips|
  {
    if |trips| > 0 {
      var init := trips[..|trips| - 1];
      var m := trips[|trips| - 1].transportMode;
      ModeHistogramCovers(init);
      var h0 := ModeHistogram(init);
      var h := ModeHistogram(trips);
      BumpShape(h0, m);
      forall i | 0 <= i < |trips| ensures IndexOfMode(h, trips[i].transportMode) >= 0 {
        var k := trips[i].transportMode;
        if i < |init| {
          assert init[i] == trips[i];
          var j := IndexOfMode(h0, k);
          assert h[j].mode == k;
        }
      }
    }
  }

  /** No mode appears twice in the tally. */
  lemma {:induction false} ModeHistogramDistinct(trips: seq<TripRow>)
    ensures DistinctModes(ModeHistogram(trips))
    decreases |trips|
  {
    if |trips| > 0 {
      var init := trips[..|trips| - 1];
      var m := trips[|trips| - 1].transportMode;
      ModeHistogramDistinct(init);
      BumpShape(ModeHistogram(init), m);
    }
  }

  /** How many trips used mode `k`, counted from the last trip backwards as the tally is built. */
  function ModeUses(trips: seq<TripRow>, k: string): nat
    decreases |trips|
  {
    if |trips| == 0 then 0
    else ModeUses(trips[..|trips| - 1], k) + (if trips[|trips| - 1].transportMode == k then 1 else 0)
  }

  /** `ModeUses` is the length of `trips.filter(t => t.transport_mode === k)`. */
  lemma {:induction false} ModeUsesIsCount(trips: seq<TripRow>, k: string)
    ensures ModeUses(trips, k) == Folds.Count(trips, HasMode(k))
    decreases |trips|
  {
    if |trips| > 0 {
      var init := trips[..|trips| - 1];
      assert trips == init + [trips[|trips| - 1]];
      ModeUsesIsCount(init, k);
      CountModeSnoc(init, trips[|trips| - 1], k);
    }
  }

  /** One entry of a bumped tally, given the entry before the bump. */
  lemma BumpEntry(h: seq<ModeCount>, m: string, i: nat)
    requires DistinctModes(h)
    requires i < |Bump(h, m)|
    ensures var r := Bump(h, m);
            if i < |h| && h[i].mode != m then r[i] == h[i]
            else r[i] == ModeCount(m, (if i < |h| then h[i].count else 0) + 1)
  {
  }

  /** Each entry of the tally holds the number of trips that used its mode, and
      a mode that is not a key was used by no trip. */
  lemma {:induction false} ModeHistogramUses(trips: seq<TripRow>)
    ensures var h := ModeHistogram(trips);
            (forall i :: 0 <= i < |h| ==> h[i].count == ModeUses(trips, h[i].mode)) &&
            (forall k :: IndexOfMode(h, k) < 0 ==> ModeUses(trips, k) == 0)
    decreases |trips|
  {
    if |trips| > 0 {
      var init := trips[..|trips| - 1];
      var m := trips[|trips| - 1].transportMode;
      ModeHistogramUses(init);
      ModeHistogramDistinct(init);
      var h0 := ModeHistogram(init);
      var h := ModeHistogram(trips);
      forall i | 0 <= i < |h| ensures h[i].count == ModeUses(trips, h[i].mode) {
        BumpedEntryUses(trips, i);
      }
      forall k | IndexOfMode(h, k) < 0 ensures ModeUses(trips, k) == 0 {
        BumpShape(h0, m);
      }
    }
  }

  /** One more trip keeps an exact tally exact: if every entry of the tally of
      the earlier trips holds its mode's number of uses, so does entry `i` of
      the tally with the last trip counted. */
  lemma BumpedEntryUses(trips: seq<TripRow>, i: nat)
    requires |trips| > 0
    requires var init := trips[..|trips| - 1];
             var h0 := ModeHistogram(init);
             && DistinctModes(h0)
             && (forall j :: 0 <= j < |h0| ==> h0[j].count == ModeUses(init, h0[j].mode))
             && (forall k :: IndexOfMode(h0, k) < 0 ==> ModeUses(init, k) == 0)
    requires i < |ModeHistogram(trips)|
    ensures ModeHistogram(trips)[i].count == ModeUses(trips, ModeHistogram(trips)[i].mode)
  {
    var init := trips[..|trips| - 1];
    var m := trips[|trips| - 1].transportMode;
    var h0 := ModeHistogram(init);
    BumpEntry(h0, m, i);
    if i < |h0| {
      assert h0[i].count == ModeUses(init, h0[i].mode);
    } else {
      assert IndexOfMode(h0, m) < 0;
    }
  }

  /** Each entry of the tally holds the number of trips that used its mode, which is at least one. */
  lemma ModeHistogramCounts(trips: seq<TripRow>)
    ensures forall i :: 0 <= i < |ModeHistogram(trips)| ==>
              ModeHistogram(trips)[i].count == Folds.Count(trips, HasMode(ModeHistogram(trips)[i].mode)) &&
              ModeHistogram(trips)[i].count >= 1
  {
    var h := ModeHistogram(trips);
    ModeHistogramUses(trips);
    forall i | 0 <= i < |h| ensures h[i].count == Folds.Count(trips, HasMode(h[i].mode)) && h[i].count >= 1 {
      ModeUsesIsCount(trips, h[i].mode);
      ModeHistogramPositive(trips, i);
    }
  }

  /** Every entry of the tally counts at least one trip. */
  lemma {:induction false} ModeHistogramPositive(trips: seq<TripRow>, i: nat)
    requires i < |ModeHistogram(trips)|
    ensures ModeHistogram(trips)[i].count >= 1
    decreases |trips|
  {
    var init := trips[..|trips| - 1];
    var m := trips[|trips| - 1].transportMode;
    var h0 := ModeHistogram(init);
    ModeHistogramDistinct(init);
    BumpEntry(h0, m, i);
    if i < |h0| && h0[i].mode != m {
      ModeHistogramPositive(init, i);
    }
  }

  /** Every trip is counted exactly once: the counts add up to the number of trips. */
  lemma {:induction false} ModeHistogramTotal(trips: seq<TripRow>)
    ensures Folds.SumOf(ModeHistogram(trips), CountOf) == |trips| as real
    decreases |trips|
  {
    if |trips| > 0 {
      var init := trips[..|trips| - 1];
      var m := trips[|trips| - 1].transportMode;
      ModeHistogramTotal(init);
      var h0 := ModeHistogram(init);
      var idx := IndexOfMode(h0, m);
      if idx >= 0 {
        Folds.SumOfUpdate(h0, idx, ModeCount(m, h0[idx].count + 1), CountOf);
      } else {
        Folds.SumOfConcat(h0, [ModeCount(m, 1)], CountOf);
      }
    }
  }

  /** One row of the breakdown: the mode, its count and its percentage of all trips. */
  datatype ModeShare = ModeShare(mode: string, count: nat, percentage: real)

  function PercentageOf(s: ModeShare): real {
    s.percentage
  }

  /** `(count / stats.totalTrips) * 100` for one tally entry. */
  function Share(c: ModeCount, totalTrips: nat): ModeShare
    requires totalTrips > 0
  {
    ModeShare(c.mode, c.count, c.count as real / totalTrips as real * 100.0)
  }

  /** A count between 1 and the total gives a percentage in (0, 100]. */
  lemma ShareBounds(c: ModeCount, totalTrips: nat)
    requires 1 <= c.count <= totalTrips
    ensures 0.0 < Share(c, totalTrips).percentage <= 100.0
  {
    assert c.count as real / totalTrips as real <= 1.0;
  }

  /** The "Transport Modes Used" card: `None` is the "No trips recorded yet."
      message shown when the tally has no keys; otherwise one row per mode, in
      the tally's order. */
  function ModeBreakdown(trips: seq<TripRow>): (r: Option<seq<ModeShare>>)
    ensures r.None? <==> |trips| == 0
    ensures r.Some? ==> |r.value| == |ModeHistogram(trips)|
    ensures r.Some? ==> forall i :: 0 <= i < |r.value| ==>
              r.value[i].mode == ModeHistogram(trips)[i].mode &&
              r.value[i].count == ModeHistogram(trips)[i].count &&
              r.value[i].percentage == ModeHistogram(trips)[i].count as real / |trips| as real * 100.0
  {
    var h := ModeHistogram(trips);
    if |h| == 0 then None
    else Some(seq(|h|, i requires 0 <= i < |h| => Share(h[i], |trips|)))
  }

  /** The percentages shown add up to 100. */
  lemma ModeBreakdownSum(trips: seq<TripRow>)
    requires |trips| > 0
    ensures Folds.SumOf(ModeBreakdown(trips).value, PercentageOf) == 100.0
  {
    var h := ModeHistogram(trips);
    var shares := ModeBreakdown(trips).value;
    var pct := (x: ModeCount) => CountOf(x) / |trips| as real * 100.0;
    forall i | 0 <= i < |shares| ensures PercentageOf(shares[i]) == pct(h[i]) {
      assert shares[i] == Share(h[i], |trips|);
    }
    Folds.SumOfPointwise(shares, PercentageOf, h, pct);
    ModeHistogramTotal(trips);
    Folds.SumOfPercentages(h, CountOf, pct, |trips| as real);
  }

  /** Each percentage lies in (0, 100]. */
  lemma ModeBreakdownBounds(trips: seq<TripRow>)
    requires |trips| > 0
    ensures var shares := ModeBreakdown(trips).value;
            forall i :: 0 <= i < |shares| ==> 0.0 < shares[i].percentage <= 100.0
  {
    var h := ModeHistogram(trips);
    var shares := ModeBreakdown(trips).value;
    ModeHistogramCounts(trips);
    forall i | 0 <= i < |shares| ensures 0.0 < shares[i].percentage <= 100.0 {
      var k := h[i].mode;
      assert |Folds.Filter(trips, HasMode(k))| <= |trips|;
      assert shares[i] == Share(h[i], |trips|);
      ShareBounds(h[i], |trips|);
    }
  }

  /** `modeLabels[mode] || mode`: the five known modes get a display label, any other string shows as itself. */
  function ModeLabel(mode: string): (r: string)
    ensures mode == "flight" ==> r == "Flights"
    ensures mode == "train" ==> r == "Trains"
    ensures mode == "bus" ==> r == "Buses"
    ensures mode == "car" ==> r == "Car/Cab"
    ensures mode == "bike" ==> r == "Bike"
    ensures mode !in {"flight", "train", "bus", "car", "bike"} ==> r == mode
  {
    if mode == "flight" then "Flights"
    else if mode == "train" then "Trains"
    else if mode == "bus" then "Buses"
    else if mode == "car" then "Car/Cab"
    else if mode == "bike" then "Bike"
    else mode
  }
}

=== FILE: budget.dfy ===
/** The budget tracker: the budget estimate for the selected trip (or all
    trips), the expenses that belong to the selection, the spent/remaining
    overview, the per-category breakdown, and adding and removing an
    expense. The rows fetched from the database, the signed-in user, the
    parsed amount and today's timestamp are parameters. */
module Budget {
  import opened Wrappers
  import opened Rows
  import JsText
  import Metrics
  import Folds

  /** The trip selector's value for "All Trips". */
  const AllTrips := "all"

  /** The budget assumed when no estimate is available. */
  const DefaultBudget := 25000.0

  // ---------------------------------------------------------------------------
  // Categories

  datatype Category = Category(value: string, caption: string)

  /** The six expense categories, in display order; "other" is the last. */
  const Categories: seq<Category> := [
    Category("transport", "Transport"),
    Category("stay", "Stay"),
    Category("food", "Food"),
    Category("activities", "Activities"),
    Category("shopping", "Shopping"),
    Category("other", "Other")
  ]

  /** The values of a list of categories. */
  function ValuesOf(cats: seq<Category>): (r: seq<string>)
    ensures |r| == |cats|
    ensures forall i :: 0 <= i < |cats| ==> r[i] == cats[i].value
  {
    if |cats| == 0 then [] else [cats[0].value] + ValuesOf(cats[1..])
  }

  predicate Distinct(values: seq<string>) {
    forall i, j :: 0 <= i < j < |values| ==> values[i] != values[j]
  }

  /** The six category values, pairwise distinct. */
  function CategoryValues(): (r: seq<string>)
    ensures |r| == 6 && Distinct(r)
    ensures r == ValuesOf(Categories)
  {
    ValuesOf(Categories)
  }

  /** `categories.find((c) => c.value === item.category) || categories[5]`:
      the item's own category, or "other" for a value the page does not know. */
  function CategoryOf(item: BudgetRow): (r: Category)
    ensures r in Categories
    ensures item.category in CategoryValues() ==> r.value == item.category
    ensures item.category !in CategoryValues() ==> r == Categories[5]
  {
    FindCategory(Categories, item.category).GetOr(Categories[5])
  }

  function FindCategory(cats: seq<Category>, value: string): (r: Option<Category>)
    ensures r.Some? ==> r.value in cats && r.value.value == value
    ensures r.None? <==> value !in ValuesOf(cats)
  {
    if |cats| == 0 then None
    else if cats[0].value == value then Some(cats[0])
    else FindCategory(cats[1..], value)
  }

  /** `item.description || cat.label`: an expense without description shows its category's caption. */
  function ItemTitle(item: BudgetRow): (r: string)
    ensures r != ""
    ensures item.description != "" ==> r == item.description
    ensures item.description == "" ==> r == CategoryOf(item).caption
  {
    JsText.OrElse(item.description, CategoryOf(item).caption)
  }

  // ---------------------------------------------------------------------------
  // Selection

  /** `trips.find((t) => t.id === id)`: the first trip with that id. */
  function FindTrip(trips: seq<TripRow>, id: string): (r: Option<TripRow>)
    ensures r.Some? ==> exists i :: 0 <= i < |trips| && trips[i] == r.value && r.value.id == id &&
                                    forall j :: 0 <= j < i ==> trips[j].id != id
    ensures r.None? ==> forall i :: 0 <= i < |trips| ==> trips[i].id != id
  {
    if |trips| == 0 then None
    else if trips[0].id == id then Some(trips[0])
    else
      var r := FindTrip(trips[1..], id);
      if r.Some? then
        ghost var i :| 0 <= i < |trips[1..]| && trips[1..][i] == r.value && r.value.id == id &&
                       forall j :: 0 <= j < i ==> trips[1..][j].id != id;
        assert trips[i + 1] == r.value;
        r
      else r
  }

  /** `t.estimated_cost || 0`. */
  function CostOrZero(t: TripRow): real {
    t.estimatedCost.GetOr(0.0)
  }

  /** A number with JavaScript's `|| 25000`: zero falls back to the default. */
  function OrDefault(x: real): real {
    if x != 0.0 then x else DefaultBudget
  }

  /** The budget shown as "Total Budget": for all trips the summed estimates,
      for one trip its own estimate; an estimate that is zero or missing,
      including a trip id that matches no trip, is replaced by 25000. */
  function EstimatedBudget(trips: seq<TripRow>, selected: string): (r: real)
    ensures r != 0.0
    ensures selected == AllTrips ==>
              r == if Folds.SumOf(trips, CostOrZero) != 0.0 then Folds.SumOf(trips, CostOrZero) else DefaultBudget
    ensures selected != AllTrips && (forall i :: 0 <= i < |trips| ==> trips[i].id != selected) ==> r == DefaultBudget
    ensures selected != AllTrips && FindTrip(trips, selected).Some? ==>
              r == OrDefault(CostOrZero(FindTrip(trips, selected).value))
  {
    if selected == AllTrips then
      Folds.ReduceIsSum(trips, CostOrZero, 0.0);
      OrDefault(Folds.Reduce(trips, CostOrZero, 0.0))
    else
      match FindTrip(trips, selected)
      case None => DefaultBudget
      case Some(t) => OrDefault(CostOrZero(t))
  }

  /** The expense belongs to trip `id`. */
  function ForTrip(id: string): BudgetRow -> bool {
    (b: BudgetRow) => b.tripId == Some(id)
  }

  /** The expenses counted for the selection: every expense for "all", else the
      ones recorded against that trip, in their original order. */
  function TripBudgetItems(items: seq<BudgetRow>, selected: string): (r: seq<BudgetRow>)
    ensures selected == AllTrips ==> r == items
    ensures selected != AllTrips ==>
              Folds.IsSubsequence(r, items) &&
              (forall i :: 0 <= i < |r| ==> r[i].tripId == Some(selected)) &&
              (forall i :: 0 <= i < |items| && items[i].tripId == Some(selected) ==> items[i] in r)
    ensures selected != AllTrips ==>
              forall b :: multiset(r)[b] == if b.tripId == Some(selected) then multiset(items)[b] else 0
  {
    if selected == AllTrips then items
    else
      Folds.FilterIsSubsequence(items, ForTrip(selected));
      Folds.FilterMultiplicities(items, ForTrip(selected));
      Folds.Filter(items, ForTrip(selected))
  }

  /** An expense recorded without a trip is counted only under "all". */
  lemma UnassignedOnlyInAll(items: seq<BudgetRow>, selected: string, i: nat)
    requires i < |items| && items[i].tripId.None?
    ensures items[i] in TripBudgetItems(items, selected) <==> selected == AllTrips
  {
  }

  /** The spending of one trip is at most the spending under "all" when no amount is negative. */
  lemma TripSpendAtMostAll(items: seq<BudgetRow>, selected: string)
    requires forall i :: 0 <= i < |items| ==> items[i].amount >= 0.0
    ensures Metrics.TotalSpend(TripBudgetItems(items, selected)) <= Metrics.TotalSpend(items)
  {
    var sel := TripBudgetItems(items, selected);
    Metrics.TotalsAreSums([], items);
    Metrics.TotalsAreSums([], sel);
    if selected != AllTrips {
      var p := ForTrip(selected);
      var masked := (x: BudgetRow) => if p(x) then Metrics.Amount(x) else 0.0;
      Folds.SumOfFilter(items, p, Metrics.Amount, masked);
      Folds.SumOfMonotone(items, masked, Metrics.Amount);
    }
  }

  // ---------------------------------------------------------------------------
  // Overview

  /** The overview card. */
  datatype Overview = Overview(
    estimatedBudget: real,
    totalSpent: real,
    percentage: real,
    remaining: real,
    overBudget: bool,
    shownRemaining: real,
    expenseCount: nat)

  /** `Math.min((totalSpent / estimatedBudget) * 100, 100)`. */
  function Percentage(spent: real, estimate: real): (r: real)
    requires estimate != 0.0
    ensures r <= 100.0
    ensures r == 100.0 <==> spent / estimate * 100.0 >= 100.0
    ensures r < 100.0 ==> r == spent / estimate * 100.0
  {
    var p := spent / estimate * 100.0;
    if p < 100.0 then p else 100.0
  }

  /** `Math.abs(x)`. */
  function Abs(x: real): (r: real)
    ensures r >= 0.0
    ensures r == x || r == -x
  {
    if x < 0.0 then -x else x
  }

  function BudgetOverview(trips: seq<TripRow>, items: seq<BudgetRow>, selected: string): (r: Overview)
    ensures r.estimatedBudget == EstimatedBudget(trips, selected)
    ensures r.totalSpent == Metrics.TotalSpend(TripBudgetItems(items, selected))
    ensures r.remaining + r.totalSpent == r.estimatedBudget
    ensures r.overBudget <==> r.totalSpent > r.estimatedBudget
    ensures r.shownRemaining >= 0.0 && (r.shownRemaining == r.remaining || r.shownRemaining == -r.remaining)
    ensures r.percentage == Percentage(r.totalSpent, r.estimatedBudget) && r.percentage <= 100.0
    ensures r.expenseCount == |TripBudgetItems(items, selected)|
  {
    var est := EstimatedBudget(trips, selected);
    var sel := TripBudgetItems(items, selected);
    var spent := Metrics.TotalSpend(sel);
    var remaining := est - spent;
    Overview(est, spent, Percentage(spent, est), remaining, !(remaining >= 0.0), Abs(remaining), |sel|)
  }

  /** With a positive budget, the bar is full exactly when the spending has
      reached the budget, and an overspent budget always shows a full bar. */
  lemma OverviewBar(trips: seq<TripRow>, items: seq<BudgetRow>, selected: string)
    requires EstimatedBudget(trips, selected) > 0.0
    ensures var o := BudgetOverview(trips, items, selected);
            (o.percentage == 100.0 <==> o.remaining <= 0.0) &&
            (o.overBudget ==> o.percentage == 100.0) &&
            (o.totalSpent >= 0.0 ==> o.percentage >= 0.0)
  {
    var o := BudgetOverview(trips, items, selected);
    RatioReaches(o.totalSpent, o.estimatedBudget);
  }

  /** Against a positive budget, the spending ratio reaches 100% exactly when
      the spending reaches the budget, and is non-negative for non-negative spending. */
  lemma RatioReaches(spent: real, est: real)
    requires est > 0.0
    ensures spent / est * 100.0 >= 100.0 <==> spent >= est
    ensures spent >= 0.0 ==> spent / est * 100.0 >= 0.0
  {
    var q := spent / est;
    assert q * est == spent;
    assert q * 100.0 >= 100.0 <==> q >= 1.0;
    if q >= 1.0 {
      assert q * est >= 1.0 * est;
    } else {
      assert q * est < 1.0 * est;
    }
    if spent >= 0.0 {
      assert q >= 0.0;
    }
  }

  // ---------------------------------------------------------------------------
  // Spending by category

  /** The spending on one category among the selected expenses. */
  function InCategory(value: string): BudgetRow -> bool {
    (b: BudgetRow) => b.category == value
  }

  function CategoryTotal(items: seq<BudgetRow>, value: string): real {
    Folds.Reduce(Folds.Filter(items, InCategory(value)), Metrics.Amount, 0.0)
  }

  datatype CategoryRow = CategoryRow(category: Category, total: real)

  function TotalOf(c: CategoryRow): real {
    c.total
  }

  /** `categories.map((cat) => ({ ...cat, total }))` over a list of categories. */
  function CategoryTotalsOf(items: seq<BudgetRow>, cats: seq<Category>): (r: seq<CategoryRow>)
    ensures |r| == |cats|
    ensures forall i :: 0 <= i < |r| ==> r[i].category == cats[i]
    ensures forall i :: 0 <= i < |r| ==> r[i].total == Folds.SumOf(items, AmountIn(cats[i].value))
  {
    if |cats| == 0 then []
    else
      CategoryTotalIsMaskedSum(items, cats[0].value, AmountIn(cats[0].value));
      [CategoryRow(cats[0], CategoryTotal(items, cats[0].value))] + CategoryTotalsOf(items, cats[1..])
  }

  /** The amount an item contributes to the card of category `value`. */
  function AmountIn(value: string): BudgetRow -> real {
    (b: BudgetRow) => if b.category == value then b.amount else 0.0
  }

  /** The six category cards, in display order, each holding the amounts of
      the expenses of its own category. */
  function CategoryTotals(items: seq<BudgetRow>): (r: seq<CategoryRow>)
    ensures |r| == 6
    ensures forall i :: 0 <= i < 6 ==> r[i].category == Categories[i]
    ensures forall i :: 0 <= i < 6 ==> r[i].total == Folds.SumOf(items, AmountIn(Categories[i].value))
  {
    CategoryTotalsOf(items, Categories)
  }

  /** The amount an item contributes when its category is among `values`. */
  function AmountIfIn(values: seq<string>): BudgetRow -> real {
    (b: BudgetRow) => if b.category in values then b.amount else 0.0
  }

  /** An item's share splits between the first value of a list and the rest. */
  lemma AmountIfInSplit(x: BudgetRow, values: seq<string>)
    requires |values| > 0 && values[0] !in values[1..]
    ensures AmountIfIn(values)(x)
            == (if InCategory(values[0])(x) then Metrics.Amount(x) else 0.0) + AmountIfIn(values[1..])(x)
  {
    assert values == [values[0]] + values[1..];
  }

  /** The card of one category holds the amounts of the items in that category. */
  lemma CategoryTotalIsMaskedSum(items: seq<BudgetRow>, value: string, masked: BudgetRow -> real)
    requires forall i :: 0 <= i < |items| ==>
               masked(items[i]) == if InCategory(value)(items[i]) then Metrics.Amount(items[i]) else 0.0
    ensures CategoryTotal(items, value) == Folds.SumOf(items, masked)
  {
    Folds.ReduceIsSum(Folds.Filter(items, InCategory(value)), Metrics.Amount, 0.0);
    Folds.SumOfFilter(items, InCategory(value), Metrics.Amount, masked);
  }

  /** Over distinct categories, the cards add up to the spending on those categories. */
  lemma {:induction false} CategoryTotalsOfSum(items: seq<BudgetRow>, cats: seq<Category>)
    requires Distinct(ValuesOf(cats))
    ensures Folds.SumOf(CategoryTotalsOf(items, cats), TotalOf) == Folds.SumOf(items, AmountIfIn(ValuesOf(cats)))
    decreases |cats|
  {
    if |cats| == 0 {
      var zero := (b: BudgetRow) => 0.0;
      Folds.SumOfScale(items, zero, AmountIfIn(ValuesOf(cats)), 0.0);
    } else {
      var rows := CategoryTotalsOf(items, cats);
      var rest := cats[1..];
      assert ValuesOf(cats) == [cats[0].value] + ValuesOf(rest);
      assert Distinct(ValuesOf(rest)) by {
        forall i, j | 0 <= i < j < |rest| ensures ValuesOf(rest)[i] != ValuesOf(rest)[j] {
          assert ValuesOf(cats)[i + 1] != ValuesOf(cats)[j + 1];
        }
      }
      CategoryTotalsOfSum(items, rest);
      assert rows[1..] == CategoryTotalsOf(items, rest);
      var head := (x: BudgetRow) => if InCategory(cats[0].value)(x) then Metrics.Amount(x) else 0.0;
      CategoryTotalIsMaskedSum(items, cats[0].value, head);
      var values := ValuesOf(cats);
      assert values[1..] == ValuesOf(rest);
      assert values[0] !in values[1..];
      forall i | 0 <= i < |items|
        ensures AmountIfIn(values)(items[i]) == head(items[i]) + AmountIfIn(ValuesOf(rest))(items[i])
      {
        AmountIfInSplit(items[i], values);
      }
      Folds.SumOfAdd(items, head, AmountIfIn(ValuesOf(rest)), AmountIfIn(ValuesOf(cats)));
    }
  }

  /** The six cards add up to the spending on known categories; when every
      expense has one of the six categories, they add up to the total spent. */
  lemma CategoryTotalsSum(items: seq<BudgetRow>)
    ensures Folds.SumOf(CategoryTotals(items), TotalOf) == Folds.SumOf(items, AmountIfIn(CategoryValues()))
    ensures (forall i :: 0 <= i < |items| ==> items[i].category in CategoryValues()) ==>
              Folds.SumOf(CategoryTotals(items), TotalOf) == Metrics.TotalSpend(items)
  {
    var values := CategoryValues();
    CategoryTotalsOfSum(items, Categories);
    if forall i :: 0 <= i < |items| ==> items[i].category in values {
      KnownCategoriesSum(items, values);
    }
  }

  /** When every expense has a listed category, the masked sum is the whole sum. */
  lemma KnownCategoriesSum(items: seq<BudgetRow>, values: seq<string>)
    requires forall i :: 0 <= i < |items| ==> items[i].category in values
    ensures Folds.SumOf(items, AmountIfIn(values)) == Metrics.TotalSpend(items)
  {
    Folds.SumOfPointwise(items, AmountIfIn(values), items, Metrics.Amount);
    Metrics.TotalsAreSums([], items);
  }

  // ---------------------------------------------------------------------------
  // Adding and removing expenses

  /** The row `handleAddExpense` inserts into `budget_items`. */
  datatype ExpenseInsert = ExpenseInsert(
    userId: string,
    tripId: Option<string>,
    category: string,
    amount: real,
    currency: string,
    description: string,
    date: string)

  /** The add-expense form. */
  datatype Form = Form(dialogOpen: bool, newCategory: string, newAmount: string, newDescription: string)

  /** `handleAddExpense` up to the insert: an empty amount or no signed-in user
      is refused; otherwise the expense is recorded against the selected trip
      (no trip under "all"), in rupees, dated with the day part of
      `isoNow`. `parsedAmount` stands for `parseFloat(newAmount)`. */
  function ExpenseToInsert(form: Form, user: Option<string>, selected: string, parsedAmount: real,
                           isoNow: string): (r: Result<ExpenseInsert>)
    ensures r.Err? <==> form.newAmount == "" || user.None?
    ensures r.Err? ==> r.message == "Please enter an amount"
    ensures r.Ok? ==> r.value.userId == user.value && r.value.currency == "INR" &&
                      r.value.category == form.newCategory && r.value.amount == parsedAmount &&
                      r.value.description == form.newDescription &&
                      (r.value.tripId.None? <==> selected == AllTrips) &&
                      (selected != AllTrips ==> r.value.tripId == Some(selected)) &&
                      r.value.date == JsText.FirstSegment(isoNow, 'T') && 'T' !in r.value.date
  {
    if form.newAmount == "" || user.None? then Err("Please enter an amount")
    else
      Ok(ExpenseInsert(user.value, if selected == AllTrips then None else Some(selected),
                       form.newCategory, parsedAmount, "INR", form.newDescription,
                       JsText.FirstSegment(isoNow, 'T')))
  }

  /** The form after an insert: a successful one clears the amount and the
      description and closes the dialog, keeping the category; a failed one
      leaves the form as it was. */
  function FormAfterInsert(form: Form, insertFailed: bool): (r: Form)
    ensures insertFailed ==> r == form
    ensures !insertFailed ==> !r.dialogOpen && r.newAmount == "" && r.newDescription == "" &&
                              r.newCategory == form.newCategory
  {
    if insertFailed then form else form.(dialogOpen := false, newAmount := "", newDescription := "")
  }

  /** A cleared form refuses a second submission until an amount is entered again. */
  lemma NoDoubleSubmit(form: Form, user: Option<string>, selected: string, parsedAmount: real, isoNow: string)
    requires ExpenseToInsert(form, user, selected, parsedAmount, isoNow).Ok?
    ensures ExpenseToInsert(FormAfterInsert(form, false), user, selected, parsedAmount, isoNow).Err?
  {
  }

  /** The expense table after `delete().eq('id', id)`: every expense with that
      id is gone and the others keep their order. */
  function WithoutExpense(items: seq<BudgetRow>, id: string): (r: seq<BudgetRow>)
    ensures Folds.IsSubsequence(r, items)
    ensures forall i :: 0 <= i < |r| ==> r[i].id != id
    ensures forall i :: 0 <= i < |items| && items[i].id != id ==> items[i] in r
    ensures forall b :: multiset(r)[b] == if b.id != id then multiset(items)[b] else 0
  {
    var keep := (b: BudgetRow) => b.id != id;
    Folds.FilterIsSubsequence(items, keep);
    Folds.FilterMultiplicities(items, keep);
    Folds.Filter(items, keep)
  }

  /** `handleRemoveExpense` on the page. After an error nothing changes.
      Otherwise `fetchBudgetItems` replaces the rows only when its reply
      carries data; `refetched` is that reply. When the reply is the table as
      the delete left it, no shown expense has the id and every other expense
      is shown as often as before. */
  function RemoveExpense(items: seq<BudgetRow>, id: string, deleteFailed: bool,
                         refetched: Option<seq<BudgetRow>>): (r: seq<BudgetRow>)
    ensures deleteFailed || refetched.None? ==> r == items
    ensures !deleteFailed && refetched.Some? ==> r == refetched.value
    ensures !deleteFailed && refetched == Some(WithoutExpense(items, id)) ==>
              Folds.IsSubsequence(r, items) &&
              (forall b :: multiset(r)[b] == if b.id != id then multiset(items)[b] else 0)
  {
    if deleteFailed || refetched.None? then items else refetched.value
  }

  /** Removing an expense never raises the amount spent when no amount is negative. */
  lemma RemoveExpenseSpend(items: seq<BudgetRow>, id: string)
    requires forall i :: 0 <= i < |items| ==> items[i].amount >= 0.0
    ensures Metrics.TotalSpend(WithoutExpense(items, id)) <= Metrics.TotalSpend(items)
  {
    var keep := (b: BudgetRow) => b.id != id;
    var masked := (x: BudgetRow) => if keep(x) then Metrics.Amount(x) else 0.0;
    assert WithoutExpense(items, id) == Folds.Filter(items, keep);
    Metrics.TotalsAreSums([], items);
    Metrics.TotalsAreSums([], Folds.Filter(items, keep));
    Folds.SumOfFilter(items, keep, Metrics.Amount, masked);
    Folds.SumOfMonotone(items, masked, Metrics.Amount);
  }
}

=== FILE: dashboard.dfy ===
/** The dashboard page: a greeting by time of day, the statistics cards, the
    three most recent trips with their status badges, and the "Mark as
    Completed" action. The hour of the day and the rows fetched from the
    database are parameters. */
module Dashboard {
  import opened Wrappers
  import opened Rows
  import JsText
  import Metrics
  import Folds

  datatype Greeting = GoodMorning | GoodAfternoon | GoodEvening | GoodNight

  function GreetingText(g: Greeting): string {
    match g
    case GoodMorning => "Good Morning"
    case GoodAfternoon => "Good Afternoon"
    case GoodEvening => "Good Evening"
    case GoodNight => "Good Night"
  }

  /** The position of a greeting in the day. */
  function Rank(g: Greeting): nat {
    match g
    case GoodMorning => 0
    case GoodAfternoon => 1
    case GoodEvening => 2
    case GoodNight => 3
  }

  /** The greeting for an hour of the day: before noon, before 17:00, before
      21:00, and the rest. */
  function GreetingFor(hour: int): (g: Greeting)
    ensures g == GoodMorning <==> hour < 12
    ensures g == GoodAfternoon <==> 12 <= hour < 17
    ensures g == GoodEvening <==> 17 <= hour < 21
    ensures g == GoodNight <==> 21 <= hour
  {
    if hour < 12 then GoodMorning
    else if hour < 17 then GoodAfternoon
    else if hour < 21 then GoodEvening
    else GoodNight
  }

  /** Later hours never get an earlier greeting, and each greeting is used
      at some hour of the day. */
  lemma GreetingMonotone(h1: int, h2: int)
    requires h1 <= h2
    ensures Rank(GreetingFor(h1)) <= Rank(GreetingFor(h2))
    ensures GreetingFor(0) == GoodMorning && GreetingFor(12) == GoodAfternoon
    ensures GreetingFor(17) == GoodEvening && GreetingFor(23) == GoodNight
  {
  }

  /** `profile?.name || 'Traveler'`: a missing or empty profile name is replaced. */
  function DisplayName(profileName: Option<string>): (r: string)
    ensures r != ""
    ensures profileName.Some? && profileName.value != "" ==> r == profileName.value
    ensures profileName.None? || profileName.value == "" ==> r == "Traveler"
  {
    JsText.OptOrElse(profileName, "Traveler")
  }

  /** The four numbers on the dashboard's statistic cards. */
  datatype Stats = Stats(upcoming: nat, completed: nat, totalDistance: real, totalSpend: real, co2: real)

  /** The cards: the trips still ahead ("upcoming" or "planning"), the
      completed trips, and the distance, spending and CO₂ summed over the rows. */
  function DashboardStats(trips: seq<TripRow>, items: seq<BudgetRow>): (r: Stats)
    ensures r.upcoming == |Folds.Filter(trips, Metrics.IsUpcoming)|
    ensures r.completed == |Folds.Filter(trips, Metrics.IsCompleted)|
    ensures r.totalDistance == Folds.SumOf(trips, Metrics.Distance)
    ensures r.totalSpend == Folds.SumOf(items, Metrics.Amount)
    ensures r.co2 == Folds.SumOf(trips, Metrics.TripCo2)
    ensures r.upcoming + r.completed <= |trips|
    ensures (forall i :: 0 <= i < |trips| ==> Metrics.Distance(trips[i]) >= 0.0) ==>
              0.0 <= r.totalDistance && 0.05 * r.totalDistance <= r.co2 <= 0.255 * r.totalDistance
  {
    Metrics.CountsBounded(trips);
    Metrics.TotalsAreSums(trips, items);
    Metrics.Co2BoundsIfNonNegative(trips);
    Stats(Metrics.UpcomingCount(trips), Metrics.CompletedCount(trips), Metrics.TotalDistance(trips),
          Metrics.TotalSpend(items), Metrics.Co2Footprint(trips))
  }

  /** `trips.slice(0, 3)`: the rows arrive newest first, so these are the three
      most recent trips, or all of them when there are fewer. */
  function RecentTrips(trips: seq<TripRow>): (r: seq<TripRow>)
    ensures |r| == if |trips| < 3 then |trips| else 3
    ensures forall i :: 0 <= i < |r| ==> r[i] == trips[i]
  {
    if |trips| < 3 then trips else trips[..3]
  }

  /** The colour of a trip's status badge. */
  datatype Badge = Success | Info | Warning

  function StatusBadge(status: string): (r: Badge)
    ensures r == Success <==> status == "completed"
    ensures r == Info <==> status == "upcoming"
  {
    if status == "completed" then Success else if status == "upcoming" then Info else Warning
  }

  /** The "Mark as Completed" button is shown on every trip not yet completed. */
  predicate ShowMarkCompleted(t: TripRow) {
    t.status != "completed"
  }

  /** A trip in "planning" is counted on the upcoming card, but its badge is
      the warning colour, not the upcoming one. */
  lemma PlanningBadge(t: TripRow)
    requires t.status == "planning"
    ensures Metrics.IsUpcoming(t) && StatusBadge(t.status) == Warning && ShowMarkCompleted(t)
  {
  }

  /** The button is shown exactly on the trips the completed card does not count. */
  lemma ButtonIffNotCounted(t: TripRow)
    ensures ShowMarkCompleted(t) <==> !Metrics.IsCompleted(t)
    ensures !ShowMarkCompleted(t) <==> StatusBadge(t.status) == Success
  {
  }

  function UpperChar(c: char): char {
    if 'a' <= c <= 'z' then (c as int - 32) as char else c
  }

  /** `status.charAt(0).toUpperCase() + status.slice(1)` for ASCII text: only
      a lower-case first letter changes. */
  function StatusLabel(status: string): (r: string)
    ensures |r| == |status|
    ensures |status| > 0 ==> !('a' <= r[0] <= 'z') && r[1..] == status[1..]
    ensures |status| > 0 && 'a' <= status[0] <= 'z' ==> r[0] as int == status[0] as int - 32
    ensures |status| > 0 && !('a' <= status[0] <= 'z') ==> r == status
  {
    if |status| == 0 then "" else [UpperChar(status[0])] + status[1..]
  }

  /** The labels of the statuses a trip takes, and a label is already its own label. */
  lemma StatusLabels(status: string)
    ensures StatusLabel("completed") == "Completed" && StatusLabel("upcoming") == "Upcoming"
    ensures StatusLabel("planning") == "Planning"
    ensures StatusLabel(StatusLabel(status)) == StatusLabel(status)
  {
    assert StatusLabel("completed") == ['C'] + "ompleted";
    assert StatusLabel("upcoming") == ['U'] + "pcoming";
    assert StatusLabel("planning") == ['P'] + "lanning";
  }

  /** The trips table after `update({ status: 'completed' }).eq('id', tripId)`:
      every row with that id is now completed, with its other columns kept,
      and every other row is untouched. */
  function MarkedRows(trips: seq<TripRow>, tripId: string): (r: seq<TripRow>)
    ensures |r| == |trips|
    ensures forall i :: 0 <= i < |r| ==>
              r[i] == if trips[i].id == tripId then trips[i].(status := "completed") else trips[i]
  {
    if |trips| == 0 then []
    else [if trips[0].id == tripId then trips[0].(status := "completed") else trips[0]]
         + MarkedRows(trips[1..], tripId)
  }

  /** `markAsCompleted` on the page. When the update reports an error the page
      returns without refetching. Otherwise `fetchTrips` replaces the rows only
      when its reply carries data; `refetched` is that reply. When the reply is
      the table as the update left it, the marked trip loses its button and
      every other row is as before. */
  function MarkAsCompleted(trips: seq<TripRow>, tripId: string, updateFailed: bool,
                           refetched: Option<seq<TripRow>>): (r: seq<TripRow>)
    ensures updateFailed || refetched.None? ==> r == trips
    ensures !updateFailed && refetched.Some? ==> r == refetched.value
    ensures !updateFailed && refetched == Some(MarkedRows(trips, tripId)) ==>
              |r| == |trips| &&
              (forall i :: 0 <= i < |r| && trips[i].id == tripId ==>
                 r[i] == trips[i].(status := "completed") && !ShowMarkCompleted(r[i])) &&
              (forall i :: 0 <= i < |r| && trips[i].id != tripId ==> r[i] == trips[i])
  {
    MarkAsCompletedEffect(trips, tripId);
    if updateFailed || refetched.None? then trips else refetched.value
  }

  /** In the updated table the marked trip no longer offers the button,
      every other row is untouched, and no trip's distance or CO₂ changes. */
  lemma {:induction false} MarkAsCompletedEffect(trips: seq<TripRow>, tripId: string)
    ensures var r := MarkedRows(trips, tripId);
            (forall i :: 0 <= i < |r| ==>
               (trips[i].id == tripId ==> r[i] == trips[i].(status := "completed") && !ShowMarkCompleted(r[i]))) &&
            (forall i :: 0 <= i < |r| ==> (trips[i].id != tripId ==> r[i] == trips[i])) &&
            (forall i :: 0 <= i < |r| ==> Metrics.Distance(r[i]) == Metrics.Distance(trips[i])) &&
            (forall i :: 0 <= i < |r| ==> Metrics.TripCo2(r[i]) == Metrics.TripCo2(trips[i]))
    decreases |trips|
  {
    if |trips| > 0 {
      MarkAsCompletedEffect(trips[1..], tripId);
      var r := MarkedRows(trips, tripId);
      assert r[1..] == MarkedRows(trips[1..], tripId);
    }
  }

  /** Marking a trip completed never lowers the completed count, never raises
      the upcoming count, and leaves the distance and CO₂ totals unchanged. */
  lemma MarkAsCompletedStats(trips: seq<TripRow>, tripId: string)
    ensures var r := MarkedRows(trips, tripId);
            Metrics.CompletedCount(r) >= Metrics.CompletedCount(trips) &&
            Metrics.UpcomingCount(r) <= Metrics.UpcomingCount(trips) &&
            Metrics.TotalDistance(r) == Metrics.TotalDistance(trips) &&
            Metrics.Co2Footprint(r) == Metrics.Co2Footprint(trips)
  {
    var r := MarkedRows(trips, tripId);
    MarkAsCompletedEffect(trips, tripId);
    Folds.CountPointwise(trips, Metrics.IsCompleted, r, Metrics.IsCompleted);
    Folds.CountPointwise(r, Metrics.IsUpcoming, trips, Metrics.IsUpcoming);
    Metrics.TotalsAreSums(trips, []);
    Metrics.TotalsAreSums(r, []);
    Folds.SumOfPointwise(trips, Metrics.Distance, r, Metrics.Distance);
    Folds.SumOfPointwise(trips, Metrics.TripCo2, r, Metrics.TripCo2);
  }
}

=== FILE: deals_function.dfy ===
/** The `deals` serverless function: it asks a language model for six deals,
    maps the gateway's failures to responses, strips the code fences the model
    may wrap its answer in, and returns the parsed answer as `{ deals }`. The
    API key, the gateway's answer and `JSON.parse` are parameters. */
module DealsFunction {
  import opened Wrappers
  import opened Json
  import Http
  import JsText

  // ---------------------------------------------------------------------------
  // Request and prompt

  /** The request body's fields; the page always sends both as strings. */
  datatype Request = Request(destination: Option<string>, kind: Option<string>)

  /** The two variable parts of the prompt: what the deals are for, and the
      sentence that restricts or widens the kinds of deals. */
  datatype Prompt = Prompt(subject: string, focus: string)

  const AllKinds := "Include flights, hotels, and activities."

  /** `type || 'all'`. */
  function DealType(req: Request): (r: string)
    ensures r != ""
    ensures req.kind.Some? && req.kind.value != "" ==> r == req.kind.value
    ensures req.kind.None? || req.kind.value == "" ==> r == "all"
  {
    JsText.OptOrElse(req.kind, "all")
  }

  /** The prompt: for `destination || 'popular destinations'`, focused on one
      kind of deal unless the type is "all". */
  function PromptFor(req: Request): (r: Prompt)
    ensures r.subject == JsText.OptOrElse(req.destination, "popular destinations")
    ensures r.focus == AllKinds <==> DealType(req) == "all"
    ensures DealType(req) != "all" ==> r.focus == "Focus on " + DealType(req) + " deals only."
  {
    var t := DealType(req);
    assert ("Focus on " + t + " deals only.")[0] != AllKinds[0];
    Prompt(JsText.OptOrElse(req.destination, "popular destinations"),
           if t != "all" then "Focus on " + t + " deals only." else AllKinds)
  }

  // ---------------------------------------------------------------------------
  // Fence cleanup

  const JsonFence := "```json"
  const Fence := "```"

  /** `s.replace(/<fence>\n?/g, '')`: every occurrence of `fence`, found left to
      right without overlapping, is removed with the newline right after it,
      if there is one. */
  function StripFence(s: string, fence: string): (r: string)
    requires |fence| > 0
    ensures |r| <= |s|
    decreases |s|
  {
    if JsText.StartsWith(s, fence) then
      var rest := s[|fence|..];
      StripFence(if |rest| > 0 && rest[0] == '\n' then rest[1..] else rest, fence)
    else if |s| == 0 then ""
    else [s[0]] + StripFence(s[1..], fence)
  }

  /** The handler's cleanup of the answer: both kinds of fence removed, then trimmed. */
  function Clean(s: string): string {
    JsText.Trim(StripFence(StripFence(s, JsonFence), Fence))
  }

  /** An occurrence in the tail is an occurrence in the string. */
  lemma ContainsInTail(s: string, sub: string)
    requires |s| > 0
    ensures JsText.Contains(s[1..], sub) ==> JsText.Contains(s, sub)
  {
    JsText.ContainsInSlice(s, sub, 1, |s|);
    assert s[1..|s|] == s[1..];
  }

  /** Text without the fence passes through unchanged. */
  lemma {:induction false} StripFenceAbsent(s: string, fence: string)
    requires |fence| > 0
    requires !JsText.Contains(s, fence)
    ensures StripFence(s, fence) == s
    decreases |s|
  {
    assert !JsText.OccursAt(s, fence, 0);
    if |s| > 0 {
      ContainsInTail(s, fence);
      StripFenceAbsent(s[1..], fence);
    }
  }

  /** A prefix without the fence's first character passes through unchanged. */
  lemma {:induction false} StripFencePrefix(p: string, rest: string, fence: string)
    requires |fence| > 0 && fence[0] !in p
    ensures StripFence(p + rest, fence) == p + StripFence(rest, fence)
    decreases |p|
  {
    if |p| > 0 {
      assert (p + rest)[0] == p[0];
      assert (p + rest)[1..] == p[1..] + rest;
      StripFencePrefix(p[1..], rest, fence);
    } else {
      assert p + rest == rest;
    }
  }

  /** A stripped text that starts with a backtick comes from one that does. */
  lemma StrippedTick(u: string)
    ensures |StripFence(u, Fence)| > 0 && StripFence(u, Fence)[0] == '`' ==> |u| > 0 && u[0] == '`'
  {
  }

  /** A stripped text that starts with two backticks comes from one that does. */
  lemma StrippedTwoTicks(t: string)
    ensures JsText.StartsWith(StripFence(t, Fence), "``") ==> JsText.StartsWith(t, "``")
  {
    if |t| > 0 && !JsText.StartsWith(t, Fence) {
      StrippedTick(t[1..]);
    }
  }

  /** After the second pass no "```" is left: a backtick kept in front of a
      removed fence would have started a fence itself. */
  lemma {:induction false} NoFenceLeft(s: string)
    ensures !JsText.Contains(StripFence(s, Fence), Fence)
    decreases |s|
  {
    if JsText.StartsWith(s, Fence) {
      var rest := s[|Fence|..];
      NoFenceLeft(if |rest| > 0 && rest[0] == '\n' then rest[1..] else rest);
    } else if |s| > 0 {
      var x := StripFence(s[1..], Fence);
      var r := [s[0]] + x;
      assert StripFence(s, Fence) == r;
      NoFenceLeft(s[1..]);
      StrippedTwoTicks(s[1..]);
      forall i | 0 <= i <= |r| - |Fence|
        ensures !JsText.OccursAt(r, Fence, i)
      {
        if i == 0 {
          assert r[0..3] == [s[0]] + x[..2];
          if |s| >= 3 {
            assert s[..3] == [s[0]] + s[1..][..2];
          }
        } else {
          assert r[i..i + 3] == x[i - 1..i + 2];
          assert !JsText.OccursAt(x, Fence, i - 1);
        }
      }
    }
  }

  /** The cleaned text never holds a code fence. */
  lemma CleanHasNoFence(s: string)
    ensures !JsText.Contains(Clean(s), Fence)
  {
    var p := StripFence(StripFence(s, JsonFence), Fence);
    NoFenceLeft(StripFence(s, JsonFence));
    JsText.TrimSpec(p);
    var i, j :| 0 <= i <= j <= |p| && JsText.Trim(p) == p[i..j];
    JsText.ContainsInSlice(p, Fence, i, j);
  }

  /** Cleaning is idempotent: a cleaned answer is left as it is. */
  lemma CleanIdempotent(s: string)
    ensures Clean(Clean(s)) == Clean(s)
  {
    var c := Clean(s);
    CleanHasNoFence(s);
    forall i | 0 <= i <= |c| - |JsonFence|
      ensures !JsText.OccursAt(c, JsonFence, i)
    {
      assert c[i..i + 7][..3] == c[i..i + 3];
      assert JsonFence[..3] == Fence;
      assert !JsText.OccursAt(c, Fence, i);
    }
    StripFenceAbsent(c, JsonFence);
    StripFenceAbsent(c, Fence);
    JsText.TrimIdempotent(StripFence(StripFence(s, JsonFence), Fence));
  }

  /** The first pass removes the opening "```json" and its newline. */
  lemma StripOpeningFence(body: string)
    requires '`' !in body
    ensures StripFence("```json\n" + body + "\n```", JsonFence) == body + "\n```"
  {
    var u := body + "\n```";
    var s := "```json\n" + body + "\n```";
    assert s == JsonFence + ("\n" + u);
    assert s[|JsonFence|..] == "\n" + u;
    assert ("\n" + u)[1..] == u;
    forall i | 0 <= i <= |u| - |JsonFence|
      ensures !JsText.OccursAt(u, JsonFence, i)
    {
      assert u[i] == body[i];
      assert u[i..i + 7][0] == u[i];
    }
    StripFenceAbsent(u, JsonFence);
  }

  /** The second pass removes the closing "```". */
  lemma StripClosingFence(body: string)
    requires '`' !in body
    ensures StripFence(body + "\n```", Fence) == body + "\n"
  {
    StripFencePrefix(body + "\n", "```", Fence);
    assert body + "\n```" == (body + "\n") + "```";
    assert StripFence("```", Fence) == "";
    assert (body + "\n") + "" == body + "\n";
  }

  /** An answer wrapped in a JSON code block cleans to its trimmed body. */
  lemma CleanFencedBlock(body: string)
    requires '`' !in body
    ensures Clean("```json\n" + body + "\n```") == JsText.Trim(body)
  {
    StripOpeningFence(body);
    StripClosingFence(body);
    assert body + "\n" == body + ['\n'];
    JsText.TrimTrailingWhitespace(body, '\n');
  }

  /** An answer with no backticks at all is only trimmed. */
  lemma CleanPlainAnswer(body: string)
    requires '`' !in body
    ensures Clean(body) == JsText.Trim(body)
  {
    JsText.MissingChar(body, JsonFence, 0);
    JsText.MissingChar(body, Fence, 0);
    StripFenceAbsent(body, JsonFence);
    StripFenceAbsent(body, Fence);
  }

  // ---------------------------------------------------------------------------
  // The handler

  /** The response body: the parsed deals, or `{ error }`. */
  datatype Body = DealsBody(deals: Json) | ErrorBody(error: string)

  const KeyMissing := "Lovable API key not configured"
  const RateLimited := "Rate limit exceeded. Please try again later."
  const CreditsExhausted := "AI credits exhausted. Please add credits to continue."
  const GenerationFailed := "Failed to generate deals"

  /** The whole request. `gateway` is the chat-completion call (its body the
      first choice's message content, or the rejection of the fetch) and
      `parse` is `JSON.parse`. */
  function Handle(req: Request, apiKey: Option<string>, gateway: Result<Http.Response<string>>,
                  parse: string -> Result<Json>): (r: Http.Response<Body>)
    ensures r.status == 200 <==> r.body.DealsBody?
    ensures r.status in {200, 402, 429, 500}
    ensures JsText.OptOrElse(apiKey, "") == "" ==> r == Http.Response(500, ErrorBody(KeyMissing))
    ensures r.body.DealsBody? ==>
              gateway.Ok? && Http.IsOk(gateway.value.status) &&
              parse(Clean(gateway.value.body)) == Ok(r.body.deals)
    ensures JsText.OptOrElse(apiKey, "") != "" && gateway.Err? ==> r == Http.Response(500, ErrorBody(gateway.message))
    ensures JsText.OptOrElse(apiKey, "") != "" && gateway.Ok? && Http.IsOk(gateway.value.status) ==>
              match parse(Clean(gateway.value.body))
              case Ok(v) => r == Http.Response(200, DealsBody(v))
              case Err(m) => r == Http.Response(500, ErrorBody(m))
  {
    if JsText.OptOrElse(apiKey, "") == "" then
      Http.Response(500, ErrorBody(KeyMissing))
    else
      match gateway
      case Err(m) => Http.Response(500, ErrorBody(m))
      case Ok(resp) =>
        if !Http.IsOk(resp.status) then
          if resp.status == 429 then Http.Response(429, ErrorBody(RateLimited))
          else if resp.status == 402 then Http.Response(402, ErrorBody(CreditsExhausted))
          else Http.Response(500, ErrorBody(GenerationFailed))
        else
          match parse(Clean(resp.body))
          case Err(m) => Http.Response(500, ErrorBody(m))
          case Ok(v) => Http.Response(200, DealsBody(v))
  }

  /** The gateway's failures, once the key is configured: 429 and 402 are
      passed on with their own messages, every other failure status is a 500. */
  lemma GatewayStatusMapping(req: Request, key: string, resp: Http.Response<string>, parse: string -> Result<Json>)
    requires key != ""
    requires !Http.IsOk(resp.status)
    ensures var r := Handle(req, Some(key), Ok(resp), parse);
            && (resp.status == 429 ==> r == Http.Response(429, ErrorBody(RateLimited)))
            && (resp.status == 402 ==> r == Http.Response(402, ErrorBody(CreditsExhausted)))
            && (resp.status != 429 && resp.status != 402 ==> r == Http.Response(500, ErrorBody(GenerationFailed)))
  {
  }

  /** A model answer wrapped in a code block reaches `JSON.parse` unwrapped. */
  lemma FencedAnswerParsed(req: Request, key: string, status: int, body: string, parse: string -> Result<Json>)
    requires key != "" && Http.IsOk(status) && '`' !in body
    requires parse(JsText.Trim(body)).Ok?
    ensures Handle(req, Some(key), Ok(Http.Response(status, "```json\n" + body + "\n```")), parse)
            == Http.Response(200, DealsBody(parse(JsText.Trim(body)).value))
  {
    CleanFencedBlock(body);
  }
}

=== FILE: deals_page.dfy ===
/** The deals page: it asks the `deals` function for deals of the selected
    kind, filters the list it holds by the active tab, and shows each deal
    with its style, discount and booking link. */
module DealsPage {
  import opened Wrappers
  import opened Json
  import Http
  import JsText
  import Folds
  import DealsFunction

  /** A deal as the page reads it. */
  datatype Deal = Deal(id: string, kind: string, dealType: string, originalPrice: real, discountedPrice: real)

  // ---------------------------------------------------------------------------
  // Deal styles

  /** The badge of a deal type. */
  datatype DealStyle = DealStyle(bg: string, text: string, caption: string)

  const ExclusiveStyle := DealStyle("bg-accent/10", "text-accent", "Exclusive")

  /** `dealTypeColors[dealType] || dealTypeColors['exclusive']`. */
  function StyleOf(dealType: string): (r: DealStyle)
    ensures dealType == "flash-sale" <==> r.caption == "Flash Sale"
    ensures dealType == "early-bird" <==> r.caption == "Early Bird"
    ensures dealType == "last-minute" <==> r.caption == "Last Minute"
    ensures dealType !in {"flash-sale", "early-bird", "last-minute"} <==> r == ExclusiveStyle
  {
    match dealType
    case "flash-sale" => DealStyle("bg-destructive/10", "text-destructive", "Flash Sale")
    case "early-bird" => DealStyle("bg-success/10", "text-success", "Early Bird")
    case "last-minute" => DealStyle("bg-warning/10", "text-warning", "Last Minute")
    case _ => ExclusiveStyle
  }

  /** Different known deal types get different badges; every other type looks
      like an exclusive deal. */
  lemma StylesDistinct(a: string, b: string)
    ensures StyleOf(a) == StyleOf(b) <==>
              a == b || (a !in {"flash-sale", "early-bird", "last-minute"} && b !in {"flash-sale", "early-bird", "last-minute"})
  {
  }

  // ---------------------------------------------------------------------------
  // Discount and booking link

  /** `Math.round((original - discounted) / original * 100)`; an original price
      of 0 divides by zero, which the model reports as no number. */
  function Discount(d: Deal): (r: Option<int>)
    ensures r.None? <==> d.originalPrice == 0.0
    ensures r.Some? ==> r.value as real - 0.5 <= (d.originalPrice - d.discountedPrice) / d.originalPrice * 100.0 < r.value as real + 0.5
  {
    if d.originalPrice == 0.0 then None
    else Some(JsText.Round((d.originalPrice - d.discountedPrice) / d.originalPrice * 100.0))
  }

  /** The percentage lies between the given bounds when the discounted price does. */
  lemma PercentBetween(o: real, dp: real, lo: real, hi: real)
    requires o > 0.0
    requires (1.0 - hi) * o <= dp <= (1.0 - lo) * o
    ensures lo * 100.0 <= (o - dp) / o * 100.0 <= hi * 100.0
  {
    assert lo * o <= o - dp <= hi * o;
    assert (o - dp) / o * o == o - dp;
  }

  /** A discounted price between 0 and the original gives a discount between
      0 and 100 per cent. */
  lemma DiscountPercentRange(d: Deal)
    requires 0.0 <= d.discountedPrice <= d.originalPrice && d.originalPrice > 0.0
    ensures Discount(d).Some? && 0 <= Discount(d).value <= 100
  {
    var o := d.originalPrice;
    PercentBetween(o, d.discountedPrice, 0.0, 1.0);
    JsText.RoundMonotone(0.0, (o - d.discountedPrice) / o * 100.0);
    JsText.RoundMonotone((o - d.discountedPrice) / o * 100.0, 100.0);
  }

  /** The 15-50 % discounts the prompt asks for show as 15 to 50 per cent. */
  lemma DiscountAsRequested(d: Deal)
    requires d.originalPrice > 0.0
    requires 0.5 * d.originalPrice <= d.discountedPrice <= 0.85 * d.originalPrice
    ensures Discount(d).Some? && 15 <= Discount(d).value <= 50
  {
    var o := d.originalPrice;
    PercentBetween(o, d.discountedPrice, 0.15, 0.5);
    JsText.RoundMonotone(15.0, (o - d.discountedPrice) / o * 100.0);
    JsText.RoundMonotone((o - d.discountedPrice) / o * 100.0, 50.0);
  }

  /** `getBookingUrl`: flights go to Skyscanner, hotels to Booking.com and
      everything else to Viator. */
  function BookingUrl(d: Deal): (r: string)
    ensures r == "https://www.skyscanner.co.in/" <==> d.kind == "flight"
    ensures r == "https://www.booking.com/" <==> d.kind == "hotel"
    ensures r == "https://www.viator.com/" <==> d.kind != "flight" && d.kind != "hotel"
  {
    if d.kind == "flight" then "https://www.skyscanner.co.in/"
    else if d.kind == "hotel" then "https://www.booking.com/"
    else "https://www.viator.com/"
  }

  // ---------------------------------------------------------------------------
  // Tabs and filtering

  /** The request's `type` for a tab: "all", or the singular of the tab's name;
      any other tab asks for activities. */
  function RequestType(tab: string): (r: string)
    ensures r == "all" <==> tab == "all"
    ensures r == "flight" <==> tab == "flights"
    ensures r == "hotel" <==> tab == "hotels"
    ensures r == "activity" <==> tab !in {"all", "flights", "hotels"}
  {
    if tab == "all" then "all"
    else if tab == "flights" then "flight"
    else if tab == "hotels" then "hotel"
    else "activity"
  }

  /** Whether the active tab shows a deal. */
  predicate Shown(tab: string, d: Deal) {
    if tab == "all" then true
    else if tab == "flights" then d.kind == "flight"
    else if tab == "hotels" then d.kind == "hotel"
    else if tab == "activities" then d.kind == "activity"
    else true
  }

  /** `filteredDeals`. */
  function FilteredDeals(deals: seq<Deal>, tab: string): seq<Deal> {
    Folds.Filter(deals, (d: Deal) => Shown(tab, d))
  }

  /** The shown deals keep their order; a kind tab shows exactly the deals of
      the kind it requests, and "all" or an unknown tab shows every deal. */
  lemma FilteredDealsSpec(deals: seq<Deal>, tab: string)
    ensures Folds.IsSubsequence(FilteredDeals(deals, tab), deals)
    ensures tab in {"flights", "hotels", "activities"} ==>
              (forall d :: d in FilteredDeals(deals, tab) <==> d in deals && d.kind == RequestType(tab))
    ensures tab !in {"flights", "hotels", "activities"} ==> FilteredDeals(deals, tab) == deals
  {
    Folds.FilterIsSubsequence(deals, (d: Deal) => Shown(tab, d));
    if tab !in {"flights", "hotels", "activities"} {
      Folds.FilterAll(deals, (d: Deal) => Shown(tab, d));
    }
  }

  /** The three kind tabs together show no more deals than "all". */
  lemma KindTabsPartition(deals: seq<Deal>)
    ensures |FilteredDeals(deals, "flights")| + |FilteredDeals(deals, "hotels")| <= |FilteredDeals(deals, "all")|
    ensures |FilteredDeals(deals, "activities")| <= |FilteredDeals(deals, "all")|
  {
    FilteredDealsSpec(deals, "all");
    Folds.CountDisjoint(deals, (d: Deal) => Shown("flights", d), (d: Deal) => Shown("hotels", d));
  }

  // ---------------------------------------------------------------------------
  // The page

  datatype Page = Page(activeTab: string, destination: string, deals: seq<Deal>)

  const InitialPage := Page("all", "Goa", [])

  datatype Toast = ErrorToast(message: string) | SuccessToast(message: string)

  /** What `invoke` hands back as `data`: the function's body. */
  datatype Reply = Reply(error: Option<string>, deals: Option<seq<Deal>>)

  /** Whether `fetchDeals` calls the function at all. */
  predicate Sends(p: Page) {
    JsText.Trim(p.destination) != ""
  }

  /** The body the page sends for the active tab. */
  function RequestOf(p: Page): (r: DealsFunction.Request)
    ensures r.destination == Some(p.destination)
    ensures r.kind == Some(RequestType(p.activeTab))
  {
    DealsFunction.Request(Some(p.destination), Some(RequestType(p.activeTab)))
  }

  /** `fetchDeals`: a blank destination is refused before any request; an
      invocation error or an `error` field keeps the old list; otherwise the
      list is replaced by `data.deals || []`. */
  function FetchDeals(p: Page, invoked: Result<Reply>): (r: (Page, Toast))
    ensures !Sends(p) ==> r == (p, ErrorToast("Please enter a destination"))
    ensures r.1.ErrorToast? ==> r.0 == p
    ensures Sends(p) && (invoked.Err? || JsText.OptOrElse(invoked.value.error, "") != "") ==>
              r == (p, ErrorToast("Failed to fetch deals. Please try again."))
    ensures Sends(p) && invoked.Ok? && JsText.OptOrElse(invoked.value.error, "") == "" ==>
              var list := if invoked.value.deals.Some? then invoked.value.deals.value else [];
              r == (p.(deals := list),
                    SuccessToast("Found " + JsText.NatToString(|list|) + " deals for " + p.destination))
  {
    if !Sends(p) then (p, ErrorToast("Please enter a destination"))
    else
      match invoked
      case Err(_) => (p, ErrorToast("Failed to fetch deals. Please try again."))
      case Ok(reply) =>
        if JsText.OptOrElse(reply.error, "") != "" then (p, ErrorToast("Failed to fetch deals. Please try again."))
        else
          var list := if reply.deals.Some? then reply.deals.value else [];
          (p.(deals := list), SuccessToast("Found " + JsText.NatToString(|list|) + " deals for " + p.destination))
  }

  /** `handleTabChange`: only the active tab changes; nothing is fetched. */
  function TabChange(p: Page, tab: string): (r: Page)
    ensures r.activeTab == tab && r.destination == p.destination && r.deals == p.deals
  {
    p.(activeTab := tab)
  }

  /** The deals on screen after switching tabs are the held deals filtered by
      the new tab, and switching back restores the previous view. */
  lemma TabChangeRefilters(p: Page, tab: string)
    ensures FilteredDeals(TabChange(p, tab).deals, tab) == FilteredDeals(p.deals, tab)
    ensures TabChange(TabChange(p, tab), p.activeTab) == p
  {
  }

  // ---------------------------------------------------------------------------
  // The page and the function together

  /** `supabase.functions.invoke('deals')`: a non-2xx response is an error;
      otherwise the body's deals, read by `decode`, are the reply. */
  function Invoke(resp: Http.Response<DealsFunction.Body>, decode: Json -> Option<seq<Deal>>): (r: Result<Reply>)
    ensures r.Ok? <==> Http.IsOk(resp.status)
    ensures r.Ok? && resp.body.DealsBody? ==> r.value == Reply(None, decode(resp.body.deals))
  {
    if !Http.IsOk(resp.status) then Err("Edge Function returned a non-2xx status code")
    else
      match resp.body
      case DealsBody(v) => Ok(Reply(None, decode(v)))
      case ErrorBody(e) => Ok(Reply(Some(e), None))
  }

  /** The prompt built for the page's request names the destination and
      widens to every kind exactly on the "all" tab. */
  lemma PageRequestPrompt(p: Page)
    requires Sends(p)
    ensures DealsFunction.PromptFor(RequestOf(p)).subject == p.destination
    ensures DealsFunction.PromptFor(RequestOf(p)).focus == DealsFunction.AllKinds <==> p.activeTab == "all"
  {
  }

  /** Every failure of the function (rate limit, exhausted credits, a missing
      key, an unparsable answer) leaves the list as it was and shows the
      generic failure message. */
  lemma FunctionFailureKeepsDeals(p: Page, key: Option<string>, gateway: Result<Http.Response<string>>,
                                  parse: string -> Result<Json>, decode: Json -> Option<seq<Deal>>)
    requires Sends(p)
    ensures DealsFunction.Handle(RequestOf(p), key, gateway, parse).status != 200 ==>
              FetchDeals(p, Invoke(DealsFunction.Handle(RequestOf(p), key, gateway, parse), decode))
              == (p, ErrorToast("Failed to fetch deals. Please try again."))
  {
  }
}

=== FILE: emergency_sos.dfy ===
/** The emergency page: the fixed emergency numbers, calling a number, and
    the form that adds a personal emergency contact. Geolocation and the
    database reads are left out; the signed-in user is a parameter. */
module EmergencySos {
  import opened Wrappers
  import JsText

  /** An emergency service and the number it answers on. */
  datatype EmergencyNumber = EmergencyNumber(name: string, number: string, color: string)

  const EmergencyNumbers: seq<EmergencyNumber> := [
    EmergencyNumber("Police", "100", "bg-info"),
    EmergencyNumber("Ambulance", "108", "bg-destructive"),
    EmergencyNumber("Fire", "101", "bg-warning"),
    EmergencyNumber("Emergency", "112", "bg-success")]

  /** A nearby service card: its name, kind, distance and phone. */
  datatype NearbyService = NearbyService(name: string, kind: string, distance: string, phone: string)

  const NearbyServices: seq<NearbyService> := [
    NearbyService("City Hospital", "Hospital", "1.2 km", "+91 98765 43210"),
    NearbyService("Central Police Station", "Police", "0.8 km", "100"),
    NearbyService("Fire Station #3", "Fire", "2.1 km", "101"),
    NearbyService("24/7 Medical Store", "Pharmacy", "0.5 km", "+91 98765 12345")]

  /** The numbers are distinct, so each button reaches its own service, and
      the nearby police and fire stations answer on the service numbers. */
  lemma NumbersDistinct()
    ensures forall i, j :: 0 <= i < j < |EmergencyNumbers| ==> EmergencyNumbers[i].number != EmergencyNumbers[j].number
    ensures NearbyServices[1].kind == EmergencyNumbers[0].name && NearbyServices[1].phone == EmergencyNumbers[0].number
    ensures NearbyServices[2].kind == EmergencyNumbers[2].name && NearbyServices[2].phone == EmergencyNumbers[2].number
  {
  }

  /** `handleCall`: the page navigates to the `tel:` URL of the number. */
  function CallUrl(number: string): (r: string)
    ensures JsText.StartsWith(r, "tel:") && r[4..] == number
  {
    "tel:" + number
  }

  /** Different numbers are called through different URLs. */
  lemma CallUrlInjective(a: string, b: string)
    ensures CallUrl(a) == CallUrl(b) <==> a == b
  {
    assert CallUrl(a)[4..] == a && CallUrl(b)[4..] == b;
  }

  /** The SOS button's URL. */
  const SosUrl := CallUrl("112")

  /** The SOS button calls the general emergency service's number and no other. */
  lemma SosCallsEmergency(i: nat)
    requires i < |EmergencyNumbers|
    ensures SosUrl == CallUrl(EmergencyNumbers[i].number) <==> EmergencyNumbers[i].name == "Emergency"
  {
    CallUrlInjective("112", EmergencyNumbers[i].number);
  }

  // ---------------------------------------------------------------------------
  // Adding a contact

  datatype ContactForm = ContactForm(name: string, phone: string, relationship: string, dialogOpen: bool)

  const EmptyContactForm := ContactForm("", "", "", false)

  /** The row `addContact` inserts into `emergency_contacts`. */
  datatype ContactInsert = ContactInsert(userId: string, name: string, phone: string, relationship: string)

  /** `addContact` up to the insert: refused without a name, phone or
      signed-in user; the relationship is optional and defaults to "Other". */
  function AddContact(form: ContactForm, user: Option<string>): (r: Result<ContactInsert>)
    ensures r.Err? <==> form.name == "" || form.phone == "" || user.None?
    ensures r.Err? ==> r.message == "Please fill in all fields"
    ensures r.Ok? ==> r.value.userId == user.value && r.value.name == form.name && r.value.phone == form.phone
    ensures r.Ok? ==> r.value.relationship != ""
    ensures r.Ok? && form.relationship != "" ==> r.value.relationship == form.relationship
    ensures r.Ok? && form.relationship == "" ==> r.value.relationship == "Other"
  {
    if form.name == "" || form.phone == "" || user.None? then Err("Please fill in all fields")
    else Ok(ContactInsert(user.value, form.name, form.phone, JsText.OrElse(form.relationship, "Other")))
  }

  datatype Toast = ErrorToast(message: string) | SuccessToast(message: string)

  /** The form after the insert: a success clears the inputs and closes the
      dialog; a failure keeps them. */
  function AfterAddContact(form: ContactForm, insertFailed: bool): (r: (ContactForm, Toast))
    ensures insertFailed ==> r == (form, ErrorToast("Failed to add contact"))
    ensures !insertFailed ==> r.0.name == "" && r.0.phone == "" && r.0.relationship == "" && !r.0.dialogOpen &&
                              r.1 == SuccessToast("Emergency contact added")
  {
    if insertFailed then (form, ErrorToast("Failed to add contact"))
    else (EmptyContactForm, SuccessToast("Emergency contact added"))
  }

  /** After a successful add the cleared form is refused until it is filled in again. */
  lemma NoDoubleContact(form: ContactForm, user: Option<string>)
    ensures AddContact(AfterAddContact(form, false).0, user).Err?
  {
  }
}

=== FILE: folds.dfy ===
/** The array folds the pages use: `filter`, `filter(..).length` and
    `reduce((sum, x) => sum + f(x), 0)`, with the facts the metrics rely on:
    filtering keeps order, and sums and counts do not depend on the order of
    the input. */
module Folds {

  /** `r` appears in `xs` in the same relative order (not necessarily contiguously). */
  predicate IsSubsequence<T(==)>(r: seq<T>, xs: seq<T>)
    decreases |xs|
  {
    if |r| == 0 then true
    else if |xs| == 0 then false
    else (r[0] == xs[0] && IsSubsequence(r[1..], xs[1..])) || IsSubsequence(r, xs[1..])
  }

  /** `xs.filter(p)`. */
  function Filter<T>(xs: seq<T>, p: T -> bool): (r: seq<T>)
    ensures |r| <= |xs|
    ensures forall i :: 0 <= i < |r| ==> r[i] in xs && p(r[i])
    ensures forall i :: 0 <= i < |xs| && p(xs[i]) ==> xs[i] in r
  {
    if |xs| == 0 then []
    else if p(xs[0]) then [xs[0]] + Filter(xs[1..], p)
    else Filter(xs[1..], p)
  }

  /** `xs.filter(p).length`. */
  function Count<T>(xs: seq<T>, p: T -> bool): nat {
    |Filter(xs, p)|
  }

  /** The sum of `f` over `xs`, associated from the right. */
  function SumOf<T>(xs: seq<T>, f: T -> real): real {
    if |xs| == 0 then 0.0 else f(xs[0]) + SumOf(xs[1..], f)
  }

  /** `xs.reduce((sum, x) => sum + f(x), acc)`: the left fold JavaScript performs. */
  function Reduce<T>(xs: seq<T>, f: T -> real, acc: real): real {
    if |xs| == 0 then acc else Reduce(xs[1..], f, acc + f(xs[0]))
  }

  /** Filtering keeps the survivors in their original relative order. */
  lemma {:induction false} FilterIsSubsequence<T>(xs: seq<T>, p: T -> bool)
    ensures IsSubsequence(Filter(xs, p), xs)
    decreases |xs|
  {
    if |xs| > 0 {
      FilterIsSubsequence(xs[1..], p);
      var rest := Filter(xs[1..], p);
      if p(xs[0]) {
        assert ([xs[0]] + rest)[1..] == rest;
      } else if |rest| > 0 {
        assert IsSubsequence(rest, xs[1..]);
      }
    }
  }

  /** Filtering distributes over concatenation: the survivors of `a` come before those of `b`. */
  lemma {:induction false} FilterConcat<T>(a: seq<T>, b: seq<T>, p: T -> bool)
    ensures Filter(a + b, p) == Filter(a, p) + Filter(b, p)
    decreases |a|
  {
    if |a| > 0 {
      assert (a + b)[0] == a[0];
      assert (a + b)[1..] == a[1..] + b;
      FilterConcat(a[1..], b, p);
      if p(a[0]) {
        assert Filter(a + b, p) == [a[0]] + (Filter(a[1..], p) + Filter(b, p));
        assert [a[0]] + (Filter(a[1..], p) + Filter(b, p)) == ([a[0]] + Filter(a[1..], p)) + Filter(b, p);
      }
    } else {
      assert a + b == b;
    }
  }

  /** Filtering twice with the same predicate is filtering once. */
  lemma {:induction false} FilterIdempotent<T>(xs: seq<T>, p: T -> bool)
    ensures Filter(Filter(xs, p), p) == Filter(xs, p)
    decreases |xs|
  {
    if |xs| > 0 {
      FilterIdempotent(xs[1..], p);
      var rest := Filter(xs[1..], p);
      if p(xs[0]) {
        assert ([xs[0]] + rest)[0] == xs[0];
        assert ([xs[0]] + rest)[1..] == rest;
      }
    }
  }

  /** When every element passes, filtering changes nothing. */
  lemma {:induction false} FilterAll<T>(xs: seq<T>, p: T -> bool)
    requires forall i :: 0 <= i < |xs| ==> p(xs[i])
    ensures Filter(xs, p) == xs
    decreases |xs|
  {
    if |xs| > 0 {
      FilterAll(xs[1..], p);
      assert [xs[0]] + xs[1..] == xs;
    }
  }

  /** The multiplicity of `x` among the survivors is its multiplicity in `xs` if it passes, else 0. */
  lemma {:induction false} FilterMultiplicity<T>(xs: seq<T>, p: T -> bool, x: T)
    ensures multiset(Filter(xs, p))[x] == if p(x) then multiset(xs)[x] else 0
    decreases |xs|
  {
    if |xs| > 0 {
      FilterMultiplicity(xs[1..], p, x);
      assert xs == [xs[0]] + xs[1..];
    }
  }

  /** Every value's multiplicity among the survivors is its multiplicity in `xs` if it passes, else 0. */
  lemma FilterMultiplicities<T>(xs: seq<T>, p: T -> bool)
    ensures forall x :: multiset(Filter(xs, p))[x] == if p(x) then multiset(xs)[x] else 0
  {
    forall x
      ensures multiset(Filter(xs, p))[x] == if p(x) then multiset(xs)[x] else 0
    {
      FilterMultiplicity(xs, p, x);
    }
  }

  /** Counting does not depend on the order of the input. */
  lemma CountPermutation<T>(a: seq<T>, b: seq<T>, p: T -> bool)
    requires multiset(a) == multiset(b)
    ensures Count(a, p) == Count(b, p)
  {
    forall x
      ensures multiset(Filter(a, p))[x] == multiset(Filter(b, p))[x]
    {
      FilterMultiplicity(a, p, x);
      FilterMultiplicity(b, p, x);
    }
    assert multiset(Filter(a, p)) == multiset(Filter(b, p));
    assert |multiset(Filter(a, p))| == |Filter(a, p)|;
    assert |multiset(Filter(b, p))| == |Filter(b, p)|;
  }

  /** Two predicates that never hold together count at most every element once. */
  lemma {:induction false} CountDisjoint<T>(xs: seq<T>, p: T -> bool, q: T -> bool)
    requires forall x :: !(p(x) && q(x))
    ensures Count(xs, p) + Count(xs, q) <= |xs|
    decreases |xs|
  {
    if |xs| > 0 {
      CountDisjoint(xs[1..], p, q);
    }
  }

  /** The sum of a concatenation is the sum of the parts. */
  lemma {:induction false} SumOfConcat<T>(a: seq<T>, b: seq<T>, f: T -> real)
    ensures SumOf(a + b, f) == SumOf(a, f) + SumOf(b, f)
    decreases |a|
  {
    if |a| > 0 {
      assert (a + b)[0] == a[0];
      assert (a + b)[1..] == a[1..] + b;
      SumOfConcat(a[1..], b, f);
    } else {
      assert a + b == b;
    }
  }

  /** JavaScript's left-to-right `reduce` computes the sum: with exact reals the association is immaterial. */
  lemma {:induction false} ReduceIsSum<T>(xs: seq<T>, f: T -> real, acc: real)
    ensures Reduce(xs, f, acc) == acc + SumOf(xs, f)
    decreases |xs|
  {
    if |xs| > 0 {
      ReduceIsSum(xs[1..], f, acc + f(xs[0]));
    }
  }

  /** Taking one element out of the sum. */
  lemma SumOfRemove<T>(xs: seq<T>, i: nat, f: T -> real)
    requires i < |xs|
    ensures SumOf(xs, f) == f(xs[i]) + SumOf(xs[..i] + xs[i + 1..], f)
  {
    assert xs == xs[..i] + ([xs[i]] + xs[i + 1..]);
    SumOfConcat(xs[..i], [xs[i]] + xs[i + 1..], f);
    SumOfConcat(xs[..i], xs[i + 1..], f);
    assert ([xs[i]] + xs[i + 1..])[1..] == xs[i + 1..];
  }

  /** Sums do not depend on the order of the input. */
  lemma {:induction false} SumOfPermutation<T>(a: seq<T>, b: seq<T>, f: T -> real)
    requires multiset(a) == multiset(b)
    ensures SumOf(a, f) == SumOf(b, f)
    decreases |a|
  {
    if |a| == 0 {
      assert |multiset(b)| == 0;
    } else {
      var x := a[0];
      assert x in multiset(b);
      var i :| 0 <= i < |b| && b[i] == x;
      var rest := b[..i] + b[i + 1..];
      assert b == b[..i] + [b[i]] + b[i + 1..];
      assert a == [a[0]] + a[1..];
      assert multiset(b) == multiset(b[..i]) + multiset{x} + multiset(b[i + 1..]);
      assert multiset(a) == multiset{x} + multiset(a[1..]);
      assert multiset(rest) == multiset(b[..i]) + multiset(b[i + 1..]);
      assert multiset(a[1..]) == multiset(a) - multiset{x};
      assert multiset(rest) == multiset(b) - multiset{x};
      SumOfPermutation(a[1..], rest, f);
      SumOfRemove(b, i, f);
    }
  }

  /** A sum of non-negative terms is non-negative. */
  lemma {:induction false} SumOfNonNegative<T>(xs: seq<T>, f: T -> real)
    requires forall i :: 0 <= i < |xs| ==> f(xs[i]) >= 0.0
    ensures SumOf(xs, f) >= 0.0
    decreases |xs|
  {
    if |xs| > 0 {
      SumOfNonNegative(xs[1..], f);
    }
  }

  /** Pointwise `f <= g` gives `SumOf(f) <= SumOf(g)`. */
  lemma {:induction false} SumOfMonotone<T>(xs: seq<T>, f: T -> real, g: T -> real)
    requires forall i :: 0 <= i < |xs| ==> f(xs[i]) <= g(xs[i])
    ensures SumOf(xs, f) <= SumOf(xs, g)
    decreases |xs|
  {
    if |xs| > 0 {
      SumOfMonotone(xs[1..], f, g);
    }
  }

  /** Scaling every term by `c` scales the sum by `c`. */
  lemma {:induction false} SumOfScale<T>(xs: seq<T>, f: T -> real, g: T -> real, c: real)
    requires forall i :: 0 <= i < |xs| ==> g(xs[i]) == c * f(xs[i])
    ensures SumOf(xs, g) == c * SumOf(xs, f)
    decreases |xs|
  {
    if |xs| > 0 {
      SumOfScale(xs[1..], f, g, c);
    }
  }

  /** Summing `f` over the survivors of `p` is summing `f` where `p` holds and 0 elsewhere. */
  lemma {:induction false} SumOfFilter<T>(xs: seq<T>, p: T -> bool, f: T -> real, masked: T -> real)
    requires forall i :: 0 <= i < |xs| ==> masked(xs[i]) == if p(xs[i]) then f(xs[i]) else 0.0
    ensures SumOf(Filter(xs, p), f) == SumOf(xs, masked)
    decreases |xs|
  {
    if |xs| > 0 {
      SumOfFilter(xs[1..], p, f, masked);
      if p(xs[0]) {
        var rest := Filter(xs[1..], p);
        assert ([xs[0]] + rest)[0] == xs[0];
        assert ([xs[0]] + rest)[1..] == rest;
      }
    }
  }

  /** Two sequences of the same length whose terms agree pointwise have the same sum. */
  lemma {:induction false} SumOfPointwise<T, U>(a: seq<T>, f: T -> real, b: seq<U>, g: U -> real)
    requires |a| == |b|
    requires forall i :: 0 <= i < |a| ==> f(a[i]) == g(b[i])
    ensures SumOf(a, f) == SumOf(b, g)
    decreases |a|
  {
    if |a| > 0 {
      SumOfPointwise(a[1..], f, b[1..], g);
    }
  }

  /** Where `p` holds on `a` and `q` holds at the same place in `b`, `b` counts at least as many. */
  lemma {:induction false} CountPointwise<T, U>(a: seq<T>, p: T -> bool, b: seq<U>, q: U -> bool)
    requires |a| == |b|
    requires forall i :: 0 <= i < |a| ==> p(a[i]) ==> q(b[i])
    ensures Count(a, p) <= Count(b, q)
    decreases |a|
  {
    if |a| > 0 {
      CountPointwise(a[1..], p, b[1..], q);
    }
  }

  /** Replacing one term changes the sum by the difference. */
  lemma {:induction false} SumOfUpdate<T>(xs: seq<T>, i: nat, y: T, f: T -> real)
    requires i < |xs|
    ensures SumOf(xs[i := y], f) == SumOf(xs, f) - f(xs[i]) + f(y)
    decreases |xs|
  {
    if i > 0 {
      SumOfUpdate(xs[1..], i - 1, y, f);
      assert xs[i := y][1..] == xs[1..][i - 1 := y];
    }
  }

  /** Dividing every term by `d` and multiplying by 100 does the same to the sum. */
  lemma {:induction false} SumOfPercent<T>(xs: seq<T>, f: T -> real, g: T -> real, d: real)
    requires d > 0.0
    requires forall i :: 0 <= i < |xs| ==> g(xs[i]) == f(xs[i]) / d * 100.0
    ensures SumOf(xs, g) == SumOf(xs, f) / d * 100.0
    decreases |xs|
  {
    if |xs| > 0 {
      SumOfPercent(xs[1..], f, g, d);
      var a := f(xs[0]);
      var b := SumOf(xs[1..], f);
      assert a / d * 100.0 + b / d * 100.0 == (a + b) / d * 100.0;
    }
  }

  /** Shares of a total, as percentages of that total, add up to 100. */
  lemma SumOfPercentages<T>(xs: seq<T>, f: T -> real, g: T -> real, d: real)
    requires d > 0.0
    requires forall i :: 0 <= i < |xs| ==> g(xs[i]) == f(xs[i]) / d * 100.0
    requires SumOf(xs, f) == d
    ensures SumOf(xs, g) == 100.0
  {
    SumOfPercent(xs, f, g, d);
  }

  /** The sum of a pointwise sum is the sum of the sums. */
  lemma {:induction false} SumOfAdd<T>(xs: seq<T>, f: T -> real, g: T -> real, h: T -> real)
    requires forall i :: 0 <= i < |xs| ==> h(xs[i]) == f(xs[i]) + g(xs[i])
    ensures SumOf(xs, h) == SumOf(xs, f) + SumOf(xs, g)
    decreases |xs|
  {
    if |xs| > 0 {
      SumOfAdd(xs[1..], f, g, h);
    }
  }
}

=== FILE: journal_page.dfy ===
/** The travel journal page: the mood badges and the form that adds an entry.
    The signed-in user and the clock are parameters; reading and deleting
    entries are plain database calls and are left out. */
module JournalPage {
  import opened Wrappers
  import JsText

  // ---------------------------------------------------------------------------
  // Moods

  /** A mood of the selector: its stored value, its label and its badge colour. */
  datatype MoodOption = MoodOption(value: string, caption: string, color: string)

  const Moods: seq<MoodOption> := [
    MoodOption("happy", "\U{1F60A} Happy", "bg-success/10 text-success"),
    MoodOption("excited", "\U{1F389} Excited", "bg-warning/10 text-warning"),
    MoodOption("relaxed", "\U{1F60C} Relaxed", "bg-info/10 text-info"),
    MoodOption("adventurous", "\U{1F3D4}\U{FE0F} Adventurous", "bg-primary/10 text-primary"),
    MoodOption("tired", "\U{1F634} Tired", "bg-muted text-muted-foreground"),
    MoodOption("neutral", "\U{1F610} Neutral", "bg-secondary text-secondary-foreground")]

  const MoodValues := {"happy", "excited", "relaxed", "adventurous", "tired", "neutral"}

  /** `moods.find((m) => m.value === mood)`. */
  function FindMood(options: seq<MoodOption>, mood: string): (r: Option<MoodOption>)
    ensures r.Some? ==> r.value in options && r.value.value == mood
    ensures r.None? <==> forall i :: 0 <= i < |options| ==> options[i].value != mood
  {
    if |options| == 0 then None
    else if options[0].value == mood then Some(options[0])
    else FindMood(options[1..], mood)
  }

  /** `getMoodInfo`: the mood's own option, or "neutral" for a missing or
      unknown mood. */
  function GetMoodInfo(mood: Option<string>): (r: MoodOption)
    ensures r in Moods
    ensures mood.Some? && mood.value in MoodValues ==> r.value == mood.value
    ensures mood.None? || mood.value !in MoodValues ==> r == Moods[5] && r.value == "neutral"
  {
    match mood
    case None => Moods[5]
    case Some(m) =>
      match FindMood(Moods, m)
      case Some(o) => o
      case None => Moods[5]
  }

  /** The badge shows the stored mood exactly when it is one of the six. */
  lemma MoodShownIffKnown(m: string)
    ensures GetMoodInfo(Some(m)).value == m <==> m in MoodValues
  {
  }

  // ---------------------------------------------------------------------------
  // Adding an entry

  datatype Form = Form(title: string, content: string, mood: string, location: string, dialogOpen: bool)

  const EmptyForm := Form("", "", "happy", "", false)

  /** The row `handleAddEntry` inserts into `journal_entries`. */
  datatype JournalInsert = JournalInsert(
    userId: string,
    title: string,
    content: string,
    mood: string,
    location: Option<string>,
    date: string)

  /** `new Date().toISOString().split('T')[0]` for the timestamp `now`. */
  function InsertDate(now: string): (r: string)
    ensures 'T' !in r
  {
    JsText.FirstSegment(now, 'T')
  }

  /** The stored date is the date part of the ISO timestamp. */
  lemma InsertDateOfTimestamp(date: string, time: string)
    requires 'T' !in date
    ensures InsertDate(date + "T" + time) == date
  {
    JsText.FirstSegmentOf(date, 'T', time);
  }

  /** `handleAddEntry` up to the insert: refused without a title, content or
      signed-in user; otherwise the form's entry, with an empty location
      stored as null. */
  function AddEntry(form: Form, user: Option<string>, now: string): (r: Result<JournalInsert>)
    ensures r.Err? <==> form.title == "" || form.content == "" || user.None?
    ensures r.Err? ==> r.message == "Please fill in title and content"
    ensures r.Ok? ==> r.value.userId == user.value && r.value.title == form.title &&
                      r.value.content == form.content && r.value.mood == form.mood &&
                      r.value.date == InsertDate(now)
    ensures r.Ok? ==> (r.value.location.None? <==> form.location == "")
    ensures r.Ok? && form.location != "" ==> r.value.location == Some(form.location)
  {
    if form.title == "" || form.content == "" || user.None? then Err("Please fill in title and content")
    else Ok(JournalInsert(user.value, form.title, form.content, form.mood,
                          if form.location == "" then None else Some(form.location), InsertDate(now)))
  }

  datatype Toast = ErrorToast(message: string) | SuccessToast(message: string)

  /** The form after the insert: a success clears it, resets the mood to
      "happy" and closes the dialog; a failure keeps it. */
  function AfterAdd(form: Form, insertFailed: bool): (r: (Form, Toast))
    ensures insertFailed ==> r == (form, ErrorToast("Failed to add entry"))
    ensures !insertFailed ==> r.0.title == "" && r.0.content == "" && r.0.location == "" &&
                              r.0.mood == "happy" && !r.0.dialogOpen && r.1 == SuccessToast("Journal entry added!")
  {
    if insertFailed then (form, ErrorToast("Failed to add entry")) else (EmptyForm, SuccessToast("Journal entry added!"))
  }

  /** After a successful add the form cannot be submitted again as it is. */
  lemma NoDoubleAdd(form: Form, user: Option<string>, now: string)
    ensures AddEntry(AfterAdd(form, false).0, user, now).Err?
  {
  }

  /** A mood chosen in the selector is shown with its own badge. */
  lemma ChosenMoodShown(form: Form, user: Option<string>, now: string)
    requires form.mood in MoodValues
    requires AddEntry(form, user, now).Ok?
    ensures GetMoodInfo(Some(AddEntry(form, user, now).value.mood)).value == form.mood
  {
  }
}

=== FILE: js_text.dfy ===
/** The JavaScript string and number operations the pages rely on:
    `trim`, `includes`, `startsWith`, ASCII `toLowerCase`, `split(sep)[0]`,
    `join`, `repeat`, `replace(/c/g, ..)`, `String(n)` for integers,
    `slice(n)` counted in UTF-16 code units, `s || fallback` and
    `Math.round`. */
module JsText {
  import opened Wrappers

  // ---------------------------------------------------------------------------
  // Truthiness and fallbacks

  /** `s || fallback` for a string: the empty string is falsy. */
  function OrElse(s: string, fallback: string): (r: string)
    ensures r == s || r == fallback
    ensures r == "" ==> s == "" && fallback == ""
    ensures s != "" ==> r == s
  {
    if s != "" then s else fallback
  }

  /** `o || fallback` for a string that may be `undefined` or `null`. */
  function OptOrElse(o: Option<string>, fallback: string): (r: string)
    ensures o.Some? && o.value != "" ==> r == o.value
    ensures o.None? || o.value == "" ==> r == fallback
  {
    match o
    case Some(s) => OrElse(s, fallback)
    case None => fallback
  }

  // ---------------------------------------------------------------------------
  // Whitespace and trim

  /** The characters `String.prototype.trim` removes: ECMAScript WhiteSpace and LineTerminator. */
  predicate IsWhitespace(c: char) {
    || c == '\t' || c == '\n' || c == '\U{000B}' || c == '\U{000C}' || c == '\r' || c == ' '
    || c == '\U{00A0}' || c == '\U{1680}' || ('\U{2000}' <= c <= '\U{200A}')
    || c == '\U{2028}' || c == '\U{2029}' || c == '\U{202F}' || c == '\U{205F}'
    || c == '\U{3000}' || c == '\U{FEFF}'
  }

  predicate AllWhitespace(s: string) {
    forall i :: 0 <= i < |s| ==> IsWhitespace(s[i])
  }

  /** Drops leading whitespace. */
  function TrimStart(s: string): (r: string)
    ensures |r| <= |s| && r == s[|s| - |r|..]
    ensures forall i :: 0 <= i < |s| - |r| ==> IsWhitespace(s[i])
    ensures r == "" || !IsWhitespace(r[0])
  {
    if |s| > 0 && IsWhitespace(s[0]) then TrimStart(s[1..]) else s
  }

  /** Drops trailing whitespace. */
  function TrimEnd(s: string): (r: string)
    ensures |r| <= |s| && r == s[..|r|]
    ensures forall i :: |r| <= i < |s| ==> IsWhitespace(s[i])
    ensures r == "" || !IsWhitespace(r[|r| - 1])
  {
    if |s| > 0 && IsWhitespace(s[|s| - 1]) then TrimEnd(s[..|s| - 1]) else s
  }

  /** `s.trim()`. */
  function Trim(s: string): string {
    TrimEnd(TrimStart(s))
  }

  /** The trimmed text neither starts nor ends with whitespace. */
  lemma TrimEdges(s: string)
    ensures Trim(s) == "" || (!IsWhitespace(Trim(s)[0]) && !IsWhitespace(Trim(s)[|Trim(s)| - 1]))
  {
    var t := TrimStart(s);
    var r := TrimEnd(t);
    assert r != "" ==> r[0] == t[0];
  }

  /** `s.trim()` is a contiguous piece of `s` with only whitespace cut off either end,
      and nothing left to cut. */
  lemma TrimSpec(s: string)
    ensures exists i, j :: 0 <= i <= j <= |s| && Trim(s) == s[i..j]
                           && AllWhitespace(s[..i]) && AllWhitespace(s[j..])
    ensures Trim(s) == "" || (!IsWhitespace(Trim(s)[0]) && !IsWhitespace(Trim(s)[|Trim(s)| - 1]))
  {
    TrimEdges(s);
    var t := TrimStart(s);
    var i := |s| - |t|;
    var r := TrimEnd(t);
    var j := i + |r|;
    assert t == s[i..];
    assert r == s[i..j];
    assert AllWhitespace(s[..i]) by {
      forall k | 0 <= k < i ensures IsWhitespace(s[..i][k]) {
        assert s[..i][k] == s[k];
      }
    }
    assert AllWhitespace(s[j..]) by {
      forall k | 0 <= k < |s| - j ensures IsWhitespace(s[j..][k]) {
        assert s[j..][k] == t[|r| + k];
      }
    }
  }

  /** Trimming twice is trimming once. */
  lemma TrimIdempotent(s: string)
    ensures Trim(Trim(s)) == Trim(s)
  {
    TrimEdges(s);
    var r := Trim(s);
    assert TrimStart(r) == r;
    assert TrimEnd(r) == r;
  }

  /** Leading whitespace is dropped before a trailing character is looked at. */
  lemma {:induction false} TrimStartAppend(s: string, c: char)
    ensures TrimStart(s + [c]) == if AllWhitespace(s) then TrimStart([c]) else TrimStart(s) + [c]
    decreases |s|
  {
    if |s| > 0 {
      assert (s + [c])[0] == s[0];
      assert (s + [c])[1..] == s[1..] + [c];
      TrimStartAppend(s[1..], c);
      if IsWhitespace(s[0]) {
        assert AllWhitespace(s) <==> AllWhitespace(s[1..]) by {
          if AllWhitespace(s[1..]) {
            forall k | 0 <= k < |s| ensures IsWhitespace(s[k]) {
              if k > 0 { assert s[k] == s[1..][k - 1]; }
            }
          }
        }
      }
    } else {
      assert s + [c] == [c];
    }
  }

  /** A trailing whitespace character does not change the trimmed text. */
  lemma TrimTrailingWhitespace(s: string, c: char)
    requires IsWhitespace(c)
    ensures Trim(s + [c]) == Trim(s)
  {
    TrimStartAppend(s, c);
    BlankIffAllWhitespace(s);
    if !AllWhitespace(s) {
      var t := TrimStart(s);
      assert (t + [c])[..|t|] == t;
    }
  }

  /** `!s.trim()`: the string is blank exactly when it is all whitespace. */
  lemma BlankIffAllWhitespace(s: string)
    ensures Trim(s) == "" <==> AllWhitespace(s)
  {
    var t := TrimStart(s);
    assert t != "" ==> t[0] == s[|s| - |t|];
  }

  // ---------------------------------------------------------------------------
  // Substrings

  /** `s.startsWith(prefix)`. */
  predicate StartsWith(s: string, prefix: string) {
    |prefix| <= |s| && s[..|prefix|] == prefix
  }

  /** `sub` occurs in `s` at position `i`. */
  predicate OccursAt(s: string, sub: string, i: int) {
    0 <= i && i + |sub| <= |s| && s[i..i + |sub|] == sub
  }

  /** `s.includes(sub)`: `sub` occurs at some position of `s`. */
  predicate Contains(s: string, sub: string) {
    exists i :: 0 <= i <= |s| - |sub| && OccursAt(s, sub, i)
  }

  /** An occurrence at `i` is a witness for `includes`. */
  lemma ContainsWitness(s: string, sub: string, i: int)
    requires OccursAt(s, sub, i)
    ensures Contains(s, sub)
  {
  }

  /** An occurrence inside a slice is an occurrence in the whole string. */
  lemma ContainsInSlice(s: string, sub: string, i: int, j: int)
    requires 0 <= i <= j <= |s|
    ensures Contains(s[i..j], sub) ==> Contains(s, sub)
  {
    if Contains(s[i..j], sub) {
      var k :| 0 <= k <= |s[i..j]| - |sub| && OccursAt(s[i..j], sub, k);
      forall m | 0 <= m < |sub| ensures s[i + k + m] == sub[m] {
        assert s[i..j][k..k + |sub|][m] == sub[m];
      }
      assert s[i + k..i + k + |sub|] == sub;
      assert OccursAt(s, sub, i + k);
    }
  }

  /** A string lacking one of the characters of `sub` does not include `sub`. */
  lemma MissingChar(s: string, sub: string, k: int)
    requires 0 <= k < |sub| && sub[k] !in s
    ensures !Contains(s, sub)
  {
  }

  /** A string in which two adjacent characters of `sub` never stand side by
      side does not include `sub`. */
  lemma MissingPair(s: string, sub: string, k: int)
    requires 0 <= k < |sub| - 1
    requires forall j :: 0 <= j < |s| - 1 ==> !(s[j] == sub[k] && s[j + 1] == sub[k + 1])
    ensures !Contains(s, sub)
  {
    forall i | 0 <= i <= |s| - |sub|
      ensures !OccursAt(s, sub, i)
    {
      assert s[i..i + |sub|][k] == s[i + k] && s[i..i + |sub|][k + 1] == s[i + k + 1];
    }
  }

  // ---------------------------------------------------------------------------
  // Case

  /** `toLowerCase` on one character; only the ASCII letters are mapped. */
  function LowerChar(c: char): char {
    if 'A' <= c <= 'Z' then (c as int + 32) as char else c
  }

  /** `s.toLowerCase()` restricted to ASCII letters. */
  function ToLower(s: string): (r: string)
    ensures |r| == |s|
    ensures forall i :: 0 <= i < |s| ==> r[i] == LowerChar(s[i])
  {
    seq(|s|, i requires 0 <= i < |s| => LowerChar(s[i]))
  }

  /** Lowering twice is lowering once: classifiers over `toLowerCase()` ignore the case of their input. */
  lemma ToLowerIdempotent(s: string)
    ensures ToLower(ToLower(s)) == ToLower(s)
  {
  }

  // ---------------------------------------------------------------------------
  // Splitting, joining, repeating, replacing

  /** `s.split(sep)[0]`: everything before the first `sep`, or all of `s`. */
  function FirstSegment(s: string, sep: char): (r: string)
    ensures |r| <= |s| && r == s[..|r|]
    ensures sep !in r
    ensures |r| < |s| ==> s[|r|] == sep
  {
    if |s| == 0 || s[0] == sep then "" else [s[0]] + FirstSegment(s[1..], sep)
  }

  /** The first segment of a string is the text before its first separator. */
  lemma {:induction false} FirstSegmentOf(p: string, sep: char, rest: string)
    requires sep !in p
    ensures FirstSegment(p + [sep] + rest, sep) == p
    decreases |p|
  {
    if |p| > 0 {
      assert (p + [sep] + rest)[1..] == p[1..] + [sep] + rest;
      FirstSegmentOf(p[1..], sep, rest);
    }
  }

  /** `parts.join(sep)`. */
  function Join(parts: seq<string>, sep: string): string {
    if |parts| == 0 then ""
    else if |parts| == 1 then parts[0]
    else parts[0] + sep + Join(parts[1..], sep)
  }

  /** `s.repeat(n)` for a one-character string `s == [c]`. */
  function RepeatChar(c: char, n: nat): (r: string)
    ensures |r| == n
    ensures forall i :: 0 <= i < |r| ==> r[i] == c
  {
    if n == 0 then "" else [c] + RepeatChar(c, n - 1)
  }

  /** `s.replace(/c/g, rep)` for a single character `c`. */
  function ReplaceChar(s: string, c: char, rep: string): (r: string)
    ensures c !in rep ==> c !in r
    ensures |rep| > 0 ==> (|r| == 0 <==> |s| == 0)
    ensures c !in s ==> r == s
  {
    if |s| == 0 then ""
    else (if s[0] == c then rep else [s[0]]) + ReplaceChar(s[1..], c, rep)
  }

  // ---------------------------------------------------------------------------
  // UTF-16 code units

  /** How many UTF-16 code units a character takes: two for characters outside the Basic Multilingual Plane. */
  function Utf16Width(c: char): nat {
    if c as int > 0xFFFF then 2 else 1
  }

  function Utf16Length(s: string): nat {
    if |s| == 0 then 0 else Utf16Width(s[0]) + Utf16Length(s[1..])
  }

  /** `s.slice(n)` for `n >= 0`, which counts UTF-16 code units. A cut that would fall
      inside a surrogate pair drops the whole character. */
  function SliceUtf16(s: string, n: nat): string
    decreases |s|
  {
    if n == 0 || |s| == 0 then s
    else if Utf16Width(s[0]) <= n then SliceUtf16(s[1..], n - Utf16Width(s[0]))
    else s[1..]
  }

  /** Slicing off exactly the code units of a prefix leaves the rest. */
  lemma {:induction false} SliceUtf16Prefix(p: string, rest: string)
    ensures SliceUtf16(p + rest, Utf16Length(p)) == rest
    decreases |p|
  {
    if |p| > 0 {
      assert (p + rest)[0] == p[0];
      assert (p + rest)[1..] == p[1..] + rest;
      SliceUtf16Prefix(p[1..], rest);
    } else {
      assert p + rest == rest;
    }
  }

  // ---------------------------------------------------------------------------
  // Integers as decimal text

  function DigitChar(d: nat): char
    requires d < 10
  {
    "0123456789"[d]
  }

  predicate IsDigit(c: char) {
    '0' <= c <= '9'
  }

  function DigitValue(c: char): nat
    requires IsDigit(c)
  {
    c as int - '0' as int
  }

  /** `String(n)` for a non-negative integer: decimal digits, no leading zero. */
  function NatToString(n: nat): (r: string)
    ensures |r| > 0
    ensures forall i :: 0 <= i < |r| ==> IsDigit(r[i])
    ensures r[0] == '0' ==> n == 0
  {
    if n < 10 then [DigitChar(n)] else NatToString(n / 10) + [DigitChar(n % 10)]
  }

  /** The value of a string of decimal digits. */
  function ParseDigits(s: string): nat
    requires forall i :: 0 <= i < |s| ==> IsDigit(s[i])
  {
    if |s| == 0 then 0 else 10 * ParseDigits(s[..|s| - 1]) + DigitValue(s[|s| - 1])
  }

  /** Reading back the decimal text of `n` gives `n`. */
  lemma {:induction false} ParseNatToString(n: nat)
    ensures ParseDigits(NatToString(n)) == n
    decreases n
  {
    if n >= 10 {
      ParseNatToString(n / 10);
      var s := NatToString(n);
      assert s[..|s| - 1] == NatToString(n / 10);
    }
  }

  /** `String(n)` for an integer: a minus sign before the digits of a negative one. */
  function IntToString(n: int): (r: string)
    ensures |r| > 0
    ensures n >= 0 ==> r == NatToString(n)
    ensures n < 0 ==> r[0] == '-' && r[1..] == NatToString(-n)
  {
    if n < 0 then "-" + NatToString(-n) else NatToString(n)
  }

  // ---------------------------------------------------------------------------
  // Numbers

  /** `Math.round(x)`: the nearest integer, halves rounded up. */
  function Round(x: real): (r: int)
    ensures r as real - 0.5 <= x < r as real + 0.5
  {
    (x + 0.5).Floor
  }

  /** `Math.round` is the identity on whole numbers. */
  lemma RoundInt(n: int)
    ensures Round(n as real) == n
  {
  }

  /** `Math.round` never reverses an order. */
  lemma RoundMonotone(x: real, y: real)
    requires x <= y
    ensures Round(x) <= Round(y)
  {
  }
}

=== FILE: json.dfy ===
/** JSON values as the serverless functions see them after `req.json()`, with
    JavaScript's truthiness and `Array.prototype.join`. `NaN` is not a value
    here: numbers are exact reals. */
module Json {
  import JsText

  datatype Json =
    | Undefined
    | Null
    | Bool(b: bool)
    | Num(n: real)
    | Str(s: string)
    | Arr(items: seq<Json>)
    | Obj(fields: map<string, Json>)

  /** JavaScript truthiness: `undefined`, `null`, `false`, `0` and `""` are falsy. */
  predicate Truthy(v: Json) {
    match v
    case Undefined => false
    case Null => false
    case Bool(b) => b
    case Num(n) => n != 0.0
    case Str(s) => s != ""
    case Arr(_) => true
    case Obj(_) => true
  }

  /** `items.join(sep)`: `undefined` and `null` become "", nested arrays are joined with ",",
      objects print as "[object Object]", and numbers are printed by `numText`. */
  function JoinJson(items: seq<Json>, sep: string, numText: real -> string): string
    decreases items
  {
    if |items| == 0 then ""
    else
      var head :=
        match items[0]
        case Undefined => ""
        case Null => ""
        case Bool(b) => if b then "true" else "false"
        case Num(n) => numText(n)
        case Str(s) => s
        case Arr(inner) => JoinJson(inner, ",", numText)
        case Obj(_) => "[object Object]";
      if |items| == 1 then head else head + sep + JoinJson(items[1..], sep, numText)
  }

  /** Joining strings only is joining their texts. */
  lemma {:induction false} JoinStrings(parts: seq<string>, sep: string, numText: real -> string)
    ensures JoinJson(seq(|parts|, i requires 0 <= i < |parts| => Str(parts[i])), sep, numText)
            == JsText.Join(parts, sep)
    decreases |parts|
  {
    var items := seq(|parts|, i requires 0 <= i < |parts| => Str(parts[i]));
    if |parts| > 1 {
      assert items[1..] == seq(|parts[1..]|, i requires 0 <= i < |parts[1..]| => Str(parts[1..][i]));
      JoinStrings(parts[1..], sep, numText);
    }
  }
}

/** The HTTP responses the serverless functions return: a status and a JSON body
    of a known shape. CORS headers are not modelled. */
module Http {

  datatype Response<B> = Response(status: int, body: B)

  /** `response.ok`: a 2xx status. */
  predicate IsOk(status: int) {
    200 <= status <= 299
  }
}

=== FILE: metrics.dfy ===
/** The trip statistics the dashboard and the analytics page both compute from
    the user's `trips` and `budget_items` rows: counts by status, total
    distance, total spend and the CO₂ estimate. Both pages use the same
    formulas, so they are defined once here. */
module Metrics {
  import opened Wrappers
  import opened Rows
  import Folds

  /** `t.distance || 0`: a missing distance counts as zero. */
  function Distance(t: TripRow): real {
    t.distance.GetOr(0.0)
  }

  /** Kilograms of CO₂ per kilometre: flights emit most, cars less, and every
      other mode (train, bus, bike, anything unknown) is charged the low rate. */
  function EmissionFactor(mode: string): (r: real)
    ensures 0.05 <= r <= 0.255
    ensures r == 0.255 <==> mode == "flight"
    ensures r == 0.21 <==> mode == "car"
    ensures r == 0.05 <==> mode != "flight" && mode != "car"
  {
    if mode == "flight" then 0.255 else if mode == "car" then 0.21 else 0.05
  }

  /** The CO₂ one trip contributes. */
  function TripCo2(t: TripRow): real {
    Distance(t) * EmissionFactor(t.transportMode)
  }

  function Amount(b: BudgetRow): real {
    b.amount
  }

  predicate IsUpcoming(t: TripRow) {
    t.status == "upcoming" || t.status == "planning"
  }

  predicate IsCompleted(t: TripRow) {
    t.status == "completed"
  }

  /** `trips.reduce((sum, t) => sum + (t.distance || 0), 0)`. */
  function TotalDistance(trips: seq<TripRow>): real {
    Folds.Reduce(trips, Distance, 0.0)
  }

  /** `budgetItems.reduce((sum, b) => sum + b.amount, 0)`. */
  function TotalSpend(items: seq<BudgetRow>): real {
    Folds.Reduce(items, Amount, 0.0)
  }

  /** The summed CO₂ of all trips. */
  function Co2Footprint(trips: seq<TripRow>): real {
    Folds.Reduce(trips, TripCo2, 0.0)
  }

  function UpcomingCount(trips: seq<TripRow>): nat {
    Folds.Count(trips, IsUpcoming)
  }

  function CompletedCount(trips: seq<TripRow>): nat {
    Folds.Count(trips, IsCompleted)
  }

  /** The running totals are sums: each trip or item adds its own share once. */
  lemma TotalsAreSums(trips: seq<TripRow>, items: seq<BudgetRow>)
    ensures TotalDistance(trips) == Folds.SumOf(trips, Distance)
    ensures TotalSpend(items) == Folds.SumOf(items, Amount)
    ensures Co2Footprint(trips) == Folds.SumOf(trips, TripCo2)
  {
    Folds.ReduceIsSum(trips, Distance, 0.0);
    Folds.ReduceIsSum(items, Amount, 0.0);
    Folds.ReduceIsSum(trips, TripCo2, 0.0);
  }

  /** Adding one trip at the end raises each total by that trip's share. */
  lemma AppendTrip(trips: seq<TripRow>, t: TripRow)
    ensures TotalDistance(trips + [t]) == TotalDistance(trips) + Distance(t)
    ensures Co2Footprint(trips + [t]) == Co2Footprint(trips) + TripCo2(t)
    ensures UpcomingCount(trips + [t]) == UpcomingCount(trips) + (if IsUpcoming(t) then 1 else 0)
    ensures CompletedCount(trips + [t]) == CompletedCount(trips) + (if IsCompleted(t) then 1 else 0)
  {
    TotalsAreSums(trips, []);
    TotalsAreSums(trips + [t], []);
    Folds.SumOfConcat(trips, [t], Distance);
    Folds.SumOfConcat(trips, [t], TripCo2);
    Folds.FilterConcat(trips, [t], IsUpcoming);
    Folds.FilterConcat(trips, [t], IsCompleted);
  }

  /** No trip is both upcoming and completed, so the two counts never exceed
      the number of trips. */
  lemma CountsBounded(trips: seq<TripRow>)
    ensures UpcomingCount(trips) + CompletedCount(trips) <= |trips|
  {
    Folds.CountDisjoint(trips, IsUpcoming, IsCompleted);
  }

  /** The statistics do not depend on the order the rows arrive in. */
  lemma OrderIndependent(a: seq<TripRow>, b: seq<TripRow>, x: seq<BudgetRow>, y: seq<BudgetRow>)
    requires multiset(a) == multiset(b)
    requires multiset(x) == multiset(y)
    ensures UpcomingCount(a) == UpcomingCount(b)
    ensures CompletedCount(a) == CompletedCount(b)
    ensures TotalDistance(a) == TotalDistance(b)
    ensures TotalSpend(x) == TotalSpend(y)
    ensures Co2Footprint(a) == Co2Footprint(b)
  {
    TotalsAreSums(a, x);
    TotalsAreSums(b, y);
    Folds.CountPermutation(a, b, IsUpcoming);
    Folds.CountPermutation(a, b, IsCompleted);
    Folds.SumOfPermutation(a, b, Distance);
    Folds.SumOfPermutation(x, y, Amount);
    Folds.SumOfPermutation(a, b, TripCo2);
  }

  /** With no negative distances, the CO₂ estimate lies between the low rate
      and the flight rate applied to the whole distance. */
  lemma Co2Bounds(trips: seq<TripRow>)
    requires forall i :: 0 <= i < |trips| ==> Distance(trips[i]) >= 0.0
    ensures 0.05 * TotalDistance(trips) <= Co2Footprint(trips) <= 0.255 * TotalDistance(trips)
    ensures TotalDistance(trips) >= 0.0
  {
    TotalsAreSums(trips, []);
    var low := (t: TripRow) => 0.05 * Distance(t);
    var high := (t: TripRow) => 0.255 * Distance(t);
    Folds.SumOfScale(trips, Distance, low, 0.05);
    Folds.SumOfScale(trips, Distance, high, 0.255);
    Folds.SumOfMonotone(trips, low, TripCo2);
    Folds.SumOfMonotone(trips, TripCo2, high);
    Folds.SumOfNonNegative(trips, Distance);
  }

  /** The CO₂ bounds, stated for any rows: they hold whenever no distance is negative. */
  lemma Co2BoundsIfNonNegative(trips: seq<TripRow>)
    ensures (forall i :: 0 <= i < |trips| ==> Distance(trips[i]) >= 0.0) ==>
              TotalDistance(trips) >= 0.0 &&
              0.05 * TotalDistance(trips) <= Co2Footprint(trips) <= 0.255 * TotalDistance(trips)
  {
    if forall i :: 0 <= i < |trips| ==> Distance(trips[i]) >= 0.0 {
      Co2Bounds(trips);
    }
  }

  /** A single trip of 1000 km: 255 kg by air, 210 kg by car, 50 kg otherwise. */
  lemma Co2Examples(t: TripRow)
    requires t.distance == Some(1000.0)
    ensures t.transportMode == "flight" ==> Co2Footprint([t]) == 255.0
    ensures t.transportMode == "car" ==> Co2Footprint([t]) == 210.0
    ensures t.transportMode == "bus" ==> Co2Footprint([t]) == 50.0
  {
    TotalsAreSums([t], []);
  }
}

=== FILE: places_function.dfy ===
/** The `places` serverless function: it checks the request, asks Geoapify for
    places of the given categories within a circle, and reshapes each feature
    into a place with fallbacks for its missing fields. The API key, the
    Geoapify call and the random ids are parameters. */
module PlacesFunction {
  import opened Wrappers
  import opened Json
  import Http
  import JsText

  /** The request body's fields as `req.json()` yields them. */
  datatype Request = Request(lat: Json, lon: Json, radius: Json, categories: Json)

  /** The properties of one Geoapify feature. */
  datatype Feature = Feature(
    placeId: Option<string>,
    name: Option<string>,
    lat: real,
    lon: real,
    formatted: Option<string>,
    addressLine1: Option<string>,
    addressLine2: Option<string>,
    categories: Option<seq<string>>)

  /** A place as the function returns it. */
  datatype PlaceResult = PlaceResult(id: string, name: string, lat: real, lon: real, address: string, category: string)

  /** The query sent to Geoapify: comma-joined categories, a circle given as
      longitude, latitude and radius in metres, and at most `limit` results. */
  datatype Query = Query(categories: string, circleLon: real, circleLat: real, radius: real, limit: nat)

  /** The response body: the places, or `{ error }`. */
  datatype Body = Places(places: seq<PlaceResult>) | ErrorBody(error: string)

  const BadCoordinates := "lat and lon are required and must be numbers"
  const BadCategories := "categories is required and must be a non-empty array"
  const KeyMissing := "API key not configured"
  const DefaultRadius := 3000.0
  const ResultLimit := 50

  // ---------------------------------------------------------------------------
  // Validation and the query

  /** Both coordinates are numbers. */
  predicate HasCoordinates(req: Request) {
    req.lat.Num? && req.lon.Num?
  }

  /** The categories are a non-empty array. */
  predicate HasCategories(req: Request) {
    req.categories.Arr? && |req.categories.items| > 0
  }

  /** `typeof radius === 'number' && radius > 0 ? radius : 3000`. */
  function SearchRadius(radius: Json): (r: real)
    ensures r > 0.0
    ensures radius.Num? && radius.n > 0.0 ==> r == radius.n
    ensures !(radius.Num? && radius.n > 0.0) ==> r == DefaultRadius
  {
    if radius.Num? && radius.n > 0.0 then radius.n else DefaultRadius
  }

  /** The request's validation, in the order the handler checks it. */
  function Validate(req: Request): (r: Option<string>)
    ensures r.None? <==> HasCoordinates(req) && HasCategories(req)
    ensures !HasCoordinates(req) ==> r == Some(BadCoordinates)
    ensures HasCoordinates(req) && !HasCategories(req) ==> r == Some(BadCategories)
  {
    if !HasCoordinates(req) then Some(BadCoordinates)
    else if !HasCategories(req) then Some(BadCategories)
    else None
  }

  /** The Geoapify query of a valid request; `numText` prints numbers inside
      the joined categories. */
  function QueryFor(req: Request, numText: real -> string): (q: Query)
    requires HasCoordinates(req) && HasCategories(req)
    ensures q.circleLon == req.lon.n && q.circleLat == req.lat.n
    ensures q.radius == SearchRadius(req.radius) && q.limit == ResultLimit
    ensures q.categories == JoinJson(req.categories.items, ",", numText)
  {
    Query(JoinJson(req.categories.items, ",", numText), req.lon.n, req.lat.n, SearchRadius(req.radius), ResultLimit)
  }

  // ---------------------------------------------------------------------------
  // Reshaping the features

  /** `props.categories?.[0] || 'unknown'`. */
  function FirstCategory(categories: Option<seq<string>>): (r: string)
    ensures r != ""
    ensures r == "unknown" <==> categories.None? || |categories.value| == 0 || categories.value[0] in {"", "unknown"}
    ensures categories.Some? && |categories.value| > 0 && categories.value[0] != "" ==> r == categories.value[0]
  {
    if categories.Some? && |categories.value| > 0 then JsText.OrElse(categories.value[0], "unknown")
    else "unknown"
  }

  /** One feature as a place; `suffix` stands for the random base-36 digits
      of an invented id. */
  function ToPlace(f: Feature, suffix: string): (r: PlaceResult)
    ensures r.lat == f.lat && r.lon == f.lon
    ensures r.name != "" && r.category != ""
    ensures r.name == "Unknown Place" <==>
              JsText.OptOrElse(f.name, "") in {"", "Unknown Place"} &&
              (JsText.OptOrElse(f.name, "") == "" ==> JsText.OptOrElse(f.addressLine1, "") in {"", "Unknown Place"})
    ensures JsText.OptOrElse(f.name, "") != "" ==> r.name == f.name.value
    ensures JsText.OptOrElse(f.name, "") == "" && JsText.OptOrElse(f.addressLine1, "") != "" ==> r.name == f.addressLine1.value
    ensures JsText.OptOrElse(f.formatted, "") != "" ==> r.address == f.formatted.value
    ensures JsText.OptOrElse(f.formatted, "") == "" ==> r.address == JsText.OptOrElse(f.addressLine2, "")
    ensures JsText.OptOrElse(f.placeId, "") != "" ==> r.id == f.placeId.value
    ensures JsText.OptOrElse(f.placeId, "") == "" ==> r.id == "place-" + suffix
    ensures r.category == FirstCategory(f.categories)
  {
    PlaceResult(
      JsText.OptOrElse(f.placeId, "place-" + suffix),
      JsText.OrElse(JsText.OptOrElse(f.name, ""), JsText.OptOrElse(f.addressLine1, "Unknown Place")),
      f.lat, f.lon,
      JsText.OrElse(JsText.OptOrElse(f.formatted, ""), JsText.OptOrElse(f.addressLine2, "")),
      FirstCategory(f.categories))
  }

  /** `(data.features || []).map(...)`: one place per feature, in order. */
  function ToPlaces(features: Option<seq<Feature>>, suffix: nat -> string): (r: seq<PlaceResult>)
    ensures features.None? ==> r == []
    ensures features.Some? ==> |r| == |features.value|
    ensures features.Some? ==> forall i :: 0 <= i < |r| ==> r[i] == ToPlace(features.value[i], suffix(i))
  {
    match features
    case None => []
    case Some(fs) => seq(|fs|, i requires 0 <= i < |fs| => ToPlace(fs[i], suffix(i)))
  }

  // ---------------------------------------------------------------------------
  // The handler

  /** The whole request. `fetch` is the Geoapify call for a query: the
      response with its features, or the error it throws. */
  function Handle(req: Request, apiKey: Option<string>, numText: real -> string,
                  fetch: Query -> Result<Http.Response<Option<seq<Feature>>>>,
                  suffix: nat -> string): (r: Http.Response<Body>)
    ensures r.status in {200, 400, 500}
    ensures r.status == 200 <==> r.body.Places?
    ensures r.status == 400 <==> Validate(req).Some?
    ensures Validate(req).Some? ==> r.body == ErrorBody(Validate(req).value)
    ensures Validate(req).None? && JsText.OptOrElse(apiKey, "") == "" ==> r == Http.Response(500, ErrorBody(KeyMissing))
    ensures r.body.Places? ==>
              && JsText.OptOrElse(apiKey, "") != ""
              && var reply := fetch(QueryFor(req, numText));
              && reply.Ok? && Http.IsOk(reply.value.status)
              && r.body.places == ToPlaces(reply.value.body, suffix)
    ensures Validate(req).None? && JsText.OptOrElse(apiKey, "") != "" ==>
              var reply := fetch(QueryFor(req, numText));
              && (reply.Err? ==> r == Http.Response(500, ErrorBody(reply.message)))
              && (reply.Ok? && Http.IsOk(reply.value.status) ==>
                    r == Http.Response(200, Places(ToPlaces(reply.value.body, suffix))))
  {
    match Validate(req)
    case Some(m) => Http.Response(400, ErrorBody(m))
    case None =>
      if JsText.OptOrElse(apiKey, "") == "" then Http.Response(500, ErrorBody(KeyMissing))
      else
        match fetch(QueryFor(req, numText))
        case Err(m) => Http.Response(500, ErrorBody(m))
        case Ok(resp) =>
          if !Http.IsOk(resp.status) then
            Http.Response(500, ErrorBody(UpstreamError(resp.status)))
          else Http.Response(200, Places(ToPlaces(resp.body, suffix)))
  }

  /** The message for a failure status of Geoapify. */
  function UpstreamError(status: int): string {
    "Geoapify API error: " + JsText.IntToString(status)
  }

  /** A failure status of Geoapify becomes a 500 carrying that status. */
  lemma UpstreamStatusReported(req: Request, key: string, numText: real -> string,
                               fetch: Query -> Result<Http.Response<Option<seq<Feature>>>>, suffix: nat -> string)
    requires Validate(req).None? && key != ""
    requires fetch(QueryFor(req, numText)).Ok?
    requires !Http.IsOk(fetch(QueryFor(req, numText)).value.status)
    ensures Handle(req, Some(key), numText, fetch, suffix)
            == Http.Response(500, ErrorBody(UpstreamError(fetch(QueryFor(req, numText)).value.status)))
  {
  }

  /** Different failure statuses give different messages. */
  lemma UpstreamErrorsDistinct(a: nat, b: nat)
    requires a != b
    ensures UpstreamError(a) != UpstreamError(b)
  {
    var prefix := "Geoapify API error: ";
    if UpstreamError(a) == UpstreamError(b) {
      assert UpstreamError(a)[|prefix|..] == JsText.NatToString(a);
      assert UpstreamError(b)[|prefix|..] == JsText.NatToString(b);
      JsText.ParseNatToString(a);
      JsText.ParseNatToString(b);
    }
  }

  /** A missing feature list is an empty answer, not an error. */
  lemma MissingFeaturesGiveNoPlaces(req: Request, key: string, numText: real -> string,
                                    fetch: Query -> Result<Http.Response<Option<seq<Feature>>>>, suffix: nat -> string)
    requires Validate(req).None? && key != ""
    requires fetch(QueryFor(req, numText)).Ok?
    requires fetch(QueryFor(req, numText)).value == Http.Response(200, None)
    ensures Handle(req, Some(key), numText, fetch, suffix) == Http.Response(200, Places([]))
  {
  }

  /** A named feature keeps its name, address and first category. */
  lemma NamedFeatureKept(f: Feature, suffix: string)
    requires f.name.Some? && f.name.value != ""
    requires f.formatted.Some? && f.formatted.value != ""
    requires f.categories.Some? && |f.categories.value| > 0 && f.categories.value[0] != ""
    ensures ToPlace(f, suffix).name == f.name.value
    ensures ToPlace(f, suffix).address == f.formatted.value
    ensures ToPlace(f, suffix).category == f.categories.value[0]
  {
  }
}

=== FILE: places_page.dfy ===
/** The places page: it geocodes the search text, asks the `places` function
    for attractions, restaurants or hotels around it, and turns each result
    into a card with a placeholder image, a description and a map link.
    Geocoding and the random ratings are parameters or left out. */
module PlacesPage {
  import opened Wrappers
  import opened Json
  import JsText
  import PlacesFunction

  datatype PlaceType = Attraction | Restaurant | Hotel

  /** The type's name as the page writes it. */
  function TypeName(t: PlaceType): (r: string)
    ensures r == "attraction" <==> t == Attraction
    ensures r == "restaurant" <==> t == Restaurant
    ensures r == "hotel" <==> t == Hotel
  {
    match t
    case Attraction => "attraction"
    case Restaurant => "restaurant"
    case Hotel => "hotel"
  }

  // ---------------------------------------------------------------------------
  // Categories and placeholder images

  /** `categoryMap`: the Geoapify categories searched for each type. */
  function CategoryMap(t: PlaceType): seq<string> {
    match t
    case Attraction => ["tourism.attraction", "tourism.sights", "entertainment", "leisure.park"]
    case Restaurant => ["catering.restaurant", "catering.cafe", "catering.fast_food"]
    case Hotel => ["accommodation.hotel", "accommodation.guest_house", "accommodation.hostel"]
  }

  /** Every type searches some categories, and no category is searched for
      two types. */
  lemma CategoriesDisjoint(a: PlaceType, b: PlaceType, c: string)
    ensures |CategoryMap(a)| > 0
    ensures c in CategoryMap(a) && c in CategoryMap(b) ==> a == b
  {
  }

  /** The four placeholder images of each type. */
  function Images(t: PlaceType): (r: seq<string>)
    ensures |r| == 4
  {
    match t
    case Attraction => AttractionImages
    case Restaurant => RestaurantImages
    case Hotel => HotelImages
  }

  const AttractionImages: seq<string> := [
    "https://images.unsplash.com/photo-1524492412937-b28074a5d7da?w=400",
    "https://images.unsplash.com/photo-1564507592333-c60657eea523?w=400",
    "https://images.unsplash.com/photo-1587474260584-136574528ed5?w=400",
    "https://images.unsplash.com/photo-1548013146-72479768bada?w=400"]

  const RestaurantImages: seq<string> := [
    "https://images.unsplash.com/photo-1517248135467-4c7edcad34c4?w=400",
    "https://images.unsplash.com/photo-1552566626-52f8b828add9?w=400",
    "https://images.unsplash.com/photo-1555396273-367ea4eb4db5?w=400",
    "https://images.unsplash.com/photo-1514933651103-005eec06c04b?w=400"]

  const HotelImages: seq<string> := [
    "https://images.unsplash.com/photo-1566073771259-6a8506099945?w=400",
    "https://images.unsplash.com/photo-1582719478250-c89cae4dc85b?w=400",
    "https://images.unsplash.com/photo-1551882547-ff40c63fe5fa?w=400",
    "https://images.unsplash.com/photo-1520250497591-112f2f40a3f4?w=400"]

  /** `getPlaceholderImage(type, index)`: the images of the type in turn. */
  function PlaceholderImage(t: PlaceType, index: nat): (r: string)
    ensures r in Images(t)
  {
    Images(t)[index % |Images(t)|]
  }

  /** The images repeat every four cards, and four cards in a row get four
      different images. */
  lemma PlaceholderCycle(t: PlaceType, i: nat, j: nat)
    ensures PlaceholderImage(t, i + 4) == PlaceholderImage(t, i)
    ensures i < j < i + 4 ==> PlaceholderImage(t, i) != PlaceholderImage(t, j)
  {
    assert (i + 4) % 4 == i % 4;
    if i < j < i + 4 {
      assert i % 4 != j % 4;
      ImagesDistinct(t);
    }
  }

  /** The four images of a type are different. */
  lemma ImagesDistinct(t: PlaceType)
    ensures forall a, b :: 0 <= a < b < 4 ==> Images(t)[a] != Images(t)[b]
  {
  }

  // ---------------------------------------------------------------------------
  // Price indicator and map links

  /** `getPriceIndicator`: nothing for a missing or zero level, otherwise one
      rupee sign per level. */
  function PriceIndicator(level: Option<nat>): (r: string)
    ensures forall i :: 0 <= i < |r| ==> r[i] == '₹'
    ensures |r| == if level.Some? then level.value else 0
  {
    match level
    case None => ""
    case Some(n) => if n == 0 then "" else JsText.RepeatChar('₹', n)
  }

  /** `Math.floor(1 + Math.random() * 3)` for a draw in [0, 1). */
  function MockPriceLevel(random: real): (r: nat)
    requires 0.0 <= random < 1.0
    ensures 1 <= r <= 3
  {
    (1.0 + random * 3.0).Floor
  }

  /** The mocked price levels show one to three rupee signs, and the signs
      tell the level. */
  lemma MockPriceShown(random: real, other: Option<nat>)
    requires 0.0 <= random < 1.0
    ensures 1 <= |PriceIndicator(Some(MockPriceLevel(random)))| <= 3
    ensures PriceIndicator(Some(MockPriceLevel(random))) == PriceIndicator(other) <==> other == Some(MockPriceLevel(random))
  {
    if other.Some? && other.value != MockPriceLevel(random) {
      assert |PriceIndicator(other)| != |PriceIndicator(Some(MockPriceLevel(random)))|;
    }
  }

  /** A card as the page shows it; the random rating, review count, price
      level and opening flag are left out. */
  datatype Place = Place(
    id: string,
    name: string,
    kind: PlaceType,
    image: string,
    location: string,
    description: string,
    lat: Option<real>,
    lng: Option<real>)

  /** Where a map link points: at coordinates, or at a text search. */
  datatype MapsTarget = Coordinates(lat: real, lng: real) | Search(text: string)

  /** `openInMaps`: the coordinates when both are truthy (so 0 counts as
      missing), otherwise a search for the name and location. */
  function MapsTargetOf(p: Place): (r: MapsTarget)
    ensures r.Coordinates? <==> p.lat.Some? && p.lat.value != 0.0 && p.lng.Some? && p.lng.value != 0.0
    ensures r.Coordinates? ==> r.lat == p.lat.value && r.lng == p.lng.value
    ensures r.Search? ==> r.text == p.name + " " + p.location
  {
    if p.lat.Some? && p.lat.value != 0.0 && p.lng.Some? && p.lng.value != 0.0 then Coordinates(p.lat.value, p.lng.value)
    else Search(p.name + " " + p.location)
  }

  const MapsSearch := "https://www.google.com/maps/search/?api=1&query="

  /** The URL opened for a target; `numText` prints a number and `encode` is
      `encodeURIComponent`. */
  function MapsUrl(t: MapsTarget, numText: real -> string, encode: string -> string): (r: string)
    ensures JsText.StartsWith(r, MapsSearch)
    ensures t.Search? ==> r[|MapsSearch|..] == encode(t.text)
    ensures t.Coordinates? ==> r[|MapsSearch|..] == numText(t.lat) + "," + numText(t.lng)
  {
    match t
    case Coordinates(lat, lng) => MapsSearch + numText(lat) + "," + numText(lng)
    case Search(text) => MapsSearch + encode(text)
  }

  /** A place on the equator or the prime meridian is searched for by name. */
  lemma ZeroCoordinateSearchesByName(p: Place)
    requires p.lat == Some(0.0) || p.lng == Some(0.0)
    ensures MapsTargetOf(p) == Search(p.name + " " + p.location)
  {
  }

  // ---------------------------------------------------------------------------
  // Turning the function's answer into cards

  /** One element of the answer, with the fields the page reads. */
  datatype Item = Item(id: string, name: Option<string>, lat: Option<real>, lon: Option<real>,
                       address: Option<string>, category: Option<string>)

  /** The answer as `invoke` hands it back: a list, an object with an `error`
      field, or anything else. */
  datatype Data = ItemList(items: seq<Item>) | ErrorObject(error: string) | OtherValue

  /** `item.category?.replace(/\./g, ' › ') || type`. */
  function Description(category: Option<string>, t: PlaceType): (r: string)
    ensures r != "" && '.' !in r
    ensures JsText.OptOrElse(category, "") == "" ==> r == TypeName(t)
    ensures JsText.OptOrElse(category, "") != "" ==> r == JsText.ReplaceChar(category.value, '.', " › ")
  {
    match category
    case None => TypeName(t)
    case Some(c) => JsText.OrElse(JsText.ReplaceChar(c, '.', " › "), TypeName(t))
  }

  /** One card, at position `index`, for the search `query`. */
  function ToCard(item: Item, t: PlaceType, index: nat, query: string): (r: Place)
    ensures r.id == item.id && r.kind == t && r.lat == item.lat && r.lng == item.lon
    ensures r.name == JsText.OptOrElse(item.name, "Unknown Place")
    ensures r.location == JsText.OptOrElse(item.address, query)
    ensures r.description == Description(item.category, t)
    ensures r.image == PlaceholderImage(t, index)
  {
    Place(item.id, JsText.OptOrElse(item.name, "Unknown Place"), t, PlaceholderImage(t, index),
          JsText.OptOrElse(item.address, query), Description(item.category, t), item.lat, item.lon)
  }

  /** `(Array.isArray(data) ? data : []).map(...)`: one card per element. */
  function Cards(data: Data, t: PlaceType, query: string): (r: seq<Place>)
    ensures !data.ItemList? ==> r == []
    ensures data.ItemList? ==> |r| == |data.items|
    ensures data.ItemList? ==> forall i :: 0 <= i < |r| ==> r[i] == ToCard(data.items[i], t, i, query)
  {
    match data
    case ItemList(items) => seq(|items|, i requires 0 <= i < |items| => ToCard(items[i], t, i, query))
    case _ => []
  }

  // ---------------------------------------------------------------------------
  // The page

  datatype Page = Page(searchQuery: string, activeTab: PlaceType, places: seq<Place>)

  const InitialPage := Page("Mumbai", Attraction, [])

  datatype Toast = ErrorToast(message: string) | InfoToast(message: string) | SuccessToast(message: string)

  /** The body the page sends for a geocoded location. */
  function RequestFor(t: PlaceType, lat: real, lon: real): (r: PlacesFunction.Request)
    ensures r.lat == Num(lat) && r.lon == Num(lon) && r.radius == Num(5000.0)
    ensures r.categories.Arr? && |r.categories.items| == |CategoryMap(t)|
    ensures forall i :: 0 <= i < |CategoryMap(t)| ==> r.categories.items[i] == Str(CategoryMap(t)[i])
  {
    var cats := CategoryMap(t);
    PlacesFunction.Request(Num(lat), Num(lon), Num(5000.0), Arr(seq(|cats|, i requires 0 <= i < |cats| => Str(cats[i]))))
  }

  /** The page's request always passes the function's checks; Geoapify is
      asked for the type's categories within 5 km of the location. */
  lemma PageRequestAccepted(t: PlaceType, lat: real, lon: real, numText: real -> string)
    ensures PlacesFunction.Validate(RequestFor(t, lat, lon)).None?
    ensures var q := PlacesFunction.QueryFor(RequestFor(t, lat, lon), numText);
            q.circleLat == lat && q.circleLon == lon && q.radius == 5000.0 &&
            q.categories == JsText.Join(CategoryMap(t), ",")
  {
    CategoriesDisjoint(t, t, "");
    var cats := CategoryMap(t);
    assert RequestFor(t, lat, lon).categories.items == seq(|cats|, i requires 0 <= i < |cats| => Str(cats[i]));
    JoinStrings(cats, ",", numText);
  }

  /** `fetchPlaces(type)`: a blank query is refused, an unknown location stops
      the search, a failed call keeps the old cards, and otherwise the cards
      are replaced, with a count in the toast. `coords` is the geocoding
      result and `invoked` the function's answer. */
  function FetchPlaces(p: Page, t: PlaceType, coords: Option<(real, real)>, invoked: Result<Data>): (r: (Page, Toast))
    ensures JsText.Trim(p.searchQuery) == "" ==> r == (p, ErrorToast("Please enter a location"))
    ensures JsText.Trim(p.searchQuery) != "" && coords.None? ==> r == (p, ErrorToast("Could not find location: " + p.searchQuery))
    ensures r.1.ErrorToast? ==> r.0 == p
    ensures JsText.Trim(p.searchQuery) != "" && coords.Some? && (invoked.Err? || (invoked.value.ErrorObject? && invoked.value.error != "")) ==>
              r == (p, ErrorToast("Failed to fetch places. Please try again."))
    ensures !r.1.ErrorToast? ==>
              invoked.Ok? && r.0 == p.(places := Cards(invoked.value, t, p.searchQuery)) &&
              (r.1.InfoToast? <==> |r.0.places| == 0)
    ensures JsText.Trim(p.searchQuery) != "" && coords.Some? && invoked.Ok? &&
            !(invoked.value.ErrorObject? && invoked.value.error != "") ==>
              !r.1.ErrorToast? && r.0 == p.(places := Cards(invoked.value, t, p.searchQuery))
    ensures r.1.SuccessToast? ==>
              r.1.message == "Found " + JsText.NatToString(|r.0.places|) + " " + TypeName(t) + "s near " + p.searchQuery
    ensures r.1.InfoToast? ==> r.1.message == "No " + TypeName(t) + "s found near " + p.searchQuery
  {
    if JsText.Trim(p.searchQuery) == "" then (p, ErrorToast("Please enter a location"))
    else if coords.None? then (p, ErrorToast("Could not find location: " + p.searchQuery))
    else
      match invoked
      case Err(_) => (p, ErrorToast("Failed to fetch places. Please try again."))
      case Ok(data) =>
        if data.ErrorObject? && data.error != "" then (p, ErrorToast("Failed to fetch places. Please try again."))
        else
          var cards := Cards(data, t, p.searchQuery);
          (p.(places := cards),
           if |cards| == 0 then InfoToast("No " + TypeName(t) + "s found near " + p.searchQuery)
           else SuccessToast("Found " + JsText.NatToString(|cards|) + " " + TypeName(t) + "s near " + p.searchQuery))
  }

  /** `handleTabChange`: the tab changes, and the new type is fetched only
      when there is a query. */
  function TabChange(p: Page, t: PlaceType, coords: Option<(real, real)>, invoked: Result<Data>): (r: (Page, Option<Toast>))
    ensures r.0.activeTab == t && r.0.searchQuery == p.searchQuery
    ensures r.1.None? <==> JsText.Trim(p.searchQuery) == ""
    ensures r.1.None? ==> r.0 == p.(activeTab := t)
    ensures r.1.Some? ==> (r.0, r.1.value) == FetchPlaces(p.(activeTab := t), t, coords, invoked)
  {
    var q := p.(activeTab := t);
    if JsText.Trim(p.searchQuery) == "" then (q, None)
    else
      var (page, toast) := FetchPlaces(q, t, coords, invoked);
      (page, Some(toast))
  }

  // ---------------------------------------------------------------------------
  // The page and the function together

  /** A place from the function as the page reads it. */
  function ItemOf(r: PlacesFunction.PlaceResult): Item {
    Item(r.id, Some(r.name), Some(r.lat), Some(r.lon), Some(r.address), Some(r.category))
  }

  /** The function's places become cards in the same order: each keeps its
      name, is located at its address (or the query when it has none), and is
      described by its category, never by the bare type. */
  lemma FunctionPlacesShown(features: seq<PlacesFunction.Feature>, suffix: nat -> string, t: PlaceType, query: string)
    ensures var results := PlacesFunction.ToPlaces(Some(features), suffix);
            var cards := Cards(ItemList(seq(|results|, i requires 0 <= i < |results| => ItemOf(results[i]))), t, query);
            |cards| == |features| &&
            forall i :: 0 <= i < |features| ==>
              && cards[i].name == results[i].name
              && cards[i].location == JsText.OrElse(results[i].address, query)
              && cards[i].description == JsText.ReplaceChar(results[i].category, '.', " › ")
  {
    var results := PlacesFunction.ToPlaces(Some(features), suffix);
    var items := seq(|results|, i requires 0 <= i < |results| => ItemOf(results[i]));
    var cards := Cards(ItemList(items), t, query);
    forall i | 0 <= i < |features|
      ensures cards[i].name == results[i].name
      ensures cards[i].location == JsText.OrElse(results[i].address, query)
      ensures cards[i].description == JsText.ReplaceChar(results[i].category, '.', " › ")
    {
      assert results[i] == PlacesFunction.ToPlace(features[i], suffix(i));
      assert cards[i] == ToCard(items[i], t, i, query);
    }
  }
}

=== FILE: route_planner.dfy ===
/** The route planner: a mocked route calculation per transport mode and
    saving the planned trip. `Math.random()` and the signed-in user are
    parameters. */
module RoutePlanner {
  import opened Wrappers
  import opened Rows
  import opened TripTypes
  import JsText
  import Metrics

  /** Average speed of each mode in km/h. */
  function Speed(m: TransportMode): (r: int)
    ensures r > 0
  {
    match m
    case Flight => 800
    case Train => 100
    case Bus => 60
    case Car => 80
    case Bike => 40
  }

  /** Fare of each mode in rupees per km. */
  function CostPerKm(m: TransportMode): (r: real)
    ensures r > 0.0
  {
    match m
    case Flight => 8.0
    case Train => 2.0
    case Bus => 1.5
    case Car => 5.0
    case Bike => 2.0
  }

  /** `Math.floor(Math.random() * 2000) + 200` for a draw in [0, 1). */
  function MockDistance(random: real): (r: int)
    requires 0.0 <= random < 1.0
    ensures 200 <= r <= 2199
  {
    (random * 2000.0).Floor + 200
  }

  datatype RouteResult = RouteResult(distance: int, duration: int, cost: int, co2: int)

  /** The planner's form. */
  datatype Form = Form(
    from: string,
    to: string,
    departureDate: string,
    returnDate: string,
    selectedMode: TransportMode,
    routeResult: Option<RouteResult>)

  /** The route figures for a distance: hours, fare and kilograms of CO₂, each
      rounded to a whole number. */
  function RouteFor(distance: int, m: TransportMode): (r: RouteResult)
    ensures r.distance == distance
    ensures r.duration as real - 0.5 <= distance as real / Speed(m) as real < r.duration as real + 0.5
    ensures r.cost as real - 0.5 <= distance as real * CostPerKm(m) < r.cost as real + 0.5
    ensures r.co2 as real - 0.5 <= distance as real * Metrics.EmissionFactor(ModeName(m)) < r.co2 as real + 0.5
  {
    RouteResult(distance,
                JsText.Round(distance as real / Speed(m) as real),
                JsText.Round(distance as real * CostPerKm(m)),
                JsText.Round(distance as real * Metrics.EmissionFactor(ModeName(m))))
  }

  /** `calculateRoute`: refused unless the origin, the destination and the
      departure date are filled in; otherwise a mocked distance and the figures
      of the selected mode. */
  function CalculateRoute(form: Form, random: real): (r: Result<RouteResult>)
    requires 0.0 <= random < 1.0
    ensures r.Err? <==> form.from == "" || form.to == "" || form.departureDate == ""
    ensures r.Err? ==> r.message == "Please fill in all required fields"
    ensures r.Ok? ==> 200 <= r.value.distance <= 2199 && r.value == RouteFor(r.value.distance, form.selectedMode)
  {
    if form.from == "" || form.to == "" || form.departureDate == "" then
      Err("Please fill in all required fields")
    else
      Ok(RouteFor(MockDistance(random), form.selectedMode))
  }

  /** The form after `calculateRoute`: a refused calculation leaves it as it
      was, and a successful one changes only the shown route. */
  function AfterCalculate(form: Form, random: real): (r: Form)
    requires 0.0 <= random < 1.0
    ensures r.(routeResult := form.routeResult) == form
    ensures CalculateRoute(form, random).Err? ==> r == form
    ensures CalculateRoute(form, random).Ok? ==> r.routeResult == Some(CalculateRoute(form, random).value)
  {
    match CalculateRoute(form, random)
    case Err(_) => form
    case Ok(route) => form.(routeResult := Some(route))
  }

  /** For the same distance the flight is the fastest mode and the bike the slowest. */
  lemma DurationComparison(distance: nat, m: TransportMode)
    ensures RouteFor(distance, Flight).duration <= RouteFor(distance, m).duration
    ensures RouteFor(distance, m).duration <= RouteFor(distance, Bike).duration
  {
    var d := distance as real;
    ModeRates(d, m);
    assert RouteFor(distance, Flight).duration == JsText.Round(d / 800.0);
    assert RouteFor(distance, Bike).duration == JsText.Round(d / 40.0);
    JsText.RoundMonotone(d / 800.0, d / Speed(m) as real);
    JsText.RoundMonotone(d / Speed(m) as real, d / 40.0);
  }

  /** For the same distance the flight is the dearest and the most polluting mode. */
  lemma CostComparison(distance: nat, m: TransportMode)
    ensures RouteFor(distance, m).cost <= RouteFor(distance, Flight).cost
    ensures RouteFor(distance, m).co2 <= RouteFor(distance, Flight).co2
  {
    var d := distance as real;
    ModeRates(d, m);
    assert RouteFor(distance, Flight).cost == JsText.Round(d * 8.0);
    assert RouteFor(distance, Flight).co2 == JsText.Round(d * 0.255);
    JsText.RoundMonotone(d * CostPerKm(m), d * 8.0);
    JsText.RoundMonotone(d * Metrics.EmissionFactor(ModeName(m)), d * 0.255);
  }

  /** The unrounded figures of a mode lie between those of the extreme modes. */
  lemma ModeRates(d: real, m: TransportMode)
    requires d >= 0.0
    ensures d / 800.0 <= d / Speed(m) as real <= d / 40.0
    ensures d * CostPerKm(m) <= d * 8.0
    ensures d * Metrics.EmissionFactor(ModeName(m)) <= d * 0.255
  {
    match m
    case Flight =>
    case Train =>
    case Bus =>
    case Car =>
    case Bike =>
  }

  /** The row `saveTrip` inserts into `trips`. */
  datatype TripInsert = TripInsert(
    userId: string,
    origin: string,
    destination: string,
    departureDate: string,
    returnDate: Option<string>,
    transportMode: string,
    distance: real,
    duration: string,
    estimatedCost: real,
    co2Footprint: real,
    status: string)

  /** `saveTrip` up to the insert: `None` when there is no calculated route
      (the handler returns silently), an error without a signed-in user, and
      otherwise a "planning" trip carrying the route's figures. An empty
      return date is stored as null. */
  function SaveTrip(form: Form, user: Option<string>): (r: Option<Result<TripInsert>>)
    ensures r.None? <==> form.routeResult.None?
    ensures r.Some? ==> (r.value.Err? <==> user.None?)
    ensures r.Some? && r.value.Err? ==> r.value.message == "You must be logged in to save a trip"
    ensures r.Some? && r.value.Ok? ==>
              var ins := r.value.value;
              var route := form.routeResult.value;
              ins.userId == user.value && ins.origin == form.from && ins.destination == form.to &&
              ins.status == "planning" && ins.transportMode == ModeName(form.selectedMode) &&
              ins.distance == route.distance as real && ins.estimatedCost == route.cost as real &&
              ins.co2Footprint == route.co2 as real &&
              ins.departureDate == form.departureDate &&
              (ins.returnDate.None? <==> form.returnDate == "") &&
              (form.returnDate != "" ==> ins.returnDate == Some(form.returnDate)) &&
              ins.duration == JsText.IntToString(route.duration) + " hours"
  {
    match form.routeResult
    case None => None
    case Some(route) =>
      match user
      case None => Some(Err("You must be logged in to save a trip"))
      case Some(uid) =>
        Some(Ok(TripInsert(uid, form.from, form.to, form.departureDate,
                           if form.returnDate == "" then None else Some(form.returnDate),
                           ModeName(form.selectedMode), route.distance as real,
                           JsText.IntToString(route.duration) + " hours",
                           route.cost as real, route.co2 as real, "planning")))
  }

  /** The form after the insert: a successful save clears the fields and the
      route, keeping the selected mode; a failed one leaves the form as it was. */
  function AfterSave(form: Form, insertFailed: bool): (r: Form)
    ensures insertFailed ==> r == form
    ensures !insertFailed ==> r.from == "" && r.to == "" && r.departureDate == "" && r.returnDate == "" &&
                              r.routeResult.None? && r.selectedMode == form.selectedMode
  {
    if insertFailed then form else Form("", "", "", "", form.selectedMode, None)
  }

  /** After a successful save, pressing save again does nothing, and a new
      calculation is refused until the form is filled in again. */
  lemma NoDoubleSave(form: Form, user: Option<string>, random: real)
    requires 0.0 <= random < 1.0
    ensures SaveTrip(AfterSave(form, false), user).None?
    ensures CalculateRoute(AfterSave(form, false), random).Err?
  {
  }

  /** The row as the database stores it, with the columns it fills in itself. */
  function StoredRow(ins: TripInsert, id: string, now: string): TripRow {
    TripRow(id, ins.userId, ins.origin, ins.destination, ins.departureDate, ins.returnDate,
            ins.transportMode, ins.status, Some(ins.distance), Some(ins.duration),
            Some(ins.estimatedCost), Some(ins.co2Footprint), None, now, now)
  }

  /** A trip saved from a calculated route is counted as upcoming on the
      dashboard, and the CO₂ it stores is the dashboard's estimate for it,
      rounded. */
  lemma SavedTripAgreesWithDashboard(form: Form, user: Option<string>, random: real, id: string, now: string)
    requires 0.0 <= random < 1.0
    requires user.Some?
    requires CalculateRoute(form, random).Ok?
    ensures var saved := SaveTrip(AfterCalculate(form, random), user);
            saved.Some? && saved.value.Ok? &&
            var row := StoredRow(saved.value.value, id, now);
            Metrics.IsUpcoming(row) &&
            row.co2Footprint == Some(JsText.Round(Metrics.TripCo2(row)) as real) &&
            200.0 <= Metrics.Distance(row) <= 2199.0
  {
    var route := CalculateRoute(form, random).value;
    var saved := SaveTrip(AfterCalculate(form, random), user);
    var row := StoredRow(saved.value.value, id, now);
    assert Metrics.TripCo2(row) == route.distance as real * Metrics.EmissionFactor(ModeName(form.selectedMode));
  }
}

=== FILE: rows.dfy ===
/** The database rows the dashboard, analytics and budget pages read, as
    declared in `enviroai-main/src/integrations/supabase/types.ts`: nullable
    columns are `Option`, and `transport_mode`, `status` and `category` are
    free strings. */
module Rows {
  import opened Wrappers

  /** A `trips` row. */
  datatype TripRow = TripRow(
    id: string,
    userId: string,
    origin: string,
    destination: string,
    departureDate: string,
    returnDate: Option<string>,
    transportMode: string,
    status: string,
    distance: Option<real>,
    duration: Option<string>,
    estimatedCost: Option<real>,
    co2Footprint: Option<real>,
    notes: Option<string>,
    createdAt: string,
    updatedAt: string)

  /** A `budget_items` row. */
  datatype BudgetRow = BudgetRow(
    id: string,
    userId: string,
    tripId: Option<string>,
    category: string,
    amount: real,
    currency: string,
    description: string,
    date: string,
    createdAt: string)
}

=== FILE: trip_store.dfy ===
/** The local trip store (`src/store/tripStore.ts`): four collections, the
    selected trip and the display name, changed only by the store's actions.
    Each action is a pure transition from one state to the next; the clock
    that stamps `updatedAt` is a parameter. Persistence to local storage is
    not part of this model. */
module TripStore {
  import opened Wrappers
  import opened TripTypes
  import opened Folds

  datatype State = State(
    trips: seq<Trip>,
    emergencyContacts: seq<EmergencyContact>,
    budgetItems: seq<BudgetItem>,
    journalEntries: seq<JournalEntry>,
    currentTripId: Option<string>,
    userName: string)

  /** The state a fresh store starts in. */
  function InitialState(): (s: State)
    ensures s.trips == [] && s.emergencyContacts == [] && s.budgetItems == [] && s.journalEntries == []
    ensures s.currentTripId == None
    ensures s.userName == "Traveler"
  {
    State([], [], [], [], None, "Traveler")
  }

  // ---------------------------------------------------------------------------
  // Reference facts used by the contracts

  /** Some trip carries the id. */
  predicate HasTrip(s: State, id: string) {
    exists j :: 0 <= j < |s.trips| && s.trips[j].id == id
  }

  /** Every budget item and journal entry points at a trip of the store. The store
      does not enforce this; `DeleteTrip` keeps it. */
  predicate ReferentiallyClosed(s: State) {
    && (forall i :: 0 <= i < |s.budgetItems| ==> HasTrip(s, s.budgetItems[i].tripId))
    && (forall i :: 0 <= i < |s.journalEntries| ==> HasTrip(s, s.journalEntries[i].tripId))
  }

  // ---------------------------------------------------------------------------
  // Trip actions

  /** `addTrip`: appends, with no check that the id is new. */
  function AddTrip(s: State, t: Trip): (r: State)
    ensures r.trips == s.trips + [t]
    ensures r == s.(trips := r.trips)
  {
    s.(trips := s.trips + [t])
  }

  /** The trip `updateTrip` leaves at one position. */
  function UpdatedTrip(t: Trip, id: string, u: TripPatch, now: string): Trip {
    if t.id == id then ApplyTripPatch(t, u).(updatedAt := now) else t
  }

  /** `updateTrip`: merges the patch into every trip with the id and stamps it with `now`. */
  function UpdateTrip(s: State, id: string, u: TripPatch, now: string): (r: State)
    ensures |r.trips| == |s.trips|
    ensures forall i :: 0 <= i < |s.trips| && s.trips[i].id != id ==> r.trips[i] == s.trips[i]
    ensures forall i :: 0 <= i < |s.trips| && s.trips[i].id == id ==>
              r.trips[i] == ApplyTripPatch(s.trips[i], u).(updatedAt := now)
    ensures r == s.(trips := r.trips)
  {
    s.(trips := seq(|s.trips|, i requires 0 <= i < |s.trips| => UpdatedTrip(s.trips[i], id, u, now)))
  }

  /** `deleteTrip`: removes the trip and, whether or not it existed, every budget item and
      journal entry that points at its id. */
  function DeleteTrip(s: State, id: string): (r: State)
    ensures forall i :: 0 <= i < |r.trips| ==> r.trips[i].id != id
    ensures forall i :: 0 <= i < |r.budgetItems| ==> r.budgetItems[i].tripId != id
    ensures forall i :: 0 <= i < |r.journalEntries| ==> r.journalEntries[i].tripId != id
    ensures forall i :: 0 <= i < |s.trips| && s.trips[i].id != id ==> s.trips[i] in r.trips
    ensures forall i :: 0 <= i < |s.budgetItems| && s.budgetItems[i].tripId != id ==> s.budgetItems[i] in r.budgetItems
    ensures forall i :: 0 <= i < |s.journalEntries| && s.journalEntries[i].tripId != id ==> s.journalEntries[i] in r.journalEntries
    ensures IsSubsequence(r.trips, s.trips)
    ensures IsSubsequence(r.budgetItems, s.budgetItems)
    ensures IsSubsequence(r.journalEntries, s.journalEntries)
    ensures forall t :: multiset(r.trips)[t] == if t.id != id then multiset(s.trips)[t] else 0
    ensures forall b :: multiset(r.budgetItems)[b] == if b.tripId != id then multiset(s.budgetItems)[b] else 0
    ensures forall e :: multiset(r.journalEntries)[e] == if e.tripId != id then multiset(s.journalEntries)[e] else 0
    ensures r.emergencyContacts == s.emergencyContacts
    ensures r.currentTripId == s.currentTripId && r.userName == s.userName
  {
    TripsWithout(s.trips, id);
    ItemsWithout(s.budgetItems, id);
    EntriesWithout(s.journalEntries, id);
    s.(trips := Filter(s.trips, (t: Trip) => t.id != id),
       budgetItems := Filter(s.budgetItems, (b: BudgetItem) => b.tripId != id),
       journalEntries := Filter(s.journalEntries, (e: JournalEntry) => e.tripId != id))
  }

  /** The trips `deleteTrip` keeps: none with the id, every other one as often
      as before and in its order. */
  lemma TripsWithout(trips: seq<Trip>, id: string)
    ensures var r := Filter(trips, (t: Trip) => t.id != id);
            && (forall i :: 0 <= i < |r| ==> r[i].id != id)
            && (forall i :: 0 <= i < |trips| && trips[i].id != id ==> trips[i] in r)
            && IsSubsequence(r, trips)
            && (forall t :: multiset(r)[t] == if t.id != id then multiset(trips)[t] else 0)
  {
    FilterIsSubsequence(trips, (t: Trip) => t.id != id);
    FilterMultiplicities(trips, (t: Trip) => t.id != id);
  }

  /** The budget items `deleteTrip` keeps: none naming the trip, every other
      one as often as before and in its order. */
  lemma ItemsWithout(items: seq<BudgetItem>, id: string)
    ensures var r := Filter(items, (b: BudgetItem) => b.tripId != id);
            && (forall i :: 0 <= i < |r| ==> r[i].tripId != id)
            && (forall i :: 0 <= i < |items| && items[i].tripId != id ==> items[i] in r)
            && IsSubsequence(r, items)
            && (forall b :: multiset(r)[b] == if b.tripId != id then multiset(items)[b] else 0)
  {
    FilterIsSubsequence(items, (b: BudgetItem) => b.tripId != id);
    FilterMultiplicities(items, (b: BudgetItem) => b.tripId != id);
  }

  /** The journal entries `deleteTrip` keeps: none naming the trip, every
      other one as often as before and in its order. */
  lemma EntriesWithout(entries: seq<JournalEntry>, id: string)
    ensures var r := Filter(entries, (e: JournalEntry) => e.tripId != id);
            && (forall i :: 0 <= i < |r| ==> r[i].tripId != id)
            && (forall i :: 0 <= i < |entries| && entries[i].tripId != id ==> entries[i] in r)
            && IsSubsequence(r, entries)
            && (forall e :: multiset(r)[e] == if e.tripId != id then multiset(entries)[e] else 0)
  {
    FilterIsSubsequence(entries, (e: JournalEntry) => e.tripId != id);
    FilterMultiplicities(entries, (e: JournalEntry) => e.tripId != id);
  }

  /** `setCurrentTrip`. */
  function SetCurrentTrip(s: State, id: Option<string>): (r: State)
    ensures r.currentTripId == id
    ensures r == s.(currentTripId := id)
  {
    s.(currentTripId := id)
  }

  // ---------------------------------------------------------------------------
  // Emergency contacts, budget items, journal entries

  /** `addEmergencyContact`. */
  function AddEmergencyContact(s: State, c: EmergencyContact): (r: State)
    ensures r.emergencyContacts == s.emergencyContacts + [c]
    ensures r == s.(emergencyContacts := r.emergencyContacts)
  {
    s.(emergencyContacts := s.emergencyContacts + [c])
  }

  /** `removeEmergencyContact`: drops exactly the contacts with the id, keeping the order of the rest. */
  function RemoveEmergencyContact(s: State, id: string): (r: State)
    ensures forall i :: 0 <= i < |r.emergencyContacts| ==> r.emergencyContacts[i].id != id
    ensures forall i :: 0 <= i < |s.emergencyContacts| && s.emergencyContacts[i].id != id ==>
              s.emergencyContacts[i] in r.emergencyContacts
    ensures IsSubsequence(r.emergencyContacts, s.emergencyContacts)
    ensures forall c :: multiset(r.emergencyContacts)[c] == if c.id != id then multiset(s.emergencyContacts)[c] else 0
    ensures r == s.(emergencyContacts := r.emergencyContacts)
  {
    FilterIsSubsequence(s.emergencyContacts, (c: EmergencyContact) => c.id != id);
    FilterMultiplicities(s.emergencyContacts, (c: EmergencyContact) => c.id != id);
    s.(emergencyContacts := Filter(s.emergencyContacts, (c: EmergencyContact) => c.id != id))
  }

  /** `addBudgetItem`. */
  function AddBudgetItem(s: State, b: BudgetItem): (r: State)
    ensures r.budgetItems == s.budgetItems + [b]
    ensures r == s.(budgetItems := r.budgetItems)
  {
    s.(budgetItems := s.budgetItems + [b])
  }

  /** `removeBudgetItem`: drops exactly the items with the id, keeping the order of the rest. */
  function RemoveBudgetItem(s: State, id: string): (r: State)
    ensures forall i :: 0 <= i < |r.budgetItems| ==> r.budgetItems[i].id != id
    ensures forall i :: 0 <= i < |s.budgetItems| && s.budgetItems[i].id != id ==>
              s.budgetItems[i] in r.budgetItems
    ensures IsSubsequence(r.budgetItems, s.budgetItems)
    ensures forall b :: multiset(r.budgetItems)[b] == if b.id != id then multiset(s.budgetItems)[b] else 0
    ensures r == s.(budgetItems := r.budgetItems)
  {
    FilterIsSubsequence(s.budgetItems, (b: BudgetItem) => b.id != id);
    FilterMultiplicities(s.budgetItems, (b: BudgetItem) => b.id != id);
    s.(budgetItems := Filter(s.budgetItems, (b: BudgetItem) => b.id != id))
  }

  /** `addJournalEntry`. */
  function AddJournalEntry(s: State, e: JournalEntry): (r: State)
    ensures r.journalEntries == s.journalEntries + [e]
    ensures r == s.(journalEntries := r.journalEntries)
  {
    s.(journalEntries := s.journalEntries + [e])
  }

  /** The entry `updateJournalEntry` leaves at one position. */
  function UpdatedEntry(e: JournalEntry, id: string, u: JournalPatch): JournalEntry {
    if e.id == id then ApplyJournalPatch(e, u) else e
  }

  /** `updateJournalEntry`: merges the patch into every entry with the id; unlike
      `updateTrip` it stamps no time. */
  function UpdateJournalEntry(s: State, id: string, u: JournalPatch): (r: State)
    ensures |r.journalEntries| == |s.journalEntries|
    ensures forall i :: 0 <= i < |s.journalEntries| && s.journalEntries[i].id != id ==>
              r.journalEntries[i] == s.journalEntries[i]
    ensures forall i :: 0 <= i < |s.journalEntries| && s.journalEntries[i].id == id ==>
              r.journalEntries[i] == ApplyJournalPatch(s.journalEntries[i], u)
    ensures r == s.(journalEntries := r.journalEntries)
  {
    s.(journalEntries := seq(|s.journalEntries|, i requires 0 <= i < |s.journalEntries| =>
                               UpdatedEntry(s.journalEntries[i], id, u)))
  }

  // ---------------------------------------------------------------------------
  // User

  /** `setUserName`. */
  function SetUserName(s: State, name: string): (r: State)
    ensures r.userName == name
    ensures r == s.(userName := name)
  {
    s.(userName := name)
  }

  // ---------------------------------------------------------------------------
  // Properties of the actions

  /** `updateTrip` with an id no trip carries changes nothing. */
  lemma UpdateTripAbsent(s: State, id: string, u: TripPatch, now: string)
    requires !HasTrip(s, id)
    ensures UpdateTrip(s, id, u, now) == s
  {
    var r := UpdateTrip(s, id, u, now);
    assert r.trips == s.trips;
  }

  /** `updateTrip(id, {})` changes only the `updatedAt` of the matching trips. */
  lemma UpdateTripEmptyPatch(s: State, id: string, now: string)
    ensures forall i :: 0 <= i < |s.trips| ==>
              UpdateTrip(s, id, EmptyTripPatch, now).trips[i] ==
              (if s.trips[i].id == id then s.trips[i].(updatedAt := now) else s.trips[i])
  {
    forall t: Trip ensures ApplyTripPatch(t, EmptyTripPatch) == t {
      ApplyTripPatchLaws(t, EmptyTripPatch);
    }
  }

  /** Repeating an `updateTrip` with the same patch and clock changes nothing more, even when
      the patch renames the trip. */
  lemma UpdateTripIdempotent(s: State, id: string, u: TripPatch, now: string)
    ensures UpdateTrip(UpdateTrip(s, id, u, now), id, u, now) == UpdateTrip(s, id, u, now)
  {
    var r1 := UpdateTrip(s, id, u, now);
    var r2 := UpdateTrip(r1, id, u, now);
    forall i | 0 <= i < |s.trips|
      ensures r2.trips[i] == r1.trips[i]
    {
      var t := s.trips[i];
      if t.id == id {
        ApplyTripPatchLaws(t, u);
        var m := ApplyTripPatch(t, u).(updatedAt := now);
        if m.id == id {
          assert ApplyTripPatch(m, u).(updatedAt := now) == m;
        }
      }
    }
    assert r2.trips == r1.trips;
  }

  /** `updateJournalEntry(id, {})` changes nothing: there is no timestamp to refresh. */
  lemma UpdateJournalEmptyPatch(s: State, id: string)
    ensures UpdateJournalEntry(s, id, EmptyJournalPatch) == s
  {
    var r := UpdateJournalEntry(s, id, EmptyJournalPatch);
    assert r.journalEntries == s.journalEntries;
  }

  /** Deleting the same trip twice is deleting it once. */
  lemma DeleteTripIdempotent(s: State, id: string)
    ensures DeleteTrip(DeleteTrip(s, id), id) == DeleteTrip(s, id)
  {
    FilterIdempotent(s.trips, (t: Trip) => t.id != id);
    FilterIdempotent(s.budgetItems, (b: BudgetItem) => b.tripId != id);
    FilterIdempotent(s.journalEntries, (e: JournalEntry) => e.tripId != id);
  }

  /** Deleting a trip that does not exist changes a referentially closed store not at all:
      there is nothing to cascade to. */
  lemma DeleteAbsentTrip(s: State, id: string)
    requires ReferentiallyClosed(s)
    requires !HasTrip(s, id)
    ensures DeleteTrip(s, id) == s
  {
    FilterAll(s.trips, (t: Trip) => t.id != id);
    forall i | 0 <= i < |s.budgetItems| ensures s.budgetItems[i].tripId != id {
      assert HasTrip(s, s.budgetItems[i].tripId);
    }
    FilterAll(s.budgetItems, (b: BudgetItem) => b.tripId != id);
    forall i | 0 <= i < |s.journalEntries| ensures s.journalEntries[i].tripId != id {
      assert HasTrip(s, s.journalEntries[i].tripId);
    }
    FilterAll(s.journalEntries, (e: JournalEntry) => e.tripId != id);
  }

  /** The cascade runs even without the trip: an orphaned budget item whose trip id is
      deleted disappears although no trip was removed. */
  lemma DeleteAbsentTripStillCascades(b: BudgetItem)
    ensures !HasTrip(InitialState().(budgetItems := [b]), b.tripId)
    ensures DeleteTrip(InitialState().(budgetItems := [b]), b.tripId).budgetItems == []
  {
    var s := InitialState().(budgetItems := [b]);
    assert Filter(s.budgetItems, (x: BudgetItem) => x.tripId != b.tripId) == [];
  }

  /** Deleting the selected trip leaves the selection pointing at a trip that no longer exists. */
  lemma DeleteSelectedTripKeepsSelection(s: State, id: string)
    requires s.currentTripId == Some(id)
    ensures DeleteTrip(s, id).currentTripId == Some(id)
    ensures !HasTrip(DeleteTrip(s, id), id)
  {
  }

  /** A fresh store is referentially closed. */
  lemma InitialClosed()
    ensures ReferentiallyClosed(InitialState())
  {
  }

  /** `deleteTrip`'s cascade keeps a referentially closed store closed. */
  lemma DeleteTripPreservesClosed(s: State, id: string)
    requires ReferentiallyClosed(s)
    ensures ReferentiallyClosed(DeleteTrip(s, id))
  {
    var r := DeleteTrip(s, id);
    forall i | 0 <= i < |r.budgetItems| ensures HasTrip(r, r.budgetItems[i].tripId) {
      var b := r.budgetItems[i];
      assert multiset(r.budgetItems)[b] > 0;
      assert b in s.budgetItems;
      DeleteKeepsOtherTrips(s, id, b.tripId);
    }
    forall i | 0 <= i < |r.journalEntries| ensures HasTrip(r, r.journalEntries[i].tripId) {
      var e := r.journalEntries[i];
      assert multiset(r.journalEntries)[e] > 0;
      assert e in s.journalEntries;
      DeleteKeepsOtherTrips(s, id, e.tripId);
    }
  }

  /** A trip id other than the deleted one is still carried by some trip. */
  lemma DeleteKeepsOtherTrips(s: State, id: string, other: string)
    requires other != id && HasTrip(s, other)
    ensures HasTrip(DeleteTrip(s, id), other)
  {
    var j :| 0 <= j < |s.trips| && s.trips[j].id == other;
    assert s.trips[j] in DeleteTrip(s, id).trips;
  }

  /** Adding a trip keeps a closed store closed. */
  lemma AddTripPreservesClosed(s: State, t: Trip)
    requires ReferentiallyClosed(s)
    ensures ReferentiallyClosed(AddTrip(s, t))
  {
    var r := AddTrip(s, t);
    forall id | HasTrip(s, id) ensures HasTrip(r, id) {
      var j :| 0 <= j < |s.trips| && s.trips[j].id == id;
      assert r.trips[j] == s.trips[j];
    }
  }

  /** Adding a budget item keeps a closed store closed exactly when the item names an existing trip. */
  lemma AddBudgetItemClosedIff(s: State, b: BudgetItem)
    requires ReferentiallyClosed(s)
    ensures ReferentiallyClosed(AddBudgetItem(s, b)) <==> HasTrip(s, b.tripId)
  {
    var r := AddBudgetItem(s, b);
    assert r.budgetItems[|s.budgetItems|] == b;
  }

  /** An `updateTrip` that does not rename keeps a closed store closed. */
  lemma UpdateTripPreservesClosed(s: State, id: string, u: TripPatch, now: string)
    requires ReferentiallyClosed(s)
    requires u.id == None || u.id == Some(id)
    ensures ReferentiallyClosed(UpdateTrip(s, id, u, now))
  {
    var r := UpdateTrip(s, id, u, now);
    forall x | HasTrip(s, x) ensures HasTrip(r, x) {
      var j :| 0 <= j < |s.trips| && s.trips[j].id == x;
      assert r.trips[j].id == x;
    }
  }

  /** Removing a budget item or an emergency contact keeps a closed store closed. */
  lemma RemovalsPreserveClosed(s: State, id: string)
    requires ReferentiallyClosed(s)
    ensures ReferentiallyClosed(RemoveBudgetItem(s, id))
    ensures ReferentiallyClosed(RemoveEmergencyContact(s, id))
  {
    var r := RemoveBudgetItem(s, id);
    forall i | 0 <= i < |r.budgetItems| ensures HasTrip(r, r.budgetItems[i].tripId) {
      var k :| 0 <= k < |s.budgetItems| && s.budgetItems[k] == r.budgetItems[i];
    }
  }

  /** Removing the same budget item or contact twice is removing it once. */
  lemma RemovalsIdempotent(s: State, id: string)
    ensures RemoveBudgetItem(RemoveBudgetItem(s, id), id) == RemoveBudgetItem(s, id)
    ensures RemoveEmergencyContact(RemoveEmergencyContact(s, id), id) == RemoveEmergencyContact(s, id)
  {
    FilterIdempotent(s.budgetItems, (b: BudgetItem) => b.id != id);
    FilterIdempotent(s.emergencyContacts, (c: EmergencyContact) => c.id != id);
  }
}

=== FILE: trip_types.dfy ===
/** The entities of the local trip store, as declared in
    `enviroai-main/src/types/trip.ts`, and the `Partial<..>` patches the
    store's update actions merge into them. Optional properties (`x?: T`)
    are `Option<T>`. */
module TripTypes {
  import opened Wrappers

  datatype TransportMode = Flight | Train | Bus | Car | Bike

  /** The string literal of each mode. */
  function ModeName(m: TransportMode): (r: string)
    ensures m == Flight <==> r == "flight"
    ensures m == Car <==> r == "car"
  {
    match m
    case Flight => "flight"
    case Train => "train"
    case Bus => "bus"
    case Car => "car"
    case Bike => "bike"
  }

  datatype TripStatus = Planning | Upcoming | Ongoing | Completed | Cancelled

  datatype Mood = Adventure | Relaxation | Scenic | Spiritual | Cultural | Foodie | Balanced

  datatype FoodPreference = Vegetarian | Vegan | NonVegetarian | Local | AnyFood

  datatype Trip = Trip(
    id: string,
    userId: string,
    from: string,
    to: string,
    departureDate: string,
    returnDate: Option<string>,
    mode: TransportMode,
    distance: Option<real>,
    duration: Option<real>,
    estimatedCost: Option<real>,
    currency: string,
    status: TripStatus,
    mood: Option<Mood>,
    foodPreference: Option<FoodPreference>,
    itinerary: Option<string>,
    budgetEstimated: Option<real>,
    budgetActual: Option<real>,
    rating: Option<real>,
    notes: Option<string>,
    createdAt: string,
    updatedAt: string)

  datatype JournalEntry = JournalEntry(
    id: string,
    tripId: string,
    date: string,
    content: string,
    photos: Option<seq<string>>,
    rating: Option<real>,
    createdAt: string)

  datatype EmergencyContact = EmergencyContact(
    id: string,
    name: string,
    phone: string,
    relationship: Option<string>)

  datatype BudgetCategory = Transport | Stay | Food | Activities | Shopping | Other

  datatype BudgetItem = BudgetItem(
    id: string,
    tripId: string,
    category: BudgetCategory,
    amount: real,
    currency: string,
    description: Option<string>,
    date: string)

  datatype VisaType = VisaFree | VisaRequired | VisaOnArrival | Evisa

  datatype VisaInfo = VisaInfo(
    destinationCountry: string,
    nationality: string,
    visaType: VisaType,
    requirements: seq<string>,
    processingTime: string,
    fee: Option<string>,
    officialLink: Option<string>,
    healthRequirements: Option<seq<string>>)

  /** `Partial<Trip>`: `None` is a key the patch does not mention. For an optional
      property the patch may also set it to `undefined`, which is `Some(None)`. */
  datatype TripPatch = TripPatch(
    id: Option<string>,
    userId: Option<string>,
    from: Option<string>,
    to: Option<string>,
    departureDate: Option<string>,
    returnDate: Option<Option<string>>,
    mode: Option<TransportMode>,
    distance: Option<Option<real>>,
    duration: Option<Option<real>>,
    estimatedCost: Option<Option<real>>,
    currency: Option<string>,
    status: Option<TripStatus>,
    mood: Option<Option<Mood>>,
    foodPreference: Option<Option<FoodPreference>>,
    itinerary: Option<Option<string>>,
    budgetEstimated: Option<Option<real>>,
    budgetActual: Option<Option<real>>,
    rating: Option<Option<real>>,
    notes: Option<Option<string>>,
    createdAt: Option<string>,
    updatedAt: Option<string>)

  /** The patch that mentions no key: `{}`. */
  const EmptyTripPatch := TripPatch(None, None, None, None, None, None, None, None, None, None,
                                    None, None, None, None, None, None, None, None, None, None, None)

  /** `{ ...trip, ...updates }`: every key the patch mentions wins. */
  function ApplyTripPatch(t: Trip, u: TripPatch): Trip {
    Trip(
      u.id.GetOr(t.id), u.userId.GetOr(t.userId), u.from.GetOr(t.from), u.to.GetOr(t.to),
      u.departureDate.GetOr(t.departureDate), u.returnDate.GetOr(t.returnDate),
      u.mode.GetOr(t.mode), u.distance.GetOr(t.distance), u.duration.GetOr(t.duration),
      u.estimatedCost.GetOr(t.estimatedCost), u.currency.GetOr(t.currency),
      u.status.GetOr(t.status), u.mood.GetOr(t.mood), u.foodPreference.GetOr(t.foodPreference),
      u.itinerary.GetOr(t.itinerary), u.budgetEstimated.GetOr(t.budgetEstimated),
      u.budgetActual.GetOr(t.budgetActual), u.rating.GetOr(t.rating), u.notes.GetOr(t.notes),
      u.createdAt.GetOr(t.createdAt), u.updatedAt.GetOr(t.updatedAt))
  }

  /** Merging `{}` changes nothing, and merging the same patch twice is merging it once. */
  lemma ApplyTripPatchLaws(t: Trip, u: TripPatch)
    ensures ApplyTripPatch(t, EmptyTripPatch) == t
    ensures ApplyTripPatch(ApplyTripPatch(t, u), u) == ApplyTripPatch(t, u)
  {
  }

  /** `Partial<JournalEntry>`, read like `TripPatch`. */
  datatype JournalPatch = JournalPatch(
    id: Option<string>,
    tripId: Option<string>,
    date: Option<string>,
    content: Option<string>,
    photos: Option<Option<seq<string>>>,
    rating: Option<Option<real>>,
    createdAt: Option<string>)

  /** The journal patch that mentions no key: `{}`. */
  const EmptyJournalPatch := JournalPatch(None, None, None, None, None, None, None)

  /** `{ ...entry, ...updates }`. */
  function ApplyJournalPatch(e: JournalEntry, u: JournalPatch): JournalEntry {
    JournalEntry(
      u.id.GetOr(e.id), u.tripId.GetOr(e.tripId), u.date.GetOr(e.date), u.content.GetOr(e.content),
      u.photos.GetOr(e.photos), u.rating.GetOr(e.rating), u.createdAt.GetOr(e.createdAt))
  }
}

=== FILE: visa.dfy ===
/** The visa checker: a lookup of a nationality and destination pair in a
    small table, with a generic "visa required" answer for every other pair.
    The one-second delay before the answer is left out. */
module Visa {
  import opened Wrappers
  import opened TripTypes
  import JsText

  // ---------------------------------------------------------------------------
  // The country options

  /** An option of a country selector: an ISO code and the country's name;
      the shown label is the country's flag, a space and the name. */
  datatype CountryOption = CountryOption(code: string, name: string)

  /** A two-letter upper-case country code. */
  predicate IsCountryCode(code: string) {
    |code| == 2 && 'A' <= code[0] <= 'Z' && 'A' <= code[1] <= 'Z'
  }

  /** The regional indicator symbol of an upper-case letter. */
  function RegionalIndicator(c: char): (r: char)
    requires 'A' <= c <= 'Z'
    ensures JsText.Utf16Width(r) == 2
  {
    (0x1F1E6 + (c as int - 'A' as int)) as char
  }

  /** The flag emoji of a country: the regional indicators of its code's
      letters, four UTF-16 code units in all. */
  function Flag(code: string): (r: string)
    requires IsCountryCode(code)
    ensures |r| == 2 && JsText.Utf16Length(r) == 4
  {
    var r := [RegionalIndicator(code[0]), RegionalIndicator(code[1])];
    assert r[1..][1..] == [];
    assert JsText.Utf16Length(r[1..]) == 2;
    r
  }

  /** The option's label. */
  function Caption(o: CountryOption): string
    requires IsCountryCode(o.code)
  {
    Flag(o.code) + " " + o.name
  }

  predicate ValidOptions(options: seq<CountryOption>) {
    forall i :: 0 <= i < |options| ==> IsCountryCode(options[i].code)
  }

  const Nationalities: seq<CountryOption> := [
    CountryOption("IN", "India"),
    CountryOption("US", "United States"),
    CountryOption("GB", "United Kingdom"),
    CountryOption("AU", "Australia"),
    CountryOption("CA", "Canada")]

  const Destinations: seq<CountryOption> := [
    CountryOption("TH", "Thailand"),
    CountryOption("SG", "Singapore"),
    CountryOption("AE", "UAE"),
    CountryOption("FR", "France"),
    CountryOption("JP", "Japan"),
    CountryOption("US", "United States"),
    CountryOption("GB", "United Kingdom"),
    CountryOption("NP", "Nepal"),
    CountryOption("BT", "Bhutan"),
    CountryOption("LK", "Sri Lanka")]

  /** `options.find((o) => o.value === code)`. */
  function Find(options: seq<CountryOption>, code: string): (r: Option<CountryOption>)
    ensures r.Some? ==> r.value in options && r.value.code == code
    ensures r.None? <==> forall i :: 0 <= i < |options| ==> options[i].code != code
  {
    if |options| == 0 then None
    else if options[0].code == code then Some(options[0])
    else Find(options[1..], code)
  }

  /** `find(...)?.label.slice(4) || code`: the label without its flag, which
      takes four UTF-16 code units, or the code itself. */
  function NameOf(options: seq<CountryOption>, code: string): string
    requires ValidOptions(options)
  {
    match Find(options, code)
    case Some(o) => JsText.OrElse(JsText.SliceUtf16(Caption(o), 4), code)
    case None => code
  }

  /** A listed country is named by its label with exactly the flag cut off, so
      the name keeps the space in front of it; an unlisted code names itself. */
  lemma NameOfSpec(options: seq<CountryOption>, code: string)
    requires ValidOptions(options)
    ensures Find(options, code).Some? ==> NameOf(options, code) == " " + Find(options, code).value.name
    ensures Find(options, code).None? ==> NameOf(options, code) == code
  {
    if Find(options, code).Some? {
      var o := Find(options, code).value;
      assert Caption(o) == Flag(o.code) + (" " + o.name);
      JsText.SliceUtf16Prefix(Flag(o.code), " " + o.name);
    }
  }

  lemma OptionsValid()
    ensures ValidOptions(Nationalities) && ValidOptions(Destinations)
  {
  }

  /** `find` returns the first option with the code. */
  lemma {:induction false} FindFirst(options: seq<CountryOption>, i: nat, code: string)
    requires i < |options| && options[i].code == code
    requires forall j :: 0 <= j < i ==> options[j].code != code
    ensures Find(options, code) == Some(options[i])
  {
    if i > 0 {
      FindFirst(options[1..], i - 1, code);
    }
  }

  /** Thailand, outside the table for other nationalities, is named from its
      label. */
  lemma ThailandName()
    ensures ValidOptions(Destinations) && NameOf(Destinations, "TH") == " Thailand"
  {
    OptionsValid();
    FindFirst(Destinations, 0, "TH");
    NameOfSpec(Destinations, "TH");
  }

  // ---------------------------------------------------------------------------
  // The table and its fallback

  /** `mockVisaData`: the four pairs the table knows. */
  function MockVisaData(key: string): (r: Option<VisaInfo>)
    ensures r.Some? <==> key in {"IN-TH", "IN-SG", "IN-AE", "IN-NP"}
  {
    match key
    case "IN-TH" => Some(VisaInfo("Thailand", "India", VisaOnArrival,
      ["Passport valid for at least 6 months", "Return flight ticket", "Hotel booking confirmation",
       "Proof of funds (10,000 THB)", "2 passport-size photographs"],
      "On arrival", Some("2,000 THB (~₹4,800)"), Some("https://www.thaiembassy.com/visa"),
      Some(["COVID-19 vaccination certificate (recommended)"])))
    case "IN-SG" => Some(VisaInfo("Singapore", "India", Evisa,
      ["Passport valid for at least 6 months", "Completed e-visa application", "Recent passport photo",
       "Confirmed hotel booking", "Return flight tickets", "Bank statements (last 3 months)"],
      "3-5 business days", Some("~₹1,000 - ₹2,500"), Some("https://www.ica.gov.sg/visitor/visas"), Some([])))
    case "IN-AE" => Some(VisaInfo("UAE", "India", Evisa,
      ["Passport valid for at least 6 months", "Colored passport photo", "Flight booking",
       "Hotel reservation", "Travel insurance"],
      "2-4 business days", Some("~₹7,000 - ₹10,000"),
      Some("https://www.government.ae/en/information-and-services/visa-and-emirates-id"), None))
    case "IN-NP" => Some(VisaInfo("Nepal", "India", VisaFree,
      ["Valid Indian passport OR", "Voter ID card", "No visa required for Indian citizens"],
      "N/A", Some("Free"), Some("https://www.immigration.gov.np"), None))
    case _ => None
  }

  const FallbackRequirements := [
    "Valid passport (6+ months validity)", "Visa application form", "Passport photos", "Bank statements",
    "Travel itinerary", "Hotel bookings", "Return tickets"]

  /** The answer for a pair: the table's entry, or a generic "visa required"
      answer naming both countries. */
  function Lookup(nationality: string, destination: string): (r: VisaInfo)
    ensures ValidOptions(Nationalities) && ValidOptions(Destinations)
    ensures MockVisaData(nationality + "-" + destination).Some? ==> r == MockVisaData(nationality + "-" + destination).value
    ensures MockVisaData(nationality + "-" + destination).None? ==>
              && r.visaType == VisaRequired
              && r.requirements == FallbackRequirements && |r.requirements| == 7
              && r.processingTime == "7-15 business days" && r.fee == Some("Varies")
              && r.officialLink == Some("https://www.visahq.com") && r.healthRequirements.None?
              && r.destinationCountry == NameOf(Destinations, destination)
              && r.nationality == NameOf(Nationalities, nationality)
  {
    OptionsValid();
    match MockVisaData(nationality + "-" + destination)
    case Some(info) => info
    case None =>
      VisaInfo(NameOf(Destinations, destination), NameOf(Nationalities, nationality), VisaRequired,
               FallbackRequirements, "7-15 business days", Some("Varies"), Some("https://www.visahq.com"), None)
  }

  /** A key names the pair it was made from: the table's keys have their only
      hyphen after "IN". */
  lemma KeyOfPair(nationality: string, destination: string, d: string)
    requires d in {"TH", "SG", "AE", "NP"}
    ensures nationality + "-" + destination == "IN-" + d <==> nationality == "IN" && destination == d
  {
    var key := nationality + "-" + destination;
    if key == "IN-" + d {
      assert key[|nationality|] == '-';
      assert forall j :: 0 <= j < 5 && ("IN-" + d)[j] == '-' ==> j == 2;
      assert nationality == key[..2] && destination == key[3..];
    }
  }

  /** The pairs the table knows. */
  lemma KeyInTable(nationality: string, destination: string)
    ensures nationality + "-" + destination in {"IN-TH", "IN-SG", "IN-AE", "IN-NP"} <==>
              nationality == "IN" && destination in {"TH", "SG", "AE", "NP"}
  {
    KeyOfPair(nationality, destination, "TH");
    KeyOfPair(nationality, destination, "SG");
    KeyOfPair(nationality, destination, "AE");
    KeyOfPair(nationality, destination, "NP");
    assert "IN-" + "TH" == "IN-TH" && "IN-" + "SG" == "IN-SG";
    assert "IN-" + "AE" == "IN-AE" && "IN-" + "NP" == "IN-NP";
  }

  /** The table's entries: none says "visa required", only Thailand lists
      health requirements, and each links to an official source. */
  lemma TableEntries(key: string)
    ensures MockVisaData(key).Some? ==> MockVisaData(key).value.visaType != VisaRequired
    ensures MockVisaData(key).Some? ==> MockVisaData(key).value.officialLink.Some?
    ensures key == "IN-NP" ==> MockVisaData(key).value.visaType == VisaFree
    ensures key == "IN-TH" ==> MockVisaData(key).value.visaType == VisaOnArrival
    ensures key in {"IN-SG", "IN-AE"} ==> MockVisaData(key).value.visaType == Evisa
    ensures MockVisaData(key).Some? && HealthCardShown(MockVisaData(key).value) <==> key == "IN-TH"
  {
  }

  /** Only Indian travellers to Thailand, Singapore, the UAE or Nepal get an
      answer other than "visa required", and exactly these four answers come
      from the table. */
  lemma TableAnswers(nationality: string, destination: string)
    ensures Lookup(nationality, destination).visaType != VisaRequired <==>
              nationality == "IN" && destination in {"TH", "SG", "AE", "NP"}
    ensures nationality == "IN" && destination == "NP" ==> Lookup(nationality, destination).visaType == VisaFree
    ensures nationality == "IN" && destination == "TH" ==> Lookup(nationality, destination).visaType == VisaOnArrival
    ensures nationality == "IN" && destination in {"SG", "AE"} ==> Lookup(nationality, destination).visaType == Evisa
  {
    KeyInTable(nationality, destination);
    TableEntries(nationality + "-" + destination);
  }

  /** A traveller from outside India to Thailand gets the generic answer,
      naming Thailand from its label. */
  lemma OtherTravellersToThailand(nationality: string)
    requires nationality != "IN"
    ensures Lookup(nationality, "TH").visaType == VisaRequired
    ensures Lookup(nationality, "TH").destinationCountry == " Thailand"
  {
    KeyInTable(nationality, "TH");
    ThailandName();
  }

  // ---------------------------------------------------------------------------
  // Presentation

  datatype VisaIcon = CheckCircle | PlaneIcon | FileText | AlertTriangle

  datatype VisaStyle = VisaStyle(bg: string, caption: string, icon: VisaIcon)

  /** `visaTypeStyles`: a style for each of the four visa types. */
  function StyleOf(t: VisaType): VisaStyle {
    match t
    case VisaFree => VisaStyle("bg-success", "Visa Free", CheckCircle)
    case VisaOnArrival => VisaStyle("bg-info", "Visa on Arrival", PlaneIcon)
    case Evisa => VisaStyle("bg-accent", "e-Visa Required", FileText)
    case VisaRequired => VisaStyle("bg-warning", "Visa Required", AlertTriangle)
  }

  /** Every visa type has its own style, so the banner tells the type. */
  lemma StylesDistinct(a: VisaType, b: VisaType)
    ensures StyleOf(a) == StyleOf(b) <==> a == b
    ensures StyleOf(a).caption == StyleOf(b).caption <==> a == b
  {
  }

  /** Whether the health requirements card is shown. */
  predicate HealthCardShown(info: VisaInfo) {
    info.healthRequirements.Some? && |info.healthRequirements.value| > 0
  }

  /** Only Indian travellers to Thailand see health requirements, and every
      answer links to an official source. */
  lemma HealthCardOnlyForThailand(nationality: string, destination: string)
    ensures HealthCardShown(Lookup(nationality, destination)) <==> nationality == "IN" && destination == "TH"
    ensures Lookup(nationality, destination).officialLink.Some?
  {
    KeyInTable(nationality, destination);
    KeyOfPair(nationality, destination, "TH");
    TableEntries(nationality + "-" + destination);
  }

  // ---------------------------------------------------------------------------
  // The page

  datatype Page = Page(nationality: string, destination: string, visaInfo: Option<VisaInfo>)

  const InitialPage := Page("IN", "", None)

  /** `checkVisa`: nothing happens without a destination; otherwise the answer
      for the selected pair is shown. */
  function CheckVisa(p: Page): (r: Page)
    ensures p.destination == "" ==> r == p
    ensures p.destination != "" ==> r == p.(visaInfo := Some(Lookup(p.nationality, p.destination)))
  {
    if p.destination == "" then p else p.(visaInfo := Some(Lookup(p.nationality, p.destination)))
  }

  /** Checking twice shows the same answer as checking once. */
  lemma CheckVisaIdempotent(p: Page)
    ensures CheckVisa(CheckVisa(p)) == CheckVisa(p)
  {
  }
}

=== FILE: weather_function.dfy ===
/** The `weather` serverless function: it resolves a place (geocoding a
    location name when coordinates are missing), fetches the forecast and
    reshapes it for the weather page. The geocoder's answer, the forecast
    response and the weekday names are parameters; nothing is fetched. */
module WeatherFunction {
  import opened Wrappers
  import opened Json
  import Http
  import JsText

  // ---------------------------------------------------------------------------
  // Weather codes

  /** What the page shows for a weather code. */
  datatype Condition = Condition(main: string, description: string, icon: string)

  /** The condition of a code missing from the table. */
  const UnknownCondition := Condition("Unknown", "unknown", "01d")

  /** The codes the table lists. */
  const KnownCodes: set<int> := {0, 1, 2, 3, 45, 48, 51, 53, 55, 61, 63, 65, 71, 73, 75, 80, 81, 82, 95, 96, 99}

  /** `weatherCodeToCondition[code]`, a subset of the WMO weather
      interpretation codes (WMO code table 4677) as Open-Meteo reports them. */
  function ConditionOf(code: int): Option<Condition> {
    match code
    case 0 => Some(Condition("Clear", "clear sky", "01d"))
    case 1 => Some(Condition("Clear", "mainly clear", "01d"))
    case 2 => Some(Condition("Clouds", "partly cloudy", "02d"))
    case 3 => Some(Condition("Clouds", "overcast", "03d"))
    case 45 => Some(Condition("Fog", "fog", "50d"))
    case 48 => Some(Condition("Fog", "depositing rime fog", "50d"))
    case 51 => Some(Condition("Drizzle", "light drizzle", "09d"))
    case 53 => Some(Condition("Drizzle", "moderate drizzle", "09d"))
    case 55 => Some(Condition("Drizzle", "dense drizzle", "09d"))
    case 61 => Some(Condition("Rain", "slight rain", "10d"))
    case 63 => Some(Condition("Rain", "moderate rain", "10d"))
    case 65 => Some(Condition("Rain", "heavy rain", "10d"))
    case 71 => Some(Condition("Snow", "slight snow", "13d"))
    case 73 => Some(Condition("Snow", "moderate snow", "13d"))
    case 75 => Some(Condition("Snow", "heavy snow", "13d"))
    case 80 => Some(Condition("Rain", "slight rain showers", "09d"))
    case 81 => Some(Condition("Rain", "moderate rain showers", "09d"))
    case 82 => Some(Condition("Rain", "violent rain showers", "09d"))
    case 95 => Some(Condition("Thunderstorm", "thunderstorm", "11d"))
    case 96 => Some(Condition("Thunderstorm", "thunderstorm with hail", "11d"))
    case 99 => Some(Condition("Thunderstorm", "severe thunderstorm", "11d"))
    case _ => None
  }

  /** `getCondition`: the table's entry, or the unknown condition. Only codes
      outside the table are reported as "Unknown". */
  function GetCondition(code: int): (r: Condition)
    ensures code in KnownCodes ==> Some(r) == ConditionOf(code)
    ensures code !in KnownCodes ==> r == UnknownCondition
    ensures r.main == "Unknown" <==> code !in KnownCodes
  {
    match ConditionOf(code)
    case Some(c) => c
    case None => UnknownCondition
  }

  /** The table follows the decades of the WMO code table: 0-3 sky state,
      4x fog, 5x drizzle, 6x rain, 7x snow, 80-82 rain showers and 95-99
      thunderstorms. */
  lemma ConditionByDecade(code: int)
    requires code in KnownCodes
    ensures GetCondition(code).main == "Clear" <==> 0 <= code <= 1
    ensures GetCondition(code).main == "Clouds" <==> 2 <= code <= 3
    ensures GetCondition(code).main == "Fog" <==> 40 <= code < 50
    ensures GetCondition(code).main == "Drizzle" <==> 50 <= code < 60
    ensures GetCondition(code).main == "Rain" <==> 60 <= code < 70 || 80 <= code < 90
    ensures GetCondition(code).main == "Snow" <==> 70 <= code < 80
    ensures GetCondition(code).main == "Thunderstorm" <==> 95 <= code <= 99
  {
  }

  /** The icon code of each weather code: "01d" for clear skies and unknown
      codes, "02d"/"03d" for partly cloudy and overcast, "50d" for fog, "09d"
      for drizzle and showers, "10d" for rain, "13d" for snow and "11d" for
      thunderstorms. */
  lemma IconCodes(code: int)
    ensures GetCondition(code).icon == "01d" <==> code in {0, 1} || code !in KnownCodes
    ensures GetCondition(code).icon == "02d" <==> code == 2
    ensures GetCondition(code).icon == "03d" <==> code == 3
    ensures GetCondition(code).icon == "50d" <==> code in {45, 48}
    ensures GetCondition(code).icon == "09d" <==> code in {51, 53, 55, 80, 81, 82}
    ensures GetCondition(code).icon == "10d" <==> code in {61, 63, 65}
    ensures GetCondition(code).icon == "13d" <==> code in {71, 73, 75}
    ensures GetCondition(code).icon == "11d" <==> code in {95, 96, 99}
  {
  }

  /** The conditions the function can report. */
  const Mains: set<string> := {"Clear", "Clouds", "Fog", "Drizzle", "Rain", "Snow", "Thunderstorm", "Unknown"}

  lemma MainsReported(code: int)
    ensures GetCondition(code).main in Mains
  {
  }

  /** Codes Open-Meteo documents but the table lacks (freezing drizzle 56-57,
      freezing rain 66-67, snow grains 77, snow showers 85-86) are reported
      as "Unknown". */
  lemma UnlistedOpenMeteoCodes(code: int)
    requires code in {56, 57, 66, 67, 77, 85, 86}
    ensures GetCondition(code) == UnknownCondition
  {
  }

  // ---------------------------------------------------------------------------
  // Request and place

  /** The fields read from the request body; an absent one is `Undefined`. */
  datatype Request = Request(lat: Json, lon: Json, location: Json)

  /** The first geocoder hit: `parseFloat` of its coordinates (`None` for
      `NaN`) and its `display_name`, if any. */
  datatype GeoHit = GeoHit(lat: Option<real>, lon: Option<real>, displayName: Option<string>)

  /** The resolved place: coordinates and the name reported back. */
  datatype Place = Place(lat: Json, lon: Json, name: Json)

  const LocationNotFound := "Location not found. Please try a different city name."
  const CoordinatesRequired := "Coordinates required. Please provide a location."

  /** The geocoder is asked only when a location is given and a coordinate is falsy. */
  predicate NeedsGeocoding(req: Request) {
    Truthy(req.location) && (!Truthy(req.lat) || !Truthy(req.lon))
  }

  /** A parsed coordinate as a JSON value. `NaN` is falsy like `null`, and the
      coordinate check rejects it before it could reach a response. */
  function ParsedNumber(x: Option<real>): (r: Json)
    ensures Truthy(r) <==> x.Some? && x.value != 0.0
  {
    match x
    case Some(v) => Num(v)
    case None => Null
  }

  /** `display_name?.split(',')[0] || location`. */
  function GeocodedName(displayName: Option<string>, location: Json): (r: Json)
    ensures displayName.Some? && JsText.FirstSegment(displayName.value, ',') != "" ==>
              r == Str(JsText.FirstSegment(displayName.value, ','))
    ensures displayName.None? || JsText.FirstSegment(displayName.value, ',') == "" ==> r == location
  {
    match displayName
    case Some(d) => if JsText.FirstSegment(d, ',') != "" then Str(JsText.FirstSegment(d, ',')) else location
    case None => location
  }

  /** The place to forecast. Without geocoding it is the request's
      coordinates and `location || 'Unknown'`; with geocoding it is the first
      hit, and no hit is an error. A failed geocoder call passes its error on. */
  function Locate(req: Request, geocode: Result<seq<GeoHit>>): (r: Result<Place>)
    ensures !NeedsGeocoding(req) ==> r.Ok? && r.value.lat == req.lat && r.value.lon == req.lon
    ensures !NeedsGeocoding(req) && Truthy(req.location) ==> r.value.name == req.location
    ensures !NeedsGeocoding(req) && !Truthy(req.location) ==> r.value.name == Str("Unknown")
    ensures NeedsGeocoding(req) && geocode.Ok? ==> (r.Err? <==> |geocode.value| == 0)
    ensures NeedsGeocoding(req) && geocode.Ok? && r.Err? ==> r.message == LocationNotFound
    ensures NeedsGeocoding(req) && geocode.Err? ==> r == Err(geocode.message)
    ensures NeedsGeocoding(req) && r.Ok? ==>
              var hit := geocode.value[0];
              r.value == Place(ParsedNumber(hit.lat), ParsedNumber(hit.lon), GeocodedName(hit.displayName, req.location))
  {
    if NeedsGeocoding(req) then
      match geocode
      case Err(m) => Err(m)
      case Ok(hits) =>
        if |hits| > 0 then
          Ok(Place(ParsedNumber(hits[0].lat), ParsedNumber(hits[0].lon), GeocodedName(hits[0].displayName, req.location)))
        else
          Err(LocationNotFound)
    else
      Ok(Place(req.lat, req.lon, if Truthy(req.location) then req.location else Str("Unknown")))
  }

  // ---------------------------------------------------------------------------
  // Forecast reshaping

  /** The parts of Open-Meteo's `current` block the function reads. */
  datatype CurrentRaw = CurrentRaw(temperature: real, apparentTemperature: real, humidity: real,
                                   windSpeed: real, weatherCode: int)

  /** One day of Open-Meteo's `daily` arrays, read at the same index. */
  datatype DayRaw = DayRaw(time: string, weatherCode: int, tempMax: real, tempMin: real,
                           humidityMax: real, windSpeedMax: real)

  datatype Forecast = Forecast(current: CurrentRaw, days: seq<DayRaw>)

  datatype Current = Current(temp: int, feelsLike: int, humidity: real, windSpeed: int,
                             condition: string, description: string, icon: string)

  datatype Day = Day(date: string, temp: int, tempMin: int, tempMax: int, humidity: real,
                     windSpeed: int, condition: string, description: string, icon: string)

  datatype WeatherData = WeatherData(current: Current, daily: seq<Day>, alerts: seq<Json>, location: Place)

  /** The response body: the data, or `{ error }`. */
  datatype Body = Data(data: WeatherData) | Failure(error: string)

  /** At most a week of days is returned. */
  const ForecastDays := 7

  /** The current block: temperatures and wind rounded, the condition looked up. */
  function ToCurrent(c: CurrentRaw): (r: Current)
    ensures r.temp as real - 0.5 <= c.temperature < r.temp as real + 0.5
    ensures r.feelsLike as real - 0.5 <= c.apparentTemperature < r.feelsLike as real + 0.5
    ensures r.windSpeed as real - 0.5 <= c.windSpeed < r.windSpeed as real + 0.5
    ensures r.humidity == c.humidity
    ensures Condition(r.condition, r.description, r.icon) == GetCondition(c.weatherCode)
  {
    var cond := GetCondition(c.weatherCode);
    Current(JsText.Round(c.temperature), JsText.Round(c.apparentTemperature), c.humidity,
            JsText.Round(c.windSpeed), cond.main, cond.description, cond.icon)
  }

  /** One day: the weekday name, the rounded mean of the extremes, the rounded
      extremes, the humidity as given and the looked-up condition. */
  function ToDay(d: DayRaw, weekday: string -> string): (r: Day)
    ensures r.date == weekday(d.time) && r.humidity == d.humidityMax
    ensures r.tempMin as real - 0.5 <= d.tempMin < r.tempMin as real + 0.5
    ensures r.tempMax as real - 0.5 <= d.tempMax < r.tempMax as real + 0.5
    ensures r.temp as real - 0.5 <= (d.tempMax + d.tempMin) / 2.0 < r.temp as real + 0.5
    ensures r.windSpeed as real - 0.5 <= d.windSpeedMax < r.windSpeed as real + 0.5
    ensures Condition(r.condition, r.description, r.icon) == GetCondition(d.weatherCode)
  {
    var cond := GetCondition(d.weatherCode);
    Day(weekday(d.time), JsText.Round((d.tempMax + d.tempMin) / 2.0), JsText.Round(d.tempMin),
        JsText.Round(d.tempMax), d.humidityMax, JsText.Round(d.windSpeedMax),
        cond.main, cond.description, cond.icon)
  }

  /** The rounded mean temperature never leaves the rounded range of the day. */
  lemma DayTempBetween(d: DayRaw, weekday: string -> string)
    requires d.tempMin <= d.tempMax
    ensures ToDay(d, weekday).tempMin <= ToDay(d, weekday).temp <= ToDay(d, weekday).tempMax
  {
    JsText.RoundMonotone(d.tempMin, (d.tempMax + d.tempMin) / 2.0);
    JsText.RoundMonotone((d.tempMax + d.tempMin) / 2.0, d.tempMax);
  }

  /** `daily.time.slice(0, 7).map(...)`: the first week of days, in order. */
  function Daily(days: seq<DayRaw>, weekday: string -> string): (r: seq<Day>)
    ensures |r| == if |days| < ForecastDays then |days| else ForecastDays
    ensures forall i :: 0 <= i < |r| ==> r[i] == ToDay(days[i], weekday)
  {
    var n := if |days| < ForecastDays then |days| else ForecastDays;
    seq(n, i requires 0 <= i < n => ToDay(days[i], weekday))
  }

  /** Reshaping a forecast: the alerts list is always empty. */
  function Transform(f: Forecast, place: Place, weekday: string -> string): (r: WeatherData)
    ensures r.alerts == [] && r.location == place
    ensures r.current == ToCurrent(f.current)
    ensures r.daily == Daily(f.days, weekday)
  {
    WeatherData(ToCurrent(f.current), Daily(f.days, weekday), [], place)
  }

  // ---------------------------------------------------------------------------
  // The handler

  /** The whole request: every error, thrown anywhere, becomes a 500 response
      carrying its message; success is a 200 with the reshaped data. A
      rejected forecast fetch passes its error on. */
  function Handle(req: Request, geocode: Result<seq<GeoHit>>, weather: Result<Http.Response<Forecast>>,
                  weekday: string -> string): (r: Http.Response<Body>)
    ensures r.status == 200 <==> r.body.Data?
    ensures r.status == 500 <==> r.body.Failure?
    ensures r.body.Data? ==> r.body.data.alerts == [] && |r.body.data.daily| <= ForecastDays
    ensures r.body.Data? ==> Truthy(r.body.data.location.lat) && Truthy(r.body.data.location.lon)
    ensures r.body.Data? ==> weather.Ok? && Http.IsOk(weather.value.status)
    ensures Locate(req, geocode).Err? ==> r.body == Failure(Locate(req, geocode).message)
    ensures Locate(req, geocode).Ok? && !(Truthy(Locate(req, geocode).value.lat) && Truthy(Locate(req, geocode).value.lon)) ==>
              r == Http.Response(500, Failure(CoordinatesRequired))
    ensures r.body.Data? ==>
              Locate(req, geocode).Ok? && r.body.data == Transform(weather.value.body, Locate(req, geocode).value, weekday)
    ensures Locate(req, geocode).Ok? && Truthy(Locate(req, geocode).value.lat) && Truthy(Locate(req, geocode).value.lon) &&
            weather.Ok? && Http.IsOk(weather.value.status) ==>
              r == Http.Response(200, Data(Transform(weather.value.body, Locate(req, geocode).value, weekday)))
  {
    match Locate(req, geocode)
    case Err(m) => Http.Response(500, Failure(m))
    case Ok(place) =>
      if !Truthy(place.lat) || !Truthy(place.lon) then
        Http.Response(500, Failure(CoordinatesRequired))
      else
        match weather
        case Err(m) => Http.Response(500, Failure(m))
        case Ok(resp) =>
          if !Http.IsOk(resp.status) then
            Http.Response(500, Failure("Weather API error: " + JsText.IntToString(resp.status)))
          else
            Http.Response(200, Data(Transform(resp.body, place, weekday)))
  }

  /** With both coordinates given, the geocoder is never consulted: its answer
      does not matter, and the request's coordinates are reported back. */
  lemma CoordinatesSkipGeocoding(req: Request, g1: Result<seq<GeoHit>>, g2: Result<seq<GeoHit>>,
                                 weather: Result<Http.Response<Forecast>>, weekday: string -> string)
    requires Truthy(req.lat) && Truthy(req.lon)
    ensures Handle(req, g1, weather, weekday) == Handle(req, g2, weather, weekday)
    ensures Handle(req, g1, weather, weekday).body.Data? ==>
              Handle(req, g1, weather, weekday).body.data.location.lat == req.lat &&
              Handle(req, g1, weather, weekday).body.data.location.lon == req.lon
  {
  }

  /** An empty geocoder answer is reported as "Location not found". */
  lemma EmptyGeocodeNotFound(req: Request, weather: Result<Http.Response<Forecast>>, weekday: string -> string)
    requires NeedsGeocoding(req)
    ensures Handle(req, Ok([]), weather, weekday) == Http.Response(500, Failure(LocationNotFound))
  {
  }

  /** Without a location, a falsy coordinate (a zero included) is refused
      before the forecast is fetched. */
  lemma FalsyCoordinatesRefused(req: Request, geocode: Result<seq<GeoHit>>,
                                weather: Result<Http.Response<Forecast>>, weekday: string -> string)
    requires !Truthy(req.location)
    requires !Truthy(req.lat) || !Truthy(req.lon)
    ensures Handle(req, geocode, weather, weekday) == Http.Response(500, Failure(CoordinatesRequired))
  {
  }

  /** A failed forecast call is reported with its status. */
  lemma UpstreamStatusReported(req: Request, geocode: Result<seq<GeoHit>>, resp: Http.Response<Forecast>,
                               weekday: string -> string)
    requires Locate(req, geocode).Ok?
    requires Truthy(Locate(req, geocode).value.lat) && Truthy(Locate(req, geocode).value.lon)
    requires !Http.IsOk(resp.status)
    ensures Handle(req, geocode, Ok(resp), weekday).status == 500
    ensures Handle(req, geocode, Ok(resp), weekday).body.error == "Weather API error: " + JsText.IntToString(resp.status)
  {
  }

  /** A geocoded place is named after the part of its display name before the
      first comma, e.g. "Goa" for "Goa, India". */
  lemma GeocodedNameExample(location: Json)
    ensures GeocodedName(Some("Goa, India"), location) == Str("Goa")
    ensures GeocodedName(Some(", India"), location) == location
    ensures GeocodedName(None, location) == location
  {
    assert "Goa, India" == "Goa" + [','] + " India";
    JsText.FirstSegmentOf("Goa", ',', " India");
    assert ", India" == "" + [','] + " India";
    JsText.FirstSegmentOf("", ',', " India");
  }
}

=== FILE: weather_page.dfy ===
/** The weather page: the icon, background and travel-alert classifiers, the
    location guard of `fetchWeather` and the selected-day state. The result of
    invoking the `weather` function is a parameter. */
module WeatherPage {
  import opened Wrappers
  import opened Json
  import JsText
  import Http
  import WeatherFunction

  // ---------------------------------------------------------------------------
  // Classifiers

  datatype Icon = Sun | Cloud | CloudRain | CloudSnow

  /** `getWeatherIcon`: the first matching group of icon codes wins, and
      anything unmatched is a cloud. */
  function WeatherIcon(icon: string): Icon {
    if JsText.Contains(icon, "01") || JsText.Contains(icon, "02") then Sun
    else if JsText.Contains(icon, "03") || JsText.Contains(icon, "04") then Cloud
    else if JsText.Contains(icon, "09") || JsText.Contains(icon, "10") || JsText.Contains(icon, "11") then CloudRain
    else if JsText.Contains(icon, "13") then CloudSnow
    else Cloud
  }

  /** Which icon codes give which picture: a sun for "01"/"02", rain for
      "09"/"10"/"11" and snow for "13", each only when no earlier group
      matched, and a cloud otherwise. */
  lemma WeatherIconSpec(icon: string)
    ensures WeatherIcon(icon) == Sun <==> JsText.Contains(icon, "01") || JsText.Contains(icon, "02")
    ensures WeatherIcon(icon) == CloudRain <==>
              !JsText.Contains(icon, "01") && !JsText.Contains(icon, "02") &&
              !JsText.Contains(icon, "03") && !JsText.Contains(icon, "04") &&
              (JsText.Contains(icon, "09") || JsText.Contains(icon, "10") || JsText.Contains(icon, "11"))
    ensures WeatherIcon(icon) == CloudSnow <==>
              !JsText.Contains(icon, "01") && !JsText.Contains(icon, "02") &&
              !JsText.Contains(icon, "03") && !JsText.Contains(icon, "04") &&
              !JsText.Contains(icon, "09") && !JsText.Contains(icon, "10") && !JsText.Contains(icon, "11") &&
              JsText.Contains(icon, "13")
  {
  }

  datatype Gradient = GradientWarm | GradientCool | BgInfo | BgMuted

  /** `getWeatherGradient` after lower-casing: clear or sun is warm, then rain,
      drizzle or thunder is cool, then snow is the info colour, else muted. */
  function GradientOfLower(c: string): (r: Gradient)
    ensures r == GradientWarm <==> JsText.Contains(c, "clear") || JsText.Contains(c, "sun")
    ensures r == GradientCool <==>
              !JsText.Contains(c, "clear") && !JsText.Contains(c, "sun") &&
              (JsText.Contains(c, "rain") || JsText.Contains(c, "drizzle") || JsText.Contains(c, "thunder"))
    ensures r == BgInfo <==>
              !JsText.Contains(c, "clear") && !JsText.Contains(c, "sun") &&
              !JsText.Contains(c, "rain") && !JsText.Contains(c, "drizzle") && !JsText.Contains(c, "thunder") &&
              JsText.Contains(c, "snow")
  {
    if JsText.Contains(c, "clear") || JsText.Contains(c, "sun") then GradientWarm
    else if JsText.Contains(c, "rain") || JsText.Contains(c, "drizzle") || JsText.Contains(c, "thunder") then GradientCool
    else if JsText.Contains(c, "snow") then BgInfo
    else BgMuted
  }

  /** `getWeatherGradient`. */
  function WeatherGradient(condition: string): Gradient {
    GradientOfLower(JsText.ToLower(condition))
  }

  datatype AlertLevel = Safe | Caution | HighRisk

  /** `getAlertLevel` after lower-casing: rain, storm and thunder are checked
      before snow, extreme and hurricane. */
  function AlertOfLower(c: string): (r: AlertLevel)
    ensures r == Caution <==>
              JsText.Contains(c, "rain") || JsText.Contains(c, "storm") || JsText.Contains(c, "thunder")
    ensures r == HighRisk <==>
              !JsText.Contains(c, "rain") && !JsText.Contains(c, "storm") && !JsText.Contains(c, "thunder") &&
              (JsText.Contains(c, "snow") || JsText.Contains(c, "extreme") || JsText.Contains(c, "hurricane"))
  {
    if JsText.Contains(c, "rain") || JsText.Contains(c, "storm") || JsText.Contains(c, "thunder") then Caution
    else if JsText.Contains(c, "snow") || JsText.Contains(c, "extreme") || JsText.Contains(c, "hurricane") then HighRisk
    else Safe
  }

  /** `getAlertLevel`. */
  function AlertLevelOf(condition: string): AlertLevel {
    AlertOfLower(JsText.ToLower(condition))
  }

  /** The two text classifiers ignore the case of the condition. */
  lemma ClassifiersIgnoreCase(condition: string)
    ensures WeatherGradient(JsText.ToLower(condition)) == WeatherGradient(condition)
    ensures AlertLevelOf(JsText.ToLower(condition)) == AlertLevelOf(condition)
  {
    JsText.ToLowerIdempotent(condition);
  }

  /** Rain is checked first: "Rain and Snow" is a caution, not a high risk. */
  lemma RainBeforeSnow()
    ensures AlertLevelOf("Rain and Snow") == Caution
  {
    assert JsText.ToLower("Rain and Snow") == "rain and snow";
    JsText.ContainsWitness("rain and snow", "rain", 0);
  }

  // ---------------------------------------------------------------------------
  // The classifiers on the weather function's table

  // The icons the table uses, as the page draws them.

  /** Clear and partly cloudy skies are drawn as a sun. */
  lemma SunIcons()
    ensures WeatherIcon("01d") == Sun && WeatherIcon("02d") == Sun
  {
    JsText.ContainsWitness("01d", "01", 0);
    JsText.ContainsWitness("02d", "02", 0);
  }

  lemma Icon03d() ensures WeatherIcon("03d") == Cloud {
    JsText.MissingChar("03d", "01", 1);
    JsText.MissingChar("03d", "02", 1);
    JsText.ContainsWitness("03d", "03", 0);
  }

  lemma Icon50d() ensures WeatherIcon("50d") == Cloud {
    JsText.MissingChar("50d", "01", 1);
    JsText.MissingChar("50d", "02", 1);
    JsText.MissingChar("50d", "03", 1);
    JsText.MissingChar("50d", "04", 1);
    JsText.MissingChar("50d", "09", 1);
    JsText.MissingChar("50d", "10", 0);
    JsText.MissingChar("50d", "11", 0);
    JsText.MissingChar("50d", "13", 0);
  }

  lemma Icon09d() ensures WeatherIcon("09d") == CloudRain {
    JsText.MissingChar("09d", "01", 1);
    JsText.MissingChar("09d", "02", 1);
    JsText.MissingChar("09d", "03", 1);
    JsText.MissingChar("09d", "04", 1);
    JsText.ContainsWitness("09d", "09", 0);
  }

  lemma Icon10d() ensures WeatherIcon("10d") == CloudRain {
    JsText.MissingPair("10d", "01", 0);
    JsText.MissingChar("10d", "02", 1);
    JsText.MissingChar("10d", "03", 1);
    JsText.MissingChar("10d", "04", 1);
    JsText.ContainsWitness("10d", "10", 0);
  }

  lemma Icon11d() ensures WeatherIcon("11d") == CloudRain {
    JsText.MissingChar("11d", "01", 0);
    JsText.MissingChar("11d", "02", 0);
    JsText.MissingChar("11d", "03", 0);
    JsText.MissingChar("11d", "04", 0);
    JsText.ContainsWitness("11d", "11", 0);
  }

  lemma Icon13d() ensures WeatherIcon("13d") == CloudSnow {
    JsText.MissingChar("13d", "01", 0);
    JsText.MissingChar("13d", "02", 0);
    JsText.MissingChar("13d", "03", 0);
    JsText.MissingChar("13d", "04", 0);
    JsText.MissingChar("13d", "09", 0);
    JsText.MissingChar("13d", "10", 1);
    JsText.MissingPair("13d", "11", 0);
    JsText.ContainsWitness("13d", "13", 0);
  }

  /** The icon drawn for each weather code: a sun for clear and partly cloudy
      skies and also for every code the table does not know; rain clouds for
      drizzle, rain and thunderstorms; snow clouds for snow; plain clouds for
      overcast skies and fog. */
  lemma IconOfCode(code: int)
    ensures WeatherIcon(WeatherFunction.GetCondition(code).icon) == Sun <==>
              code in {0, 1, 2} || code !in WeatherFunction.KnownCodes
    ensures WeatherIcon(WeatherFunction.GetCondition(code).icon) == Cloud <==> code in {3, 45, 48}
    ensures WeatherIcon(WeatherFunction.GetCondition(code).icon) == CloudRain <==>
              WeatherFunction.GetCondition(code).main in {"Drizzle", "Rain", "Thunderstorm"}
    ensures WeatherIcon(WeatherFunction.GetCondition(code).icon) == CloudSnow <==>
              WeatherFunction.GetCondition(code).main == "Snow"
  {
    WeatherFunction.IconCodes(code);
    SunIcons(); Icon03d(); Icon50d(); Icon09d(); Icon10d(); Icon11d(); Icon13d();
  }

  // The conditions the table reports, as the page classifies them.

  lemma LowerConditions()
    ensures JsText.ToLower("Clear") == "clear" && JsText.ToLower("Clouds") == "clouds"
    ensures JsText.ToLower("Fog") == "fog" && JsText.ToLower("Drizzle") == "drizzle"
    ensures JsText.ToLower("Rain") == "rain" && JsText.ToLower("Snow") == "snow"
    ensures JsText.ToLower("Thunderstorm") == "thunderstorm" && JsText.ToLower("Unknown") == "unknown"
  {
  }

  lemma ClearGradient() ensures GradientOfLower("clear") == GradientWarm {
    JsText.ContainsWitness("clear", "clear", 0);
  }

  lemma ClearAlert() ensures AlertOfLower("clear") == Safe {
    JsText.MissingChar("clear", "rain", 2);
    JsText.MissingChar("clear", "storm", 0);
    JsText.MissingChar("clear", "thunder", 0);
    JsText.MissingChar("clear", "snow", 0);
    JsText.MissingChar("clear", "extreme", 1);
    JsText.MissingChar("clear", "hurricane", 0);
  }

  lemma CloudsGradient() ensures GradientOfLower("clouds") == BgMuted {
    JsText.MissingChar("clouds", "clear", 2);
    JsText.MissingChar("clouds", "sun", 2);
    JsText.MissingChar("clouds", "rain", 0);
    JsText.MissingChar("clouds", "drizzle", 1);
    JsText.MissingChar("clouds", "thunder", 0);
    JsText.MissingChar("clouds", "snow", 1);
  }

  lemma CloudsAlert() ensures AlertOfLower("clouds") == Safe {
    JsText.MissingChar("clouds", "rain", 0);
    JsText.MissingChar("clouds", "storm", 1);
    JsText.MissingChar("clouds", "thunder", 0);
    JsText.MissingChar("clouds", "snow", 1);
    JsText.MissingChar("clouds", "extreme", 1);
    JsText.MissingChar("clouds", "hurricane", 0);
  }

  /** Fog and an unknown condition match no keyword and get the muted background. */
  lemma MutedGradients()
    ensures GradientOfLower("fog") == BgMuted && GradientOfLower("unknown") == BgMuted
  {
    JsText.MissingChar("fog", "clear", 0);
    JsText.MissingChar("fog", "sun", 0);
    JsText.MissingChar("fog", "rain", 0);
    JsText.MissingChar("fog", "drizzle", 0);
    JsText.MissingChar("fog", "thunder", 0);
    JsText.MissingChar("fog", "snow", 0);
    JsText.MissingChar("unknown", "clear", 0);
    JsText.MissingChar("unknown", "sun", 0);
    JsText.MissingChar("unknown", "rain", 0);
    JsText.MissingChar("unknown", "drizzle", 0);
    JsText.MissingChar("unknown", "thunder", 0);
    JsText.MissingChar("unknown", "snow", 0);
  }

  lemma FogAlert() ensures AlertOfLower("fog") == Safe {
    JsText.MissingChar("fog", "rain", 0);
    JsText.MissingChar("fog", "storm", 0);
    JsText.MissingChar("fog", "thunder", 0);
    JsText.MissingChar("fog", "snow", 0);
    JsText.MissingChar("fog", "extreme", 0);
    JsText.MissingChar("fog", "hurricane", 0);
  }

  lemma DrizzleGradient() ensures GradientOfLower("drizzle") == GradientCool {
    JsText.MissingChar("drizzle", "clear", 0);
    JsText.MissingChar("drizzle", "sun", 0);
    JsText.MissingChar("drizzle", "rain", 1);
    JsText.ContainsWitness("drizzle", "drizzle", 0);
  }

  lemma DrizzleAlert() ensures AlertOfLower("drizzle") == Safe {
    JsText.MissingChar("drizzle", "rain", 1);
    JsText.MissingChar("drizzle", "storm", 0);
    JsText.MissingChar("drizzle", "thunder", 0);
    JsText.MissingChar("drizzle", "snow", 0);
    JsText.MissingChar("drizzle", "extreme", 1);
    JsText.MissingChar("drizzle", "hurricane", 0);
  }

  lemma RainGradient() ensures GradientOfLower("rain") == GradientCool {
    JsText.MissingChar("rain", "clear", 0);
    JsText.MissingChar("rain", "sun", 0);
    JsText.ContainsWitness("rain", "rain", 0);
  }

  lemma RainAlert() ensures AlertOfLower("rain") == Caution {
    JsText.ContainsWitness("rain", "rain", 0);
  }

  lemma SnowGradient() ensures GradientOfLower("snow") == BgInfo {
    JsText.MissingChar("snow", "clear", 0);
    JsText.MissingChar("snow", "sun", 1);
    JsText.MissingChar("snow", "rain", 0);
    JsText.MissingChar("snow", "drizzle", 0);
    JsText.MissingChar("snow", "thunder", 0);
    JsText.ContainsWitness("snow", "snow", 0);
  }

  lemma SnowAlert() ensures AlertOfLower("snow") == HighRisk {
    JsText.MissingChar("snow", "rain", 0);
    JsText.MissingChar("snow", "storm", 1);
    JsText.MissingChar("snow", "thunder", 0);
    JsText.ContainsWitness("snow", "snow", 0);
  }

  lemma ThunderstormHasNoSun() ensures !JsText.Contains("thunderstorm", "sun") {
    assert forall j :: 0 <= j < 11 && "thunderstorm"[j] == 's' ==> j == 7;
    JsText.MissingPair("thunderstorm", "sun", 0);
  }

  lemma ThunderstormGradient() ensures GradientOfLower("thunderstorm") == GradientCool {
    JsText.MissingChar("thunderstorm", "clear", 0);
    ThunderstormHasNoSun();
    JsText.MissingChar("thunderstorm", "rain", 1);
    JsText.MissingChar("thunderstorm", "drizzle", 3);
    JsText.ContainsWitness("thunderstorm", "thunder", 0);
  }

  lemma ThunderstormAlert() ensures AlertOfLower("thunderstorm") == Caution {
    JsText.MissingChar("thunderstorm", "rain", 1);
    JsText.ContainsWitness("thunderstorm", "storm", 7);
  }

  lemma UnknownAlert() ensures AlertOfLower("unknown") == Safe {
    JsText.MissingChar("unknown", "rain", 0);
    JsText.MissingChar("unknown", "storm", 0);
    JsText.MissingChar("unknown", "thunder", 0);
    JsText.MissingChar("unknown", "snow", 0);
    JsText.MissingChar("unknown", "extreme", 0);
    JsText.MissingChar("unknown", "hurricane", 0);
  }

  /** The alert level of each condition the function reports. */
  lemma AlertOfMain(m: string)
    requires m in WeatherFunction.Mains
    ensures AlertLevelOf(m) == Caution <==> m in {"Rain", "Thunderstorm"}
    ensures AlertLevelOf(m) == HighRisk <==> m == "Snow"
    ensures AlertLevelOf(m) == Safe <==> m in {"Clear", "Clouds", "Fog", "Drizzle", "Unknown"}
  {
    LowerConditions();
    if m == "Clear" { ClearAlert(); }
    else if m == "Clouds" { CloudsAlert(); }
    else if m == "Fog" { FogAlert(); }
    else if m == "Drizzle" { DrizzleAlert(); }
    else if m == "Rain" { RainAlert(); }
    else if m == "Snow" { SnowAlert(); }
    else if m == "Thunderstorm" { ThunderstormAlert(); }
    else { UnknownAlert(); }
  }

  /** The header background of each condition the function reports. */
  lemma GradientOfMain(m: string)
    requires m in WeatherFunction.Mains
    ensures WeatherGradient(m) == GradientWarm <==> m == "Clear"
    ensures WeatherGradient(m) == GradientCool <==> m in {"Drizzle", "Rain", "Thunderstorm"}
    ensures WeatherGradient(m) == BgInfo <==> m == "Snow"
    ensures WeatherGradient(m) == BgMuted <==> m in {"Clouds", "Fog", "Unknown"}
  {
    LowerConditions();
    if m == "Clear" { ClearGradient(); }
    else if m == "Clouds" { CloudsGradient(); }
    else if m == "Fog" { MutedGradients(); }
    else if m == "Drizzle" { DrizzleGradient(); }
    else if m == "Rain" { RainGradient(); }
    else if m == "Snow" { SnowGradient(); }
    else if m == "Thunderstorm" { ThunderstormGradient(); }
    else { MutedGradients(); }
  }

  /** On the conditions the weather function reports, travel is a caution
      exactly for rain and thunderstorms, a high risk exactly for snow, and
      safe otherwise, drizzle included; the background is warm only for clear
      skies. */
  lemma ClassifiersOfCode(code: int)
    ensures AlertLevelOf(WeatherFunction.GetCondition(code).main) == Caution <==> code in {61, 63, 65, 80, 81, 82, 95, 96, 99}
    ensures AlertLevelOf(WeatherFunction.GetCondition(code).main) == HighRisk <==> code in {71, 73, 75}
    ensures WeatherGradient(WeatherFunction.GetCondition(code).main) == GradientWarm <==> code in {0, 1}
    ensures WeatherGradient(WeatherFunction.GetCondition(code).main) == GradientCool <==>
              code in {51, 53, 55, 61, 63, 65, 80, 81, 82, 95, 96, 99}
  {
    var m := WeatherFunction.GetCondition(code).main;
    WeatherFunction.MainsReported(code);
    if code in WeatherFunction.KnownCodes {
      WeatherFunction.ConditionByDecade(code);
    }
    AlertOfMain(m);
    GradientOfMain(m);
  }

  // ---------------------------------------------------------------------------
  // Page state

  /** The page's state: the search text, the loaded data and the selected day. */
  datatype Page = Page(location: string, weather: Option<WeatherFunction.WeatherData>, selectedDay: int)

  const InitialPage := Page("Mumbai", None, 0)

  datatype Toast = ErrorToast(message: string) | SuccessToast(message: string)

  /** The page sends only the location; the function geocodes it. */
  function RequestFor(location: string): (r: WeatherFunction.Request)
    ensures location != "" ==> WeatherFunction.NeedsGeocoding(r)
  {
    WeatherFunction.Request(Undefined, Undefined, Str(location))
  }

  /** `supabase.functions.invoke`: a non-2xx response is reported as an error,
      otherwise the body is returned as `data`. */
  function Invoke(resp: Http.Response<WeatherFunction.Body>): (r: Result<WeatherFunction.Body>)
    ensures r.Ok? <==> Http.IsOk(resp.status)
    ensures r.Ok? ==> r.value == resp.body
  {
    if Http.IsOk(resp.status) then Ok(resp.body) else Err("Edge Function returned a non-2xx status code")
  }

  /** Whether `fetchWeather` calls the function at all. */
  predicate Sends(p: Page) {
    JsText.Trim(p.location) != ""
  }

  /** `fetchWeather`: a blank location is refused before any request; an
      invocation error or an `error` field keeps the old data; data replaces
      the old data and selects the first day. */
  function FetchWeather(p: Page, invoked: Result<WeatherFunction.Body>): (r: (Page, Toast))
    ensures !Sends(p) ==> r == (p, ErrorToast("Please enter a location"))
    ensures Sends(p) && invoked.Ok? && invoked.value.Data? ==>
              r == (Page(p.location, Some(invoked.value.data), 0), SuccessToast("Weather loaded for " + p.location))
    ensures Sends(p) && (invoked.Err? || invoked.value.Failure?) ==>
              r == (p, ErrorToast("Failed to fetch weather data. Please try again."))
  {
    if !Sends(p) then (p, ErrorToast("Please enter a location"))
    else
      match invoked
      case Ok(Data(d)) => (p.(weather := Some(d), selectedDay := 0), SuccessToast("Weather loaded for " + p.location))
      case _ => (p, ErrorToast("Failed to fetch weather data. Please try again."))
  }

  /** A whitespace-only location is refused. */
  lemma BlankLocationRefused(p: Page, invoked: Result<WeatherFunction.Body>)
    requires JsText.AllWhitespace(p.location)
    ensures FetchWeather(p, invoked) == (p, ErrorToast("Please enter a location"))
  {
    JsText.BlankIffAllWhitespace(p.location);
  }

  /** A day card was clicked. */
  function SelectDay(p: Page, index: int): (r: Page)
    ensures r.selectedDay == index && r.weather == p.weather && r.location == p.location
  {
    p.(selectedDay := index)
  }

  /** `weather?.daily || []`. */
  function DailyForecast(p: Page): (r: seq<WeatherFunction.Day>)
    ensures p.weather.None? ==> r == []
    ensures p.weather.Some? ==> r == p.weather.value.daily
  {
    match p.weather
    case Some(w) => w.daily
    case None => []
  }

  /** The alert shown for the selected day, or "safe" when there is no such day. */
  function SelectedAlert(p: Page): (r: AlertLevel)
    ensures !(0 <= p.selectedDay < |DailyForecast(p)|) ==> r == Safe
    ensures 0 <= p.selectedDay < |DailyForecast(p)| ==> r == AlertLevelOf(DailyForecast(p)[p.selectedDay].condition)
  {
    var days := DailyForecast(p);
    if 0 <= p.selectedDay < |days| then AlertLevelOf(days[p.selectedDay].condition) else Safe
  }

  /** The header background: the current condition's, or warm before any data. */
  function HeaderGradient(p: Page): (r: Gradient)
    ensures p.weather.None? ==> r == GradientWarm
    ensures p.weather.Some? ==> r == WeatherGradient(p.weather.value.current.condition)
  {
    match p.weather
    case Some(w) => WeatherGradient(w.current.condition)
    case None => GradientWarm
  }

  /** The alerts panel is drawn only for a non-empty alerts list. */
  predicate AlertsShown(p: Page) {
    p.weather.Some? && |p.weather.value.alerts| > 0
  }

  /** The data on the page came from the weather function: no alerts and at
      most a week of days. */
  predicate FromFunction(p: Page) {
    p.weather.Some? ==> p.weather.value.alerts == [] && |p.weather.value.daily| <= WeatherFunction.ForecastDays
  }

  /** A fetch through the weather function: the page shows new data exactly when
      the function answered 200, the first day is then selected, and the alerts
      panel never appears. */
  lemma FetchThroughFunction(p: Page, geocode: Result<seq<WeatherFunction.GeoHit>>,
                             weather: Result<Http.Response<WeatherFunction.Forecast>>, weekday: string -> string)
    requires Sends(p) && FromFunction(p)
    ensures var resp := WeatherFunction.Handle(RequestFor(p.location), geocode, weather, weekday);
            var r := FetchWeather(p, Invoke(resp)).0;
            && (resp.status == 200 ==> r.weather == Some(resp.body.data) && r.selectedDay == 0)
            && (resp.status != 200 ==> r == p)
            && FromFunction(r) && !AlertsShown(r)
  {
  }

  /** Selecting a day keeps the alerts panel hidden. */
  lemma SelectKeepsAlertsHidden(p: Page, index: int)
    requires FromFunction(p)
    ensures FromFunction(SelectDay(p, index)) && !AlertsShown(SelectDay(p, index))
  {
  }
}

=== FILE: wrappers.dfy ===
/** Failure-carrying values: JavaScript's `undefined`/`null` and thrown errors
    become explicit `Option` and `Result` values. */
module Wrappers {

  /** A value that may be absent (`undefined` or `null` in the source). */
  datatype Option<+T> = None | Some(value: T) {

    /** The value, or `default` when absent. */
    function GetOr(default: T): T {
      match this
      case Some(v) => v
      case None => default
    }
  }

  /** The outcome of a step that may be rejected with a message. */
  datatype Result<+T> = Ok(value: T) | Err(message: string)
}
